=== FILE: README.md ===
# PUG-Bot core in Dafny

PUG-Bot is a Discord bot for a Minecraft capture-the-flag community. It registers
players and links their Minecraft and Discord accounts. It keeps ELO and priority,
issues strikes, and tracks event signups through message reactions. It also
answers a handful of map, roster and schedule commands. This project models the
deterministic core of the bot as pure functions over immutable in-memory tables,
and proves the properties the code promises about them.

Modules, one file each:

- `Wrappers`: `Option`, `Result`, the raw row a record constructor receives, and the constructor itself.
- `Collections`: distinct sequences and an order-keeping filter `Where`.
- `Text`: digits, `str(int)` and `int(str)`, lower-casing, stripping, splitting, substring tests, and lexicographic string sorting.
- `Calendar`: proleptic Gregorian dates, times of day, the next day, and the ISO formats `fromisoformat` accepts.
- `PlayersTable`: the players table and the register-request table of `database/database.py`.
- `LegacyPlayers`: the older players helpers of `utils/database.py`.
- `PlayerRules`: the `Player` object of `database/Player.py`.
- `EventRecords`: the `Event` object of `database/Event.py`.
- `SignupRecords`: the `Signup` object of `database/Signup.py`.
- `StrikesTable`: the strikes table of `database/strikes.py`.
- `StrikeCommands`: strike duration, issuing and removal in `commands/StrikeCommands.py`.
- `SignupTracker`: the reaction merge and summary fields of `check_signups` in `commands/EventCommands.py`.
- `EventTime`: `get_event_time` of `utils/event_util.py`.
- `MapSearch`: the `maps` command of `commands/CTFCommands.py`.
- `Rosters`: `rosters_comparison` of `commands/CTFCommands.py`.
- `Schedule`: `Match.__lt__`, the match sort and `excel_col_name` of `commands/CTFCommands.py`.
- `Nicknames`: the nickname rewrite of `commands/RegistrationCommands.py`.
- `Registration`: the decision logic of `register`, of the approval reactions, of `user set`, of the `profile` rank, and of the username refresh.
- `Referrals`: invite tracking in `commands/ReferralCommands.py`.

How the model stands in for the outside world:

- Tables are sequences of rows in insertion order. A `SELECT … fetchone()` is the first matching row; `UPDATE` and `DELETE` act on every matching row.
- The strikes table carries its auto-increment counter.
- Instants of events and strikes are integer minutes. "Now" is always an argument.
- `get_event_time` works on calendar dates and times of day, because its roll-over and text depend on them.
- The external lookups are function parameters: Mojang's name↔uuid, Discord's user lookup, and a user's mention text.
- The fresh invite lists and the reaction user lists are parameters as well.
- The iteration order of a Python `set` is a parameter too, constrained to list each element once.

## Model

| member | source | states |
|---|---|---|
| Wrappers.Construct | database/Player.py:46-53 | the `Player`, `Event` and `Signup` constructors raise `ValueError` on falsy or non-tuple data and otherwise take the row (also database/Event.py:34-50 and database/Signup.py:22-29) |
| PlayersTable.FetchByMinecraftId | database/database.py:84-86 | none iff no row has the id; otherwise the first row with that id |
| PlayersTable.FetchByDiscordId | database/database.py:89-91 | none iff no row has the Discord id; otherwise the first row with it |
| PlayersTable.AddPlayer | database/database.py:55-62 | inserts and returns true iff neither id is present; otherwise false with the table unchanged |
| PlayersTable.AddPlayerKeepsUnique | database/database.py:55-62 | `add_player` keeps both ids unique across rows |
| PlayersTable.Without | database/database.py:65-71 | the rows left are exactly those with another Minecraft id |
| PlayersTable.DeletePlayer | database/database.py:65-71 | true iff the id existed; the row is gone afterwards, every other row stays, and a miss changes nothing |
| PlayersTable.DeleteThenFetch | database/database.py:65-91 | after `delete_player` the id is no longer fetched, and every other id is fetched as before |
| PlayersTable.UpdateWhere | database/database.py:104-127 | an update keyed by Minecraft id rewrites exactly the keyed rows and keeps every other row in place |
| PlayersTable.UpdateMinecraftId | database/database.py:104-107 | the keyed row takes the new id and the new username; the rest of that row and all other rows are unchanged |
| PlayersTable.UpdateDiscordId | database/database.py:110-112 | only the Discord id of the keyed row changes |
| PlayersTable.UpdateUsername | database/database.py:115-117 | only the username of the keyed row changes; the name may be `None` |
| PlayersTable.UpdateElo | database/database.py:120-122 | only the ELO of the keyed row changes |
| PlayersTable.UpdatePriority | database/database.py:125-127 | only the priority of the keyed row changes |
| PlayersTable.UpdateKeepsMinecraftIds | database/database.py:110-127 | an update that leaves the id column alone leaves the set of stored ids alone |
| PlayersTable.PlayerCheck | database/database.py:130-136 | 1 iff the Minecraft id exists (this takes precedence), 2 iff only the Discord id exists, and 0 exactly when `add_player` would insert |
| PlayersTable.AddRegisterRequest | database/database.py:144-148 | always true; the request is appended after the existing ones |
| PlayersTable.RemoveRegisterRequest | database/database.py:151-154 | always true; requests with that message id are gone and all others stay |
| PlayersTable.RemoveRequests | database/database.py:151-154 | the requests left are exactly those with another message id |
| PlayersTable.GetRegisterRequest | database/database.py:163-166 | none iff no request has that message id; otherwise the first request with it |
| PlayersTable.AddThenGetRegisterRequest | database/database.py:144-166 | after adding a request under a fresh message id, the lookup returns it and the user has a pending request |
| LegacyPlayers.FetchPlayerId | utils/database.py:22-28 | the first row with the Minecraft id, or false when there is none |
| LegacyPlayers.FetchDiscordId | utils/database.py:31-37 | the first row with the Discord id, or false when there is none |
| LegacyPlayers.AddPlayerCode | utils/database.py:12-19 | 1 when the Minecraft id exists (checked first), 2 when only the Discord id exists, nothing inserted on either; otherwise the row is appended and 0 returned |
| LegacyPlayers.AddPlayerCodeAgrees | utils/database.py:12-19 | with the default priority 0 and ELO 1000 the legacy code equals `player_check` and the insert equals the newer `add_player` |
| PlayerRules.SetPriority | database/Player.py:68-73 | a negative priority returns false and changes nothing; otherwise the object and the keyed row take the value |
| PlayerRules.Reload | database/Player.py:58-62 | `update` reads back username, priority and ELO from the stored row and fails when the row is gone |
| PlayerRules.ChangePriority | database/Player.py:75-77 | the stored priority becomes max(0, stored + amount) |
| PlayerRules.ChangePriorityKeepsNonNegative | database/Player.py:68-77 | `change_priority` keeps every stored priority non-negative |
| PlayerRules.SetElo | database/Player.py:83-88 | ELO below the floor 975 returns false and changes nothing; otherwise the object and the keyed row take the value |
| PlayerRules.ChangeElo | database/Player.py:90-92 | the stored ELO becomes max(975, stored + amount) |
| PlayerRules.ChangeEloKeepsFloor | database/Player.py:83-92 | `change_elo` keeps every stored ELO at or above the floor 975 |
| PlayerRules.ChangeDiscordId | database/Player.py:111-116 | an id already stored raises `DiscordAlreadyExistsError`; otherwise only the Discord id changes |
| PlayerRules.RefreshUsername | database/Player.py:94-97 | `update_minecraft_username`: the object and every row of the account take the looked-up name, `None` included, and return it; other rows stay |
| PlayerRules.ChangeMinecraftUsername | database/Player.py:99-109 | an unknown name (no uuid, or an empty one) raises `UsernameDoesNotExistError`; an already stored uuid raises `UsernameAlreadyExistsError`; otherwise id and name are both rewritten |
| PlayerRules.AddPlayer | database/Player.py:122-132 | checks in order: unknown account (no uuid, or an empty one), stored Minecraft id, stored Discord id; otherwise the row is appended and returned |
| PlayerRules.FromMinecraftId | database/Player.py:135-140 | `PlayerDoesNotExistError` iff no row has the id; otherwise a stored row with it |
| PlayerRules.FromDiscordId | database/Player.py:151-156 | `PlayerDoesNotExistError` iff no row has the Discord id; otherwise a stored row with it |
| PlayerRules.IsStrikedMeansActiveStrike | database/Player.py:118-119 | a player is striked iff some active strike names their Discord id |
| PlayerRules.AddPlayerKeepsUnique | database/Player.py:122-132 | a successful `add_player` keeps both ids unique |
| PlayerRules.ChangeDiscordIdKeepsUnique | database/Player.py:111-116 | a successful Discord id change keeps both ids unique |
| PlayerRules.ChangeMinecraftUsernameKeepsUnique | database/Player.py:99-109 | a successful username change keeps both ids unique |
| EventRecords.WithCount | database/Event.py:104-143 | writing one counter sets it and leaves the other two counters and each of the eleven other fields as they were |
| EventRecords.Fetch | database/Event.py:55-63 | none iff no event has the id; otherwise the first event with it |
| EventRecords.UpdateWhere | database/Event.py:69-143 | an update keyed by event id rewrites exactly the keyed rows |
| EventRecords.SetText | database/Event.py:69-81 | `set_title` and `set_description` always return true; only that field changes, in the object and in the keyed rows |
| EventRecords.SetEventTime | database/Event.py:87-98 | an unparsable time raises `ValueError`; a time without an offset raises `TypeError` when compared with the aware "now"; a time before now raises `TimeBeforeCurrentTimeError`; otherwise only the time is stored |
| EventRecords.SetCounter | database/Event.py:104-108 | a negative count returns false and writes nothing; otherwise only that counter of the keyed rows changes (the same for lines 119-123 and 134-138) |
| EventRecords.SetCounterKeepsNonNegative | database/Event.py:104-138 | the setters keep every stored counter non-negative |
| EventRecords.Reload | database/Event.py:55-63 | `update` reads back every mutable field from the stored row and fails when the row is gone |
| EventRecords.ChangeCounter | database/Event.py:110-113 | the stored counter becomes max(0, stored + amount), and nothing else changes (the same for lines 125-128 and 140-143) |
| EventRecords.ChangeCounterKeepsNonNegative | database/Event.py:104-143 | the `change_num_*` methods keep every stored counter non-negative |
| EventRecords.ClampAtZero | database/Event.py:110-113 | the clamp is the input when that is non-negative and 0 otherwise |
| EventRecords.AddEvent | database/Event.py:146-153 | an existing id raises `EventAlreadyExistsError`; otherwise the event is appended with every given field in place and all three counters 0 |
| EventRecords.FromEventId | database/Event.py:156-161 | `EventDoesNotExistError` iff the id is absent; otherwise the stored event |
| EventRecords.AddThenFetch | database/Event.py:146-161 | an event just added is found again by its id |
| SignupRecords.SameSignupIgnoresFlags | database/Signup.py:31-35 | signup equality looks at user and event only; it is reflexive and symmetric |
| SignupRecords.Overwrite | database/Signup.py:46-52 | rows equal to the signup take its flags; all others stay |
| SignupRecords.UpdateDb | database/Signup.py:46-52 | an upsert: an existing (user, event) row gets all three flags overwritten, otherwise one row is appended |
| SignupRecords.UpdateDbIdempotent | database/Signup.py:46-52 | writing the same signup twice is the same as writing it once |
| SignupRecords.CreateSignup | database/Signup.py:76-77 | a new signup carries the user, the event and the three given flags; it is unsigned iff it can neither play nor sub |
| SignupRecords.CreateSignupDefaults | database/Signup.py:76-77 | with the flags left at their defaults the signup is unsigned and not muted |
| SignupRecords.AddSignup | database/Signup.py:80-84 | an existing (user, event) raises `SignupAlreadyExistsError`; otherwise the signup is appended |
| SignupRecords.FromUserEvent | database/Signup.py:87-92 | `SignupDoesNotExistError` iff the row is absent; otherwise the first signup with that user and event |
| SignupRecords.AddThenFind | database/Signup.py:80-92 | a signup just added is found again by user and event |
| StrikesTable.WithFlag | database/strikes.py:20-26 | the user's strikes with the given active flag, and no others |
| StrikesTable.AllOf | database/strikes.py:28-30 | the user's strikes, and no others |
| StrikesTable.GetActiveStrikes | database/strikes.py:20-22 | `get_active_strikes`: exactly the user's active strikes |
| StrikesTable.GetInactiveStrikes | database/strikes.py:24-26 | `get_inactive_strikes`: exactly the user's inactive strikes |
| StrikesTable.GetAllStrikes | database/strikes.py:28-30 | `get_all_strikes`: exactly the user's strikes, as many as the active and inactive ones together |
| StrikesTable.ActiveInactivePartition | database/strikes.py:20-30 | active and inactive strikes together are exactly all strikes, counted with multiplicity |
| StrikesTable.GetStrike | database/strikes.py:32-34 | none iff no strike has the id; otherwise the strike with it |
| StrikesTable.AddStrike | database/strikes.py:36-54 | always true; the new strike is active, appended, and its id differs from every existing id |
| StrikesTable.Remove | database/strikes.py:56-67 | the rows left are exactly those with another id, and at least one fewer when the id existed |
| StrikesTable.RemoveStrike | database/strikes.py:56-67 | an unknown id returns false with no change; otherwise exactly that strike is deleted and true returned |
| StrikesTable.RemoveKeepsValid | database/strikes.py:56-67 | removal keeps ids distinct and between 1 and the auto-increment counter |
| StrikeCommands.DurationFor | commands/StrikeCommands.py:21-27 | 1 day with no prior strikes, 1 + n² days with n ≥ 1 |
| StrikeCommands.NewStrikeDuration | commands/StrikeCommands.py:21-27 | 1 day for a user with no strikes; otherwise 1 + n² days, where n counts the user's active and inactive strikes together |
| StrikeCommands.InactiveStrikeCounts | commands/StrikeCommands.py:21-27 | an expired strike lengthens the next strike exactly as an active one would |
| StrikeCommands.DurationIncreasing | commands/StrikeCommands.py:21-27 | the duration strictly increases with the number of prior strikes |
| StrikeCommands.PluralSuffixAsWritten | commands/StrikeCommands.py:68 | as written, the suffix is "s" for every count but 0 |
| StrikeCommands.PluralSuffixAsWrittenWrong | commands/StrikeCommands.py:68 | as written, one strike gets "s" and none gets no suffix |
| StrikeCommands.PluralSuffix | commands/StrikeCommands.py:68 | the intended suffix: none exactly for a count of 1, otherwise "s" |
| StrikeCommands.StrikeNoticeAsWrittenDiffers | commands/StrikeCommands.py:64-70 | the direct-message text as written and with the intended plural agree exactly when the user had two or more earlier strikes |
| StrikeCommands.IssueStrike | commands/StrikeCommands.py:52-77 | the count is taken before the insert; the expiry is now plus the duration in days; the strike is stored |
| StrikeCommands.IssueStrikeEscalates | commands/StrikeCommands.py:52-63 | after a strike the user has one more strike, and the next one lasts longer |
| StrikeCommands.StrikeRemove | commands/StrikeCommands.py:129-159 | non-mods are refused, an unknown id is an error, and only a confirming reply removes the strike |
| StrikeCommands.ConfirmIgnoresCase | commands/StrikeCommands.py:154 | the reply is compared lower-cased, so "YES" confirms |
| StrikeCommands.IssueThenRemove | commands/StrikeCommands.py:52-159 | removing a strike just issued restores the strike rows |
| SignupTracker.Filter | commands/EventCommands.py:147 | the order-keeping selection by membership keeps exactly the matching entries |
| SignupTracker.Elems | commands/EventCommands.py:145-171 | the set of a list's users |
| SignupTracker.MergeSignups | commands/EventCommands.py:147-152 | on a change, the previous entries still reacting in their old order, then the new reactors; otherwise the previous list |
| SignupTracker.MergeOrder | commands/EventCommands.py:147-151 | the new list splits into a subsequence of the previous list followed by a subsequence of the reactors |
| SignupTracker.MergeKeepsDistinct | commands/EventCommands.py:147-151 | a merge of repeat-free lists is repeat-free |
| SignupTracker.ChangedIff | commands/EventCommands.py:149-150 | the length test flags a change iff the reactors differ from the previous list as a set |
| SignupTracker.MergeIdempotent | commands/EventCommands.py:147-152 | merging again with the same reactors flags no change and keeps the list |
| SignupTracker.TrackReaction | commands/EventCommands.py:143-171 | the bot's own reaction never counts; a missing reaction leaves the stored list and draws an empty one |
| SignupTracker.TrackIdempotent | commands/EventCommands.py:143-171 | one reaction's branch is idempotent and keeps its list repeat-free |
| SignupTracker.PlayerLines | commands/EventCommands.py:181-182 | one line per player, numbered in order, with the mute marker for muted ids |
| SignupTracker.SubLines | commands/EventCommands.py:188 | one line per sub, numbered in order |
| SignupTracker.PlayersField | commands/EventCommands.py:180-186 | the player count in the field name, the numbered lines, or "No one :(" |
| SignupTracker.SubsField | commands/EventCommands.py:187-191 | the sub count in the field name, the numbered lines, or "No one :(" |
| SignupTracker.CheckEvent | commands/EventCommands.py:127-193 | a past deadline skips the event; otherwise the stored lists become each reaction's merged list, a change is reported iff some reaction changed, and a change redraws both fields from those lists |
| SignupTracker.CheckEventIdempotent | commands/EventCommands.py:127-174 | a second check with the same reactions changes nothing and redraws nothing |
| SignupTracker.NoChangeIff | commands/EventCommands.py:139-174 | no change is reported iff every present reaction, less the bot, equals its previous list as a set |
| SignupTracker.SameSetIff | commands/EventCommands.py:143-152 | one reaction flags no change iff its reactors less the bot equal the previous list as a set |
| Calendar.DaysInMonth | utils/event_util.py:31 | month lengths of the Gregorian calendar: 30 days in April, June, September and November, 31 in the other long months, and 29 in February exactly in leap years |
| Calendar.YearLength | utils/event_util.py:31 | the months add up to 365 days, or 366 in a leap year |
| Calendar.BeforeTotal | utils/event_util.py:39 | datetimes are totally and strictly ordered |
| Calendar.NextDay | utils/event_util.py:44 | the day after a valid date is a later valid date; there is none after 9999-12-31 |
| Calendar.NextDayImmediate | utils/event_util.py:44 | no valid date lies strictly between a date and the next day |
| Calendar.ParseTime | utils/event_util.py:21-25 | an accepted time is a valid time, and the text is its HH, HH:MM or HH:MM:SS rendering |
| Calendar.ParseDate | utils/event_util.py:30-34 | an accepted date is a valid date, and the text is exactly its YYYY-MM-DD rendering |
| Calendar.ParseFormatTime | utils/event_util.py:21-25 | every valid time written in each of the three forms parses back to itself |
| Calendar.ParseFormatDate | utils/event_util.py:30-34 | every valid date written as YYYY-MM-DD parses back to itself |
| EventTime.MinuteText | utils/event_util.py:46-51 | "" for minute 0, otherwise ":" and two digits |
| EventTime.MinuteTextRoundTrip | utils/event_util.py:46-51 | the minute text reads back as the minute |
| EventTime.HourTextAsWritten | utils/event_util.py:53-64 | the 12-hour clock as written: the hour shown is 1 to 12 and equals the hour modulo 12, and "am" exactly for hours 1 to 11 |
| EventTime.HourTextAsWrittenCollides | utils/event_util.py:53-55 | as written, midnight and noon both read "12pm" |
| EventTime.HourText | utils/event_util.py:53-64 | the corrected 12-hour clock: hour 1 to 12 equal to the hour modulo 12, and "am" exactly before noon |
| EventTime.HourTextInverse | utils/event_util.py:53-64 | the corrected hour text reads back as the hour |
| EventTime.HourTextInjective | utils/event_util.py:53-64 | distinct hours give distinct corrected hour texts |
| EventTime.EventTextAsWrittenDiffers | utils/event_util.py:53-69 | the announcement text as written and with the corrected clock differ exactly in the hour after midnight |
| EventTime.GetEventTime | utils/event_util.py:19-69 | a bad time or date fails; a given date at or before now fails; without a date the time rolls to the next day exactly when today's instant is not after now; the result is after now and its text is built from it |
| EventTime.RollForwardIsEarliest | utils/event_util.py:26-44 | without a date, the result is the first instant with that time of day after now |
| MapSearch.Lookup | commands/CTFCommands.py:151-153 | the id a pool lists for a map name, or none |
| MapSearch.LookupAppend | commands/CTFCommands.py:153 | looking up a concatenation finds the first pool's entry first |
| MapSearch.Override | commands/CTFCommands.py:153 | overriding keeps the first pool's names and order |
| MapSearch.LookupOverride | commands/CTFCommands.py:153 | a name of the first pool takes the second pool's id when the second has it |
| MapSearch.LookupWhereName | commands/CTFCommands.py:153 | dropping the names of another pool does not change other lookups |
| MapSearch.MergePools | commands/CTFCommands.py:150-153 | `{**maps, **all_maps}`: every name resolves to the full list's id when it has one, else to the rotation's; the rotation's names come first in their order, then exactly the full list's other entries |
| MapSearch.Terms | commands/CTFCommands.py:148 | the terms are, in order, the stripped non-empty comma pieces of the lower-cased text; they are lower-case and comma free |
| MapSearch.NonEmptyPieces | commands/CTFCommands.py:148 | `filter(None, …)` of the comma split: the split pieces that are not empty, in order |
| MapSearch.PiecesOfJoin | commands/CTFCommands.py:148 | non-empty comma-free pieces joined with commas split back into themselves |
| MapSearch.TermsOfJoin | commands/CTFCommands.py:148 | clean lower-case terms joined with commas read back as the same terms in the same order |
| MapSearch.EmptyTermMatchesAll | commands/CTFCommands.py:160-162 | a blank piece becomes the empty term, which matches every map |
| MapSearch.Search | commands/CTFCommands.py:159-164 | every map listed is a map of the pool that some term matches |
| MapSearch.SearchIsByTerm | commands/CTFCommands.py:159-164 | the search loop lists the maps by term, then by map order, each once |
| MapSearch.ByTermMembers | commands/CTFCommands.py:160-164 | the maps listed are exactly those some term matches |
| MapSearch.MapLines | commands/CTFCommands.py:193-194 | one line per map found, in result order |
| MapSearch.Maps | commands/CTFCommands.py:139-200 | no result is an error; one result gets its own card; more are listed, sorted only above five, with the id line only at five or fewer |
| MapSearch.MapsListsMatches | commands/CTFCommands.py:156-164 | with search text, every listed map matches some term, and each is listed once |
| Rosters.LinksKeys | commands/CTFCommands.py:263-264 | the link map has a key for every link of the listing and no other |
| Rosters.LinksLast | commands/CTFCommands.py:263-264 | a shared link maps to the team listed last with it |
| Rosters.LinkLine | commands/CTFCommands.py:266-273 | a link only in the old listing gives the red line "**team** has disbanded." with the old team; one only in the new listing the green line "**team** is now official." with the new team |
| Rosters.LinkLineSwap | commands/CTFCommands.py:264-273 | swapping the listings swaps disbanded and official teams |
| Rosters.LinkLines | commands/CTFCommands.py:265-273 | the line of each changed link, in the order the links are walked; red exactly for the old links |
| Rosters.TeamSize | commands/CTFCommands.py:280-281 | a members text without "/" is read whole by `int` |
| Rosters.TeamSizeReads | commands/CTFCommands.py:280-281 | a members text "n/total" reads as the size n |
| Rosters.SignedDelta | commands/CTFCommands.py:284-287 | the difference as shown starts with "+" exactly for growth and reads back as the difference |
| Rosters.SizeLine | commands/CTFCommands.py:275-287 | green exactly when the team grew, naming the old team; red otherwise, naming the new team; then both members texts and the signed difference in bold |
| Rosters.SizeLineSwap | commands/CTFCommands.py:279-287 | a size change read backwards swaps its colour |
| Rosters.PairMoves | commands/CTFCommands.py:275-287 | one old thread against the new ones: every changed members text becomes a move, and an unreadable size raises `ValueError` |
| Rosters.SizeMoves | commands/CTFCommands.py:275-287 | all moves between the listings; none iff no members text changed |
| Rosters.SizeLines | commands/CTFCommands.py:275-287 | the line of each move, in order; green exactly when the team grew |
| Rosters.Concat | commands/CTFCommands.py:289-294 | the joined message is empty iff every line is |
| Rosters.RostersComparison | commands/CTFCommands.py:261-294 | an unreadable size raises; no message iff no link changed and no team moved; otherwise a non-empty message |
| Rosters.RostersUnchanged | commands/CTFCommands.py:261-294 | a listing compared with itself sends no message |
| Schedule.LtStrictWeakOrder | commands/CTFCommands.py:68-69 | ordering matches by start is a strict weak order, with ties exactly at equal starts |
| Schedule.Insert | commands/CTFCommands.py:464 | insertion into a sorted run keeps it sorted and adds exactly the match |
| Schedule.SortMatches | commands/CTFCommands.py:464 | `matches.sort()` yields a permutation sorted by start |
| Schedule.InsertStable | commands/CTFCommands.py:464 | an inserted match goes after every match with the same start |
| Schedule.SortStable | commands/CTFCommands.py:464 | matches with the same start keep their order |
| Schedule.ColumnName | commands/CTFCommands.py:415 | "" iff n ≤ 0; otherwise only the letters A to Z |
| Schedule.ColumnIndexOfName | commands/CTFCommands.py:415 | every column number's name reads back as that number |
| Schedule.ColumnNameOfIndex | commands/CTFCommands.py:415 | every name in capital letters is the name of its number, so names and positive numbers correspond one to one |
| Schedule.ColumnNameExamples | commands/CTFCommands.py:415-419 | 1 is "A", 4 is "D", 26 is "Z" and 27 is "AA" |
| Schedule.LastDayColumn | commands/CTFCommands.py:414-419 | the last column for n new days is column n + 3, so a sheet with no dated cell gives column C |
| Nicknames.Tag | commands/RegistrationCommands.py:372 | a tag found is 1 to 4 word characters in brackets at the start |
| Nicknames.TagOfPrefix | commands/RegistrationCommands.py:372 | a bracketed tag of 1 to 4 word characters at the start is found |
| Nicknames.Alias | commands/RegistrationCommands.py:373 | an alias is found iff the pattern matches somewhere, and it holds no line break |
| Nicknames.FirstAliasAt | commands/RegistrationCommands.py:373 | the leftmost position where the alias pattern matches |
| Nicknames.Rewrite | commands/RegistrationCommands.py:370-375 | the username sits between the tag part and the alias part of the new nickname; the nickname is non-empty for a Minecraft name |
| Nicknames.NameOf | commands/RegistrationCommands.py:370-375 | the name part of a nickname: what is left once its tag part and alias part are taken off |
| Nicknames.RewriteShowsUsername | commands/RegistrationCommands.py:370-375 | the name part of the new nickname is exactly the username |
| Nicknames.RewriteInjective | commands/RegistrationCommands.py:370-375 | for one member, two usernames give the same nickname iff they are equal |
| Nicknames.RewriteKeepsTag | commands/RegistrationCommands.py:370-375 | the new nickname has the tag the old one had, or none when it had none |
| Nicknames.RewriteKeepsAlias | commands/RegistrationCommands.py:370-375 | the new nickname has the alias the old one had, or none when it had none |
| Nicknames.RewriteIdempotent | commands/RegistrationCommands.py:413-416 | rewriting a rewritten nickname for the same username changes nothing |
| Registration.Register | commands/RegistrationCommands.py:78-127 | outcomes in order: missing name, unknown name, name registered, user registered, request pending; otherwise the request is stored |
| Registration.RegisterOnce | commands/RegistrationCommands.py:93-108 | once a request is stored, another `register` by the same user stores none |
| Registration.OnReaction | commands/RegistrationCommands.py:147-178 | anything but a moderator's check mark or cross on a stored request in the requests channel leaves the registry as it is; a check mark runs `add_player` and, when it succeeds, stores the player and drops the request; a cross only drops the request |
| Registration.OnReactionKeepsUnique | commands/RegistrationCommands.py:156-158 | approving keeps both player ids unique |
| Registration.ApprovedUserIsRegistered | commands/RegistrationCommands.py:156-158 | an approved user can no longer request registration |
| Registration.DropMentionMarks | commands/RegistrationCommands.py:275 | `value[3:-1]` drops three leading characters and one trailing one |
| Registration.MentionIdAsWritten | commands/RegistrationCommands.py:275-276 | as written, the id is the digits left after `value[3:-1]` |
| Registration.MentionIdAsWrittenDropsDigit | commands/RegistrationCommands.py:275-276 | as written, "<@123>" reads as 23 while "<@!123>" reads as 123 |
| Registration.MentionId | commands/RegistrationCommands.py:275-276 | the corrected reading of both mention forms |
| Registration.MentionIdRoundTrip | commands/RegistrationCommands.py:275-276 | both mention forms of an id read back as that id |
| Registration.UserSet | commands/RegistrationCommands.py:257-312 | `user set` succeeds exactly when the named setter accepts the value, and then writes that setter's change; ELO and priority need digits; each failure reports its own error: no variable name, no value, an unknown or already stored username, a mention that is not a known user or a Discord id already stored, a non-digit value, or an ELO below the floor; the negative-priority error cannot occur; a failed username change leaves the refreshed name stored, every other failure changes nothing |
| Registration.RefreshThenRename | commands/RegistrationCommands.py:266-268 | the refresh keeps the stored ids, and a rename after it gives the same table as a rename without it |
| Registration.UserSetKeepsUnique | commands/RegistrationCommands.py:257-312 | `user set` keeps both player ids unique |
| Registration.RankOf | commands/RegistrationCommands.py:336-344 | the 1-based position of the first entry equal to the username, a missing name matching a missing name; none when absent |
| Registration.RankOfPrefix | commands/RegistrationCommands.py:336-344 | the rank depends only on the entries up to it |
| Registration.UsernameChanges | commands/RegistrationCommands.py:358-362 | exactly the players whose looked-up name is known and differs are recorded |
| Registration.UsernameChangesAppend | commands/RegistrationCommands.py:358-362 | the changes are recorded in player order |
| Registration.RefreshAll | commands/RegistrationCommands.py:358-361 | the writes of the loop: each row of a listed account takes its looked-up name, `None` included, and the rest stay |
| Registration.UpdateUsernames | commands/RegistrationCommands.py:356-362 | `update_usernames`: the change list, and a table in which every player holds the looked-up name |
| Referrals.FindInviteByCode | commands/ReferralCommands.py:45-48 | the first invite with the code, or none |
| Referrals.FindOwnCode | commands/ReferralCommands.py:45-48 | with unique codes each invite is found by its own code |
| Referrals.Announce | commands/ReferralCommands.py:32-37 | each cached invite whose uses went up is announced; a cached code missing afterwards raises, after announcing exactly the increased invites before the first missing one |
| Referrals.OnMemberJoin | commands/ReferralCommands.py:29-37 | an unknown guild raises; a missing code raises after the increases before it were announced; the cache takes the fresh list exactly when an increase was found |
| Referrals.OnMemberRemove | commands/ReferralCommands.py:40-41 | the guild's cache becomes its current list and other guilds are untouched |
| Referrals.RemoveThenQuietJoin | commands/ReferralCommands.py:29-41 | after a departure refreshed the cache, a join that used no invite announces nothing and keeps the cache |
| Referrals.JoinWithoutUse | commands/ReferralCommands.py:29-37 | a join that used no invite announces nothing and keeps the cache |
| Referrals.JoinThroughOneInvite | commands/ReferralCommands.py:29-37 | a join through one invite announces exactly that invite and refreshes the cache |
| Text.Lower | commands/CTFCommands.py:148 | `lower` maps each ASCII capital to its small letter and keeps every other character |
| Text.Strip | commands/CTFCommands.py:148 | `strip` is one slice of the text with only blanks outside it and no blank at either of its ends; it is empty iff the text is all blanks |
| Text.StripIdempotent | commands/CTFCommands.py:148 | stripping twice is stripping once |
| Text.Split | commands/CTFCommands.py:148 | `split(",")` gives comma-free pieces that join back to the text |
| Text.SplitJoin | commands/CTFCommands.py:148 | comma-free pieces joined with commas split back into the same pieces |
| Text.IsSubstringAt | commands/CTFCommands.py:162 | `in` on strings holds iff the needle occurs at some position |
| Text.SortStrings | commands/CTFCommands.py:196 | `sorted` yields a lexicographically ordered permutation |
| Text.SortedUnique | commands/CTFCommands.py:196 | two sorted permutations of the same lines are equal |
| Text.ParseIntToString | commands/CTFCommands.py:280-281 | `int` reads back every integer `str` writes, sign included |

## Left out

- Everything the bot does through Discord: embeds, DMs, reaction fetching, role edits, `wait_for` dialogues and `tasks.loop` scheduling. Only the decisions and merges they wrap are modelled.
- The Mojang and Discord lookups become function parameters. Game scraping, statistics, plotting, random choices, the interactive games and the web server are not part of this model.
- `database/PUGEvent.py` is not part of this model: it calls table functions that `database/database.py` does not define.
- `database/Event.py` and `database/Signup.py` import table functions missing from `database/database.py`. Their tables are modelled with the meaning the function names give.
- PlayerRules.IsStriked: database/Player.py:9 imports `get_active_user_strikes`, which `database/strikes.py` does not define. The model reads it as `get_active_strikes` for the player's Discord id (database/strikes.py:20-22). `Signup.is_striked` (database/Signup.py:3, 72-73) makes the same import and is not modelled.
- Time zones and `datetime` arithmetic are left out, except that a time without an offset is told apart from one with an offset. Event and strike instants are integer minutes. `get_event_time` works on calendar dates and times with no time zone offset.
- `fromisoformat` is modelled for the forms HH, HH:MM, HH:MM:SS and YYYY-MM-DD. Fractions of seconds and offsets are not modelled.
- `int()` and `isdigit()` are modelled on ASCII digits only. Underscores and other Unicode digits are not modelled.
- `lower()` is modelled on ASCII capitals only.
- `\w` in the tag pattern is taken as the ASCII word characters.
- EventCommands.py:85 calls `get_event_time` with four arguments where it takes three. The model follows the definition in `utils/event_util.py`.
- `fetch_minecraft_username` of `utils/database.py` is not modelled: it queries a `current_username` column the table does not have (utils/database.py:41).
- Registration.UserSet: reads a mention with the corrected `Registration.MentionId`, so "<@123>" names user 123 where `value[3:-1]` gives 23; `Registration.MentionIdAsWrittenDropsDigit` shows the difference. The `get` action and an invalid action only display text.
- EventTime.GetEventTime: the text uses the corrected clock, so 00:30 reads "12:30am" where the code as written gives "12:30pm"; `EventTime.EventTextAsWrittenDiffers` states exactly when the two texts differ.
- StrikeCommands.IssueStrike: the direct message uses the corrected plural, so one earlier strike reads "1 time" where the code as written gives "1 times"; `StrikeCommands.StrikeNoticeAsWrittenDiffers` states exactly when the two texts differ.
- Registration.Register: the "error storing your register request" branch is not modelled, since `add_register_request` always returns true.
- Registration.OnReaction: when `add_player` raises, the handler stops before dropping the request. The model keeps the registry unchanged and returns the error.
- Referrals.OnMemberJoin: the handler replaces the cache as soon as one increased invite is found. If a later cached code is missing from the fresh list, that replacement stays in place when the error is raised.
- Rosters.RostersComparison: the contract states when a message is sent and that it is not empty, not the whole message text. The text of each line is stated by `Rosters.LinkLine` and `Rosters.SizeLine`, and `Rosters.LinkLines` and `Rosters.SizeLines` list them in order.
- Rosters.RostersComparison: the iteration order of the set of changed links is a parameter, because Python does not fix it.
- SignupTracker: users are modelled by their ids. The Python code's distinction between storing users and storing ids for the muted list therefore disappears.
- StrikeCommands.IssueStrike: the issue and expiry times are minutes rather than ISO strings. The DM it sends is modelled as text only.
- The per-event message and channel ids of `check_signups` are left out, as are commands the core does not name (`unregister`, `list`, `strike_view`, event creation).

## Findings

| source | as written | input that shows it | evidently intended | confidence | as-written member | corrected member |
|---|---|---|---|---|---|---|
| utils/event_util.py:53-55 | hour 0 is shown as "12" with the suffix "pm" | an event at 00:30 reads "12:30pm", the same as 12:30 | midnight reads "12am" | high; not executed | EventTime.HourTextAsWritten | EventTime.HourText |
| commands/StrikeCommands.py:68 | the plural "s" is added for any non-zero count | one earlier strike reads "1 times"; none reads "0 time" | "s" for every count but 1 | high; not executed | StrikeCommands.PluralSuffixAsWritten | StrikeCommands.PluralSuffix |
| commands/RegistrationCommands.py:275-276 | `value[3:-1]` assumes the mention form "<@!id>" | the mention "<@123>" gives the id 23 | both "<@id>" and "<@!id>" give the id | medium; not executed | Registration.MentionIdAsWritten | Registration.MentionId |

The as-written clock is exhibited by `EventTime.HourTextAsWrittenCollides`. The corrected one is proved by `EventTime.HourTextInverse` and `EventTime.HourTextInjective`, and `EventTime.GetEventTime` uses it. The plural is exhibited by `StrikeCommands.PluralSuffixAsWrittenWrong`; the corrected `StrikeCommands.PluralSuffix` is "" exactly for 1 and is used by `StrikeCommands.IssueStrike`. The mention reading is exhibited by `Registration.MentionIdAsWrittenDropsDigit`. The corrected one is proved by `Registration.MentionIdRoundTrip`, and `Registration.UserSet` uses it.

=== FILE: calendar.dfy ===
/** Proleptic Gregorian dates and times of day as Python's `datetime` module
    keeps them, with the ISO 8601 text forms that `date.fromisoformat` and
    `time.fromisoformat` accept. Times are kept to the second. */
module Calendar {
  import opened Wrappers
  import opened Text

  datatype Date = Date(year: int, month: int, day: int)
  datatype TimeOfDay = TimeOfDay(hour: int, minute: int, second: int)
  datatype DateTime = DateTime(date: Date, time: TimeOfDay)

  const MinYear := 1
  const MaxYear := 9999

  predicate IsLeapYear(y: int) {
    y % 4 == 0 && (y % 100 != 0 || y % 400 == 0)
  }

  function DaysInMonth(y: int, m: int): (n: int)
    requires 1 <= m <= 12
    ensures 28 <= n <= 31
    ensures m == 2 ==> (n == 29 <==> IsLeapYear(y))
    ensures m in {4, 6, 9, 11} ==> n == 30
    ensures m in {1, 3, 5, 7, 8, 10, 12} ==> n == 31
  {
    if m == 2 then (if IsLeapYear(y) then 29 else 28)
    else if m == 4 || m == 6 || m == 9 || m == 11 then 30
    else 31
  }

  /** The twelve months add up to 365 days, and to 366 in a leap year. */
  lemma YearLength(y: int)
    ensures DaysInMonth(y, 1) + DaysInMonth(y, 2) + DaysInMonth(y, 3) + DaysInMonth(y, 4)
          + DaysInMonth(y, 5) + DaysInMonth(y, 6) + DaysInMonth(y, 7) + DaysInMonth(y, 8)
          + DaysInMonth(y, 9) + DaysInMonth(y, 10) + DaysInMonth(y, 11) + DaysInMonth(y, 12)
          == if IsLeapYear(y) then 366 else 365
  {
  }

  predicate ValidDate(d: Date) {
    MinYear <= d.year <= MaxYear && 1 <= d.month <= 12 && 1 <= d.day <= DaysInMonth(d.year, d.month)
  }

  predicate ValidTime(t: TimeOfDay) {
    0 <= t.hour < 24 && 0 <= t.minute < 60 && 0 <= t.second < 60
  }

  predicate ValidDateTime(dt: DateTime) {
    ValidDate(dt.date) && ValidTime(dt.time)
  }

  /** Chronological order on dates. */
  predicate DateLt(a: Date, b: Date) {
    a.year < b.year
    || (a.year == b.year && a.month < b.month)
    || (a.year == b.year && a.month == b.month && a.day < b.day)
  }

  predicate TimeLt(a: TimeOfDay, b: TimeOfDay) {
    a.hour < b.hour
    || (a.hour == b.hour && a.minute < b.minute)
    || (a.hour == b.hour && a.minute == b.minute && a.second < b.second)
  }

  /** Chronological order on instants: the date first, then the time of day. */
  predicate Before(a: DateTime, b: DateTime) {
    DateLt(a.date, b.date) || (a.date == b.date && TimeLt(a.time, b.time))
  }

  predicate AtOrBefore(a: DateTime, b: DateTime) {
    a == b || Before(a, b)
  }

  /** `Before` is a strict total order. */
  lemma BeforeTotal(a: DateTime, b: DateTime)
    ensures Before(a, b) || a == b || Before(b, a)
    ensures !(Before(a, b) && Before(b, a))
  {
  }

  /** The day after `d`, or `None` past the last representable date (where Python
      raises `OverflowError`). */
  function NextDay(d: Date): (r: Option<Date>)
    requires ValidDate(d)
    ensures r.None? <==> d == Date(MaxYear, 12, 31)
    ensures r.Some? ==> ValidDate(r.value) && DateLt(d, r.value)
  {
    if d.day < DaysInMonth(d.year, d.month) then Some(d.(day := d.day + 1))
    else if d.month < 12 then Some(Date(d.year, d.month + 1, 1))
    else if d.year < MaxYear then Some(Date(d.year + 1, 1, 1))
    else None
  }

  /** `NextDay` is the immediate successor: no valid date lies strictly between. */
  lemma NextDayImmediate(d: Date, e: Date)
    requires ValidDate(d) && ValidDate(e) && DateLt(d, e)
    ensures NextDay(d).Some?
    ensures NextDay(d).value == e || DateLt(NextDay(d).value, e)
  {
  }

  /** Two digits, zero-padded, as `isoformat` writes them. */
  function Pad2(n: nat): (s: string)
    requires n < 100
    ensures |s| == 2 && AllDigits(s) && ParseDigits(s) == n
  {
    var s := [DigitChar(n / 10), DigitChar(n % 10)];
    TwoDigits(s);
    s
  }

  /** Two ASCII digits read as a number below 100. */
  lemma TwoDigits(s: string)
    requires |s| == 2 && AllDigits(s)
    ensures ParseDigits(s) == 10 * DigitValue(s[0]) + DigitValue(s[1]) < 100
  {
    var head := s[..1];
    assert head[..0] == [] && head[0] == s[0];
    assert ParseDigits(head) == DigitValue(s[0]);
    assert ParseDigits(s) == 10 * ParseDigits(head) + DigitValue(s[1]);
  }

  /** Four digits, zero-padded. */
  function Pad4(n: nat): (s: string)
    requires n < 10000
    ensures |s| == 4 && AllDigits(s) && ParseDigits(s) == n
  {
    var s := Pad2(n / 100) + Pad2(n % 100);
    assert s[..3] == Pad2(n / 100) + [s[2]];
    assert s[..2] == Pad2(n / 100);
    s
  }

  /** The number written by the two ASCII digits at `s[i..i + 2]`, if they are digits. */
  function Digits2(s: string, i: nat): (r: Option<nat>)
    requires i + 2 <= |s|
    ensures r.Some? <==> AllDigits(s[i..i + 2])
    ensures r.Some? ==> r.value < 100
  {
    if AllDigits(s[i..i + 2]) then
      TwoDigits(s[i..i + 2]);
      Some(ParseDigits(s[i..i + 2]))
    else None
  }

  /** Reading two digits and writing the number back with `Pad2` gives the same text. */
  lemma {:induction false} Pad2Digits(x: string)
    requires |x| == 2 && AllDigits(x)
    ensures ParseDigits(x) < 100 && Pad2(ParseDigits(x)) == x
  {
    TwoDigits(x);
    var n := ParseDigits(x);
    assert n / 10 == DigitValue(x[0]) && n % 10 == DigitValue(x[1]);
    DigitCharValue(x[0]);
    DigitCharValue(x[1]);
  }

  lemma DigitCharValue(c: char)
    requires IsDigit(c)
    ensures DigitChar(DigitValue(c)) == c
  {
  }

  /** Reading four digits and writing the number back with `Pad4` gives the same text. */
  lemma {:induction false} Pad4Digits(x: string)
    requires |x| == 4 && AllDigits(x)
    ensures ParseDigits(x) < 10000 && Pad4(ParseDigits(x)) == x
  {
    var hi, lo := x[..2], x[2..];
    TwoDigits(hi);
    TwoDigits(lo);
    assert x[..3][..2] == hi && x[..3][2] == lo[0] && x[3] == lo[1];
    assert ParseDigits(x[..3]) == 10 * ParseDigits(hi) + DigitValue(lo[0]);
    var n := ParseDigits(x);
    assert n == 100 * ParseDigits(hi) + ParseDigits(lo);
    assert n / 100 == ParseDigits(hi) && n % 100 == ParseDigits(lo);
    Pad2Digits(hi);
    Pad2Digits(lo);
    assert x == hi + lo;
  }

  /** `s` is one of the three texts `time.isoformat` could have written for `t`: HH
      when minute and second are zero, HH:MM when the second is zero, or HH:MM:SS. */
  predicate RendersTime(s: string, t: TimeOfDay)
    requires ValidTime(t)
  {
    (s == Pad2(t.hour) && t.minute == 0 && t.second == 0)
    || (s == Pad2(t.hour) + ":" + Pad2(t.minute) && t.second == 0)
    || s == FormatTime(t)
  }

  /** `time.fromisoformat` for the forms HH, HH:MM and HH:MM:SS: each field two ASCII
      digits, a colon between fields, and the values in range. A text is accepted only
      when it is one of those renderings of the time it reads as. */
  function ParseTime(s: string): (r: Option<TimeOfDay>)
    ensures r.Some? ==> ValidTime(r.value)
    ensures r.Some? ==> |s| == 2 || |s| == 5 || |s| == 8
    ensures r.Some? ==> RendersTime(s, r.value)
  {
    if |s| != 2 && |s| != 5 && |s| != 8 then None
    else
      var h := Digits2(s, 0);
      var m := if |s| >= 5 && s[2] == ':' then Digits2(s, 3) else if |s| == 2 then Some(0) else None;
      var sec := if |s| == 8 && s[5] == ':' then Digits2(s, 6) else if |s| < 8 then Some(0) else None;
      if h.None? || m.None? || sec.None? then None
      else if ValidTime(TimeOfDay(h.value, m.value, sec.value)) then
        TimeRendered(s, TimeOfDay(h.value, m.value, sec.value));
        Some(TimeOfDay(h.value, m.value, sec.value))
      else None
  }

  /** The success branch of `ParseTime`: the fields read back from their digits. */
  lemma TimeRendered(s: string, t: TimeOfDay)
    requires |s| == 2 || |s| == 5 || |s| == 8
    requires ValidTime(t) && Digits2(s, 0) == Some(t.hour)
    requires |s| >= 5 ==> s[2] == ':' && Digits2(s, 3) == Some(t.minute)
    requires |s| == 8 ==> s[5] == ':' && Digits2(s, 6) == Some(t.second)
    requires |s| < 5 ==> t.minute == 0
    requires |s| < 8 ==> t.second == 0
    ensures RendersTime(s, t)
  {
    Pad2Digits(s[0..2]);
    if |s| == 2 {
      assert s == s[0..2];
    } else {
      Pad2Digits(s[3..5]);
      if |s| == 5 {
        assert s == s[0..2] + ":" + s[3..5];
      } else {
        Pad2Digits(s[6..8]);
        assert s == s[0..2] + ":" + s[3..5] + ":" + s[6..8];
      }
    }
  }

  /** `date.fromisoformat`: exactly YYYY-MM-DD, and a date that exists. A text is
      accepted only when it is the ISO rendering of the date it reads as. */
  function ParseDate(s: string): (r: Option<Date>)
    ensures r.Some? ==> ValidDate(r.value) && |s| == 10
    ensures r.Some? ==> s == FormatDate(r.value)
  {
    if |s| != 10 || s[4] != '-' || s[7] != '-' || !AllDigits(s[0..4]) then None
    else
      var m := Digits2(s, 5);
      var d := Digits2(s, 8);
      if m.None? || d.None? then None
      else
        var date := Date(ParseDigits(s[0..4]), m.value, d.value);
        if ValidDate(date) then
          Pad4Digits(s[0..4]);
          Pad2Digits(s[5..7]);
          Pad2Digits(s[8..10]);
          assert s == s[0..4] + "-" + s[5..7] + "-" + s[8..10];
          Some(date)
        else None
  }

  /** `t.isoformat()`. */
  function FormatTime(t: TimeOfDay): string
    requires ValidTime(t)
  {
    Pad2(t.hour) + ":" + Pad2(t.minute) + ":" + Pad2(t.second)
  }

  /** `d.isoformat()`. */
  function FormatDate(d: Date): string
    requires ValidDate(d)
  {
    Pad4(d.year) + "-" + Pad2(d.month) + "-" + Pad2(d.day)
  }

  /** Every time of day reads back from its ISO text, and the shorter forms leave
      the omitted fields at zero. */
  lemma ParseFormatTime(t: TimeOfDay)
    requires ValidTime(t)
    ensures ParseTime(FormatTime(t)) == Some(t)
    ensures ParseTime(Pad2(t.hour)) == Some(TimeOfDay(t.hour, 0, 0))
    ensures ParseTime(Pad2(t.hour) + ":" + Pad2(t.minute)) == Some(TimeOfDay(t.hour, t.minute, 0))
  {
    var s := FormatTime(t);
    assert s[0..2] == Pad2(t.hour) && s[3..5] == Pad2(t.minute) && s[6..8] == Pad2(t.second);
    var s2 := Pad2(t.hour) + ":" + Pad2(t.minute);
    assert s2[0..2] == Pad2(t.hour) && s2[3..5] == Pad2(t.minute);
    assert Pad2(t.hour)[0..2] == Pad2(t.hour);
  }

  /** Every date reads back from its ISO text. */
  lemma ParseFormatDate(d: Date)
    requires ValidDate(d)
    ensures ParseDate(FormatDate(d)) == Some(d)
  {
    var s := FormatDate(d);
    assert s[0..4] == Pad4(d.year) && s[5..7] == Pad2(d.month) && s[8..10] == Pad2(d.day);
  }

  /** English month names, as `calendar.month_name`. */
  const MonthNames: seq<string> := ["January", "February", "March", "April", "May", "June", "July",
                                    "August", "September", "October", "November", "December"]

  function MonthName(m: int): string
    requires 1 <= m <= 12
  {
    MonthNames[m - 1]
  }
}

=== FILE: collections.dfy ===
/** Sequence facts shared by the list-handling commands. */
module Collections {

  /** No element occurs twice. */
  predicate Distinct<T(==)>(xs: seq<T>) {
    forall i, j :: 0 <= i < j < |xs| ==> xs[i] != xs[j]
  }

  lemma DistinctTail<T>(xs: seq<T>)
    requires Distinct(xs) && |xs| > 0
    ensures Distinct(xs[1..]) && xs[0] !in xs[1..]
  {
    forall i, j | 0 <= i < j < |xs[1..]| ensures xs[1..][i] != xs[1..][j] {
      assert xs[1..][i] == xs[i + 1] && xs[1..][j] == xs[j + 1];
    }
  }

  lemma DistinctCons<T>(x: T, xs: seq<T>)
    requires Distinct(xs) && x !in xs
    ensures Distinct([x] + xs)
  {
    var r := [x] + xs;
    forall i, j | 0 <= i < j < |r| ensures r[i] != r[j] {
      if i == 0 {
        assert r[j] == xs[j - 1] && r[j] in xs;
      } else {
        assert r[i] == xs[i - 1] && r[j] == xs[j - 1];
      }
    }
  }

  lemma DistinctConcat<T>(a: seq<T>, b: seq<T>)
    requires Distinct(a) && Distinct(b)
    requires forall x :: x in a ==> x !in b
    ensures Distinct(a + b)
  {
    var c := a + b;
    forall i, j | 0 <= i < j < |c| ensures c[i] != c[j] {
      if j < |a| {
        assert c[i] == a[i] && c[j] == a[j];
      } else if i >= |a| {
        assert c[i] == b[i - |a|] && c[j] == b[j - |a|];
      } else {
        assert c[i] == a[i] && a[i] in a;
        assert c[j] == b[j - |a|] && c[j] in b;
      }
    }
  }

  /** The elements satisfying `f`, in order. */
  function Where<T(!new)>(xs: seq<T>, f: T -> bool): (r: seq<T>)
    ensures forall x :: x in r <==> x in xs && f(x)
    ensures |r| <= |xs|
  {
    if |xs| == 0 then []
    else if f(xs[0]) then [xs[0]] + Where(xs[1..], f)
    else Where(xs[1..], f)
  }

  /** Two tests that agree on the elements select the same elements. */
  lemma {:induction false} WhereCongruent<T(!new)>(xs: seq<T>, f: T -> bool, g: T -> bool)
    requires forall x :: x in xs ==> f(x) == g(x)
    ensures Where(xs, f) == Where(xs, g)
    decreases |xs|
  {
    if |xs| > 0 {
      var head := xs[0];
      assert head in xs;
      assert forall x :: x in xs[1..] ==> x in xs;
      WhereCongruent(xs[1..], f, g);
    }
  }

  lemma {:induction false} WhereDistinct<T(!new)>(xs: seq<T>, f: T -> bool)
    requires Distinct(xs)
    ensures Distinct(Where(xs, f))
    decreases |xs|
  {
    if |xs| > 0 {
      DistinctTail(xs);
      WhereDistinct(xs[1..], f);
      if f(xs[0]) {
        DistinctCons(xs[0], Where(xs[1..], f));
      }
    }
  }

  /** Selecting from a run with one more element at the end. */
  lemma {:induction false} WhereSnoc<T(!new)>(xs: seq<T>, x: T, f: T -> bool)
    ensures Where(xs + [x], f) == Where(xs, f) + (if f(x) then [x] else [])
    decreases |xs|
  {
    if |xs| == 0 {
      assert xs + [x] == [x];
      assert [x][1..] == [];
    } else {
      assert (xs + [x])[1..] == xs[1..] + [x];
      WhereSnoc(xs[1..], x, f);
    }
  }

  /** Nothing is selected when no element passes. */
  lemma {:induction false} WhereNone<T(!new)>(xs: seq<T>, f: T -> bool)
    requires forall x :: x in xs ==> !f(x)
    ensures Where(xs, f) == []
    decreases |xs|
  {
    if |xs| > 0 {
      var head := xs[0];
      assert head in xs;
      assert forall x :: x in xs[1..] ==> x in xs;
      WhereNone(xs[1..], f);
    }
  }

  /** Everything is selected when every element passes. */
  lemma {:induction false} WhereAll<T(!new)>(xs: seq<T>, f: T -> bool)
    requires forall x :: x in xs ==> f(x)
    ensures Where(xs, f) == xs
    decreases |xs|
  {
    if |xs| > 0 {
      var head := xs[0];
      assert head in xs;
      assert forall x :: x in xs[1..] ==> x in xs;
      WhereAll(xs[1..], f);
      assert [head] + xs[1..] == xs;
    }
  }
}

=== FILE: event_record.dfy ===
/** The `Event` object of database/Event.py over the events table. Times are
    integer minutes. */
module EventRecords {
  import opened Wrappers

  datatype EventRecord = EventRecord(
    eventId: int,
    title: string,
    description: string,
    timeEst: int,
    createdEst: int,
    creator: int,
    guildId: int,
    announcementChannel: int,
    signupChannel: int,
    signupMessage: int,
    signupDeadline: int,
    numCanPlay: int,
    numIsMuted: int,
    numCanSub: int)

  type Table = seq<EventRecord>

  datatype EventError = ValueError | TypeError | EventDoesNotExist | EventAlreadyExists | TimeBeforeCurrentTime | MissingRow

  /** What `datetime.fromisoformat` makes of a text: no value, a naive local time (no
      UTC offset in the text), or an aware instant. */
  datatype IsoInstant = Unparsable | Naive(local: int) | Aware(instant: int)

  /** The three signup counters of an event. */
  datatype Counter = CanPlay | IsMuted | CanSub

  function CountOf(e: EventRecord, c: Counter): int {
    match c
    case CanPlay => e.numCanPlay
    case IsMuted => e.numIsMuted
    case CanSub => e.numCanSub
  }

  function WithCount(e: EventRecord, c: Counter, v: int): (r: EventRecord)
    ensures CountOf(r, c) == v
    ensures forall d :: d != c ==> CountOf(r, d) == CountOf(e, d)
    ensures r.eventId == e.eventId && r.title == e.title && r.description == e.description
      && r.timeEst == e.timeEst && r.createdEst == e.createdEst && r.creator == e.creator
      && r.guildId == e.guildId && r.announcementChannel == e.announcementChannel
      && r.signupChannel == e.signupChannel && r.signupMessage == e.signupMessage
      && r.signupDeadline == e.signupDeadline
  {
    match c
    case CanPlay => e.(numCanPlay := v)
    case IsMuted => e.(numIsMuted := v)
    case CanSub => e.(numCanSub := v)
  }

  /** No stored counter is negative. */
  ghost predicate CountersNonNegative(t: Table) {
    forall i, c :: 0 <= i < |t| ==> CountOf(t[i], c) >= 0
  }

  predicate HasEvent(t: Table, id: int) {
    exists i :: 0 <= i < |t| && t[i].eventId == id
  }

  /** `fetch_events_event_id`: the first row with that id. */
  function Fetch(t: Table, id: int): (r: Option<EventRecord>)
    ensures r.None? <==> !HasEvent(t, id)
    ensures r.Some? ==> r.value in t && r.value.eventId == id
    ensures r.Some? ==>
              exists i :: 0 <= i < |t| && t[i] == r.value && forall j :: 0 <= j < i ==> t[j].eventId != id
  {
    if |t| == 0 then None
    else if t[0].eventId == id then
      assert 0 <= 0 < |t| && t[0] == t[0];
      Some(t[0])
    else
      assert HasEvent(t, id) ==> HasEvent(t[1..], id) by {
        if HasEvent(t, id) {
          var i :| 0 <= i < |t| && t[i].eventId == id;
          assert t[1..][i - 1].eventId == id;
        }
      }
      var r := Fetch(t[1..], id);
      if r.Some? then
        var i :| 0 <= i < |t[1..]| && t[1..][i] == r.value && forall j :: 0 <= j < i ==> t[1..][j].eventId != id;
        assert t[i + 1] == r.value && forall j :: 0 <= j < i + 1 ==> t[j].eventId != id by {
          forall j | 0 <= j < i + 1 ensures t[j].eventId != id {
            if j > 0 { assert t[j] == t[1..][j - 1]; }
          }
        }
        r
      else
        r
  }

  /** Applies `f` to every row with that event id. */
  function UpdateWhere(t: Table, id: int, f: EventRecord -> EventRecord): (r: Table)
    ensures |r| == |t|
    ensures forall i :: 0 <= i < |t| ==> r[i] == (if t[i].eventId == id then f(t[i]) else t[i])
  {
    if |t| == 0 then []
    else [if t[0].eventId == id then f(t[0]) else t[0]] + UpdateWhere(t[1..], id, f)
  }

  /** The two free-text fields of an event. */
  datatype TextField = Title | Description

  function TextOf(e: EventRecord, f: TextField): string {
    match f
    case Title => e.title
    case Description => e.description
  }

  function WithText(e: EventRecord, f: TextField, text: string): EventRecord {
    match f
    case Title => e.(title := text)
    case Description => e.(description := text)
  }

  /** `after` is `before` with field `f` set to `text`: putting the old text back
      gives `before` again, so nothing else differs. */
  predicate TextWritten(before: EventRecord, after: EventRecord, f: TextField, text: string) {
    TextOf(after, f) == text && WithText(after, f, TextOf(before, f)) == before
  }

  /** `set_title` and `set_description`: always succeed; the field takes the text in
      the object and in the keyed rows, and nothing else changes. */
  function SetText(e: EventRecord, t: Table, f: TextField, text: string): (r: (bool, EventRecord, Table))
    ensures r.0
    ensures TextWritten(e, r.1, f, text)
    ensures |r.2| == |t|
    ensures forall i :: 0 <= i < |t| && t[i].eventId != e.eventId ==> r.2[i] == t[i]
    ensures forall i :: 0 <= i < |t| && t[i].eventId == e.eventId ==> TextWritten(t[i], r.2[i], f, text)
  {
    (true, WithText(e, f, text), UpdateWhere(t, e.eventId, (row: EventRecord) => WithText(row, f, text)))
  }

  /** `set_event_time_est`: unparsable text is a `ValueError`; a text without a UTC offset
      gives a naive datetime, and subtracting the aware "now" from it raises `TypeError`;
      an aware time earlier than `now` is refused; otherwise the time is stored (a time
      equal to `now` is accepted). */
  function SetEventTime(e: EventRecord, t: Table, time: IsoInstant, now: int): (r: Result<(EventRecord, Table), EventError>)
    ensures time.Unparsable? ==> r == Err(ValueError)
    ensures time.Naive? ==> r == Err(TypeError)
    ensures time.Aware? && time.instant < now ==> r == Err(TimeBeforeCurrentTime)
    ensures r.Ok? <==> time.Aware? && time.instant >= now
    ensures r.Ok? ==> r.value.0 == e.(timeEst := time.instant)
    ensures r.Ok? ==> r.value.1 == UpdateWhere(t, e.eventId, (row: EventRecord) => row.(timeEst := time.instant))
  {
    match time
    case Unparsable => Err(ValueError)
    case Naive(_) => Err(TypeError)
    case Aware(v) =>
      if v - now < 0 then Err(TimeBeforeCurrentTime)
      else Ok((e.(timeEst := v), UpdateWhere(t, e.eventId, (row: EventRecord) => row.(timeEst := v))))
  }

  /** `set_num_can_play`, `set_num_is_muted`, `set_num_can_sub`: a negative value is refused
      and nothing is written; otherwise only that counter of the stored row changes. The
      object's own counter is left as it was: the setters write only the database. */
  function SetCounter(t: Table, id: int, c: Counter, v: int): (r: (bool, Table))
    ensures r.0 <==> v >= 0
    ensures !r.0 ==> r.1 == t
    ensures |r.1| == |t|
    ensures r.0 ==> CounterWritten(t, r.1, id, c, v)
  {
    if v < 0 then (false, t) else (true, UpdateWhere(t, id, (row: EventRecord) => WithCount(row, c, v)))
  }

  /** `after` is `t` with counter `c` of the rows with that id set to `v`, and nothing
      else changed. */
  predicate CounterWritten(t: Table, after: Table, id: int, c: Counter, v: int) {
    |after| == |t|
    && (forall i :: 0 <= i < |t| && t[i].eventId == id ==> after[i] == WithCount(t[i], c, v))
    && (forall i :: 0 <= i < |t| && t[i].eventId != id ==> after[i] == t[i])
  }

  /** Counter writes never store a negative value. */
  lemma SetCounterKeepsNonNegative(t: Table, id: int, c: Counter, v: int)
    requires CountersNonNegative(t)
    ensures CountersNonNegative(SetCounter(t, id, c, v).1)
  {
    var t' := SetCounter(t, id, c, v).1;
    forall i, d | 0 <= i < |t'| ensures CountOf(t'[i], d) >= 0 {
      if v >= 0 && t[i].eventId == id && d != c {
        assert CountOf(t'[i], d) == CountOf(t[i], d);
      }
    }
  }

  /** `update()`: reload title, description, time, deadline and counters from the stored row. */
  function Reload(e: EventRecord, t: Table): (r: Result<EventRecord, EventError>)
    ensures r.Ok? <==> HasEvent(t, e.eventId)
    ensures r.Ok? ==> forall c :: CountOf(r.value, c) == CountOf(Fetch(t, e.eventId).value, c)
    ensures r.Ok? ==> var row := Fetch(t, e.eventId).value;
      r.value == e.(title := row.title, description := row.description, timeEst := row.timeEst,
                    signupDeadline := row.signupDeadline, numCanPlay := row.numCanPlay,
                    numIsMuted := row.numIsMuted, numCanSub := row.numCanSub)
  {
    match Fetch(t, e.eventId)
    case None => Err(MissingRow)
    case Some(row) =>
      Ok(e.(title := row.title, description := row.description, timeEst := row.timeEst,
            signupDeadline := row.signupDeadline, numCanPlay := row.numCanPlay,
            numIsMuted := row.numIsMuted, numCanSub := row.numCanSub))
  }

  /** `change_num_*`: the stored counter becomes max(0, stored + amount). The object is
      the reloaded one, holding the counter as it was before the write. */
  function ChangeCounter(e: EventRecord, t: Table, c: Counter, amount: int): (r: Result<(EventRecord, Table), EventError>)
    ensures r.Err? <==> !HasEvent(t, e.eventId)
    ensures r.Ok? ==> CountOf(r.value.0, c) == CountOf(Fetch(t, e.eventId).value, c)
    ensures r.Ok? ==>
      CounterWritten(t, r.value.1, e.eventId, c, ClampAtZero(CountOf(Fetch(t, e.eventId).value, c) + amount))
  {
    match Fetch(t, e.eventId)
    case None => Err(MissingRow)
    case Some(row) =>
      var e' := Reload(e, t).value;
      var v := ClampAtZero(CountOf(row, c) + amount);
      assert v >= 0;
      var written := SetCounter(t, e.eventId, c, v).1;
      assert CounterWritten(t, written, e.eventId, c, v);
      Ok((e', written))
  }

  /** `change_num_*` never stores a negative counter. */
  lemma ChangeCounterKeepsNonNegative(e: EventRecord, t: Table, c: Counter, amount: int)
    requires CountersNonNegative(t)
    ensures ChangeCounter(e, t, c, amount).Ok? ==> CountersNonNegative(ChangeCounter(e, t, c, amount).value.1)
  {
    var r := ChangeCounter(e, t, c, amount);
    if r.Ok? {
      WrittenKeepsNonNegative(t, r.value.1, e.eventId, c, ClampAtZero(CountOf(Fetch(t, e.eventId).value, c) + amount));
    }
  }

  lemma WrittenKeepsNonNegative(t: Table, after: Table, id: int, c: Counter, v: int)
    requires CountersNonNegative(t) && v >= 0 && CounterWritten(t, after, id, c, v)
    ensures CountersNonNegative(after)
  {
    forall i, d | 0 <= i < |after| ensures CountOf(after[i], d) >= 0 {
      if t[i].eventId == id && d != c {
        assert CountOf(after[i], d) == CountOf(t[i], d);
      }
    }
  }

  /** `v if v >= 0 else 0`. */
  function ClampAtZero(v: int): (r: int)
    ensures r >= 0 && r >= v
    ensures v >= 0 ==> r == v
    ensures v < 0 ==> r == 0
  {
    if v >= 0 then v else 0
  }

  /** `add_event`: refused for a known id; otherwise the event is stored with zero counters. */
  function AddEvent(t: Table, id: int, title: string, description: string, timeEst: int, createdEst: int,
                    creator: int, guild: int, announcementChannel: int, signupChannel: int,
                    signupMessage: int, signupDeadline: int): (r: Result<(EventRecord, Table), EventError>)
    ensures r.Err? <==> HasEvent(t, id)
    ensures r.Err? ==> r.error == EventAlreadyExists
    ensures r.Ok? ==> var e := r.value.0;
      e.eventId == id && e.title == title && e.description == description && e.timeEst == timeEst
      && e.createdEst == createdEst && e.creator == creator && e.guildId == guild
      && e.announcementChannel == announcementChannel && e.signupChannel == signupChannel
      && e.signupMessage == signupMessage && e.signupDeadline == signupDeadline
      && (forall c :: CountOf(e, c) == 0)
      && r.value.1 == t + [e]
  {
    if HasEvent(t, id) then Err(EventAlreadyExists)
    else
      var e := EventRecord(id, title, description, timeEst, createdEst, creator, guild, announcementChannel,
                           signupChannel, signupMessage, signupDeadline, 0, 0, 0);
      Ok((e, t + [e]))
  }

  /** `from_event_id`: the stored event, or `EventDoesNotExist`. */
  function FromEventId(t: Table, id: int): (r: Result<EventRecord, EventError>)
    ensures r.Err? <==> !HasEvent(t, id)
    ensures r.Err? ==> r.error == EventDoesNotExist
    ensures r.Ok? ==> r.value in t && r.value.eventId == id
  {
    match Fetch(t, id)
    case None => Err(EventDoesNotExist)
    case Some(e) => Ok(e)
  }

  /** An event added and then fetched by its id comes back with zero counters. */
  lemma AddThenFetch(t: Table, id: int, title: string, description: string, timeEst: int, createdEst: int,
                     creator: int, guild: int, announcementChannel: int, signupChannel: int,
                     signupMessage: int, signupDeadline: int)
    requires !HasEvent(t, id)
    ensures var r := AddEvent(t, id, title, description, timeEst, createdEst, creator, guild,
                              announcementChannel, signupChannel, signupMessage, signupDeadline);
      r.Ok? && FromEventId(r.value.1, id) == Ok(r.value.0)
  {
    var r := AddEvent(t, id, title, description, timeEst, createdEst, creator, guild,
                      announcementChannel, signupChannel, signupMessage, signupDeadline);
    FetchAppend(t, r.value.0);
  }

  lemma {:induction false} FetchAppend(t: Table, e: EventRecord)
    requires !HasEvent(t, e.eventId)
    ensures Fetch(t + [e], e.eventId) == Some(e)
    decreases |t|
  {
    if |t| > 0 {
      assert (t + [e])[1..] == t[1..] + [e];
      FetchAppend(t[1..], e);
    }
  }
}

=== FILE: event_time.dfy ===
/** `get_event_time` of utils/event_util.py: read an event's time and optional
    date, roll a date-less time that has already passed over to tomorrow, and
    write the 12-hour announcement text. The clock reading `now` is a
    parameter. */
module EventTime {
  import opened Wrappers
  import opened Text
  import opened Calendar

  datatype TimeError = TimeFormat | DateFormat | BeforeNow | Overflow

  /** The minute part of the text: nothing on the hour, otherwise a colon and two digits. */
  function MinuteText(m: nat): (s: string)
    requires m < 60
    ensures m == 0 <==> s == ""
    ensures m > 0 ==> |s| == 3 && s[0] == ':' && AllDigits(s[1..])
  {
    if m == 0 then ""
    else if m < 10 then ":0" + NatToString(m)
    else
      assert NatToString(m) == NatToString(m / 10) + [DigitChar(m % 10)];
      ":" + NatToString(m)
  }

  /** Reads a minute part back. */
  function ReadMinute(s: string): (r: Option<nat>)
    ensures r.Some? && s != "" ==> |s| > 1 && s[0] == ':'
  {
    if s == "" then Some(0)
    else if |s| > 1 && s[0] == ':' && AllDigits(s[1..]) then Some(ParseDigits(s[1..]))
    else None
  }

  /** The minute part always reads back as the minute. */
  lemma MinuteTextRoundTrip(m: nat)
    requires m < 60
    ensures ReadMinute(MinuteText(m)) == Some(m)
  {
    var s := MinuteText(m);
    ParseNatToString(m);
    if 0 < m < 10 {
      assert s[1..] == "0" + NatToString(m);
      ParseLeadingZero(NatToString(m));
    } else if m >= 10 {
      assert s[1..] == NatToString(m);
    }
  }

  /** The hour and suffix as written: midnight comes out as 12 with "pm", the same
      text as noon. */
  function HourTextAsWritten(h: nat): (r: (nat, string))
    requires h < 24
    ensures 1 <= r.0 <= 12
    ensures r.0 % 12 == h % 12
    ensures r.1 == "am" <==> 1 <= h < 12
    ensures r.1 == "am" || r.1 == "pm"
  {
    if h == 0 then (12, "pm")
    else if h < 12 then (h, "am")
    else if h == 12 then (h, "pm")
    else (h - 12, "pm")
  }

  /** Midnight and noon get the same text as written. */
  lemma HourTextAsWrittenCollides()
    ensures HourTextAsWritten(0) == HourTextAsWritten(12) == (12, "pm")
  {
  }

  /** The 12-hour clock as intended: midnight is 12am. */
  function HourText(h: nat): (r: (nat, string))
    requires h < 24
    ensures 1 <= r.0 <= 12
    ensures r.0 % 12 == h % 12
    ensures r.1 == "am" <==> h < 12
    ensures r.1 == "am" || r.1 == "pm"
  {
    if h == 0 then (12, "am")
    else if h < 12 then (h, "am")
    else if h == 12 then (h, "pm")
    else (h - 12, "pm")
  }

  /** Back from the 12-hour clock to the 24-hour one. */
  function HourOf(hour12: nat, suffix: string): nat {
    if suffix == "am" then (if hour12 == 12 then 0 else hour12)
    else (if hour12 == 12 then 12 else hour12 + 12)
  }

  /** The intended 12-hour text determines the hour: each hour has its own text. */
  lemma HourTextInverse(h: nat)
    requires h < 24
    ensures HourOf(HourText(h).0, HourText(h).1) == h
  {
  }

  lemma HourTextInjective(a: nat, b: nat)
    requires a < 24 && b < 24
    requires HourText(a) == HourText(b)
    ensures a == b
  {
    HourTextInverse(a);
    HourTextInverse(b);
  }

  /** "{h}{m}{suffix} EST, {Month} {day}, {year}" for a given 12-hour reading of the hour. */
  function RenderEventText(dt: DateTime, hour: (nat, string)): string
    requires ValidDateTime(dt)
  {
    NatToString(hour.0) + MinuteText(dt.time.minute) + hour.1 + " EST, " + MonthName(dt.date.month)
      + " " + NatToString(dt.date.day) + ", " + NatToString(dt.date.year)
  }

  /** The announcement text with the intended clock. */
  function EventText(dt: DateTime): string
    requires ValidDateTime(dt)
  {
    RenderEventText(dt, HourText(dt.time.hour))
  }

  /** The announcement text as written, with midnight read as "12pm". */
  function EventTextAsWritten(dt: DateTime): string
    requires ValidDateTime(dt)
  {
    RenderEventText(dt, HourTextAsWritten(dt.time.hour))
  }

  /** The intended text and the text as written disagree exactly for times in the
      hour after midnight. */
  lemma EventTextAsWrittenDiffers(dt: DateTime)
    requires ValidDateTime(dt)
    ensures EventTextAsWritten(dt) == EventText(dt) <==> dt.time.hour != 0
  {
    if dt.time.hour == 0 {
      var k := |NatToString(12)| + |MinuteText(dt.time.minute)|;
      assert EventTextAsWritten(dt)[k] == 'p';
      assert EventText(dt)[k] == 'a';
    }
  }

  /** A date argument counts only when it is a non-empty string. */
  predicate DateGiven(dateText: Option<string>) {
    dateText.Some? && dateText.value != ""
  }

  datatype Announced = Announced(at: DateTime, text: string)

  /** `get_event_time`: the time is read first, then the date if one was given. A
      given date must lead to an instant after `now`; without one, today's date is
      used and moved to tomorrow when that instant is not after `now`. */
  function GetEventTime(timeText: string, dateText: Option<string>, now: DateTime): (r: Result<Announced, TimeError>)
    requires ValidDateTime(now)
    ensures r == Err(TimeFormat) <==> ParseTime(timeText).None?
    ensures r == Err(DateFormat) <==>
      ParseTime(timeText).Some? && DateGiven(dateText) && ParseDate(dateText.value).None?
    ensures r == Err(BeforeNow) <==>
      && ParseTime(timeText).Some? && DateGiven(dateText) && ParseDate(dateText.value).Some?
      && AtOrBefore(DateTime(ParseDate(dateText.value).value, ParseTime(timeText).value), now)
    ensures r == Err(Overflow) ==> !DateGiven(dateText) && now.date == Date(MaxYear, 12, 31)
    ensures r.Ok? ==> ValidDateTime(r.value.at) && Before(now, r.value.at)
    ensures r.Ok? ==> r.value.at.time == ParseTime(timeText).value && r.value.text == EventText(r.value.at)
    ensures r.Ok? && DateGiven(dateText) ==> r.value.at.date == ParseDate(dateText.value).value
    ensures r.Ok? && !DateGiven(dateText) ==>
      (r.value.at.date == now.date <==> Before(now, DateTime(now.date, r.value.at.time)))
    ensures r.Ok? && !DateGiven(dateText) && r.value.at.date != now.date ==>
      NextDay(now.date) == Some(r.value.at.date)
  {
    match ParseTime(timeText)
    case None => Err(TimeFormat)
    case Some(t) =>
      if DateGiven(dateText) then
        match ParseDate(dateText.value)
        case None => Err(DateFormat)
        case Some(d) =>
          var at := DateTime(d, t);
          if AtOrBefore(at, now) then Err(BeforeNow) else Ok(Announced(at, EventText(at)))
      else
        var today := DateTime(now.date, t);
        if !AtOrBefore(today, now) then Ok(Announced(today, EventText(today)))
        else
          match NextDay(now.date)
          case None => Err(Overflow)
          case Some(tomorrow) =>
            var at := DateTime(tomorrow, t);
            Ok(Announced(at, EventText(at)))
  }

  /** Without a date, any time of day is announced within the next day: the result is
      the first instant with that time of day after `now`. */
  lemma RollForwardIsEarliest(timeText: string, now: DateTime, other: Date)
    requires ValidDateTime(now) && ValidDate(other)
    requires ParseTime(timeText).Some?
    requires Before(now, DateTime(other, ParseTime(timeText).value))
    ensures var r := GetEventTime(timeText, None, now);
      r.Ok? && (r.value.at.date == other || DateLt(r.value.at.date, other))
  {
    var t := ParseTime(timeText).value;
    if AtOrBefore(DateTime(now.date, t), now) {
      assert DateLt(now.date, other);
      NextDayImmediate(now.date, other);
    }
  }
}

=== FILE: legacy_players.dfy ===
/** The older players table of utils/database.py, whose `add_player`
    reports why an insert was refused with a numeric code. */
module LegacyPlayers {
  import opened Wrappers
  import opened PlayersTable

  /** `fetch_player_id`: the first row with that Minecraft id; `None` stands for `False`. */
  function FetchPlayerId(t: Table, minecraftId: MinecraftId): (r: Option<PlayerRow>)
    ensures r.None? <==> !HasMinecraftId(t, minecraftId)
    ensures r.Some? ==> r.value.minecraftId == minecraftId
    ensures r.Some? ==>
      exists i :: 0 <= i < |t| && t[i] == r.value && forall j :: 0 <= j < i ==> t[j].minecraftId != minecraftId
  {
    FetchByMinecraftId(t, minecraftId)
  }

  /** `fetch_discord_id`: the first row with that Discord id; `None` stands for `False`. */
  function FetchDiscordId(t: Table, discordId: DiscordId): (r: Option<PlayerRow>)
    ensures r.None? <==> !HasDiscordId(t, discordId)
    ensures r.Some? ==> r.value in t && r.value.discordId == discordId
    ensures r.Some? ==>
      exists i :: 0 <= i < |t| && t[i] == r.value && forall j :: 0 <= j < i ==> t[j].discordId != discordId
  {
    FetchByDiscordId(t, discordId)
  }

  /** `add_player` with result codes: 1 when the Minecraft id is known (checked first),
      2 when only the Discord id is known, and 0 after inserting the row. */
  function AddPlayerCode(t: Table, minecraftId: MinecraftId, discordId: DiscordId, username: string,
                         priority: int, elo: int): (r: (nat, Table))
    ensures r.0 == 1 <==> HasMinecraftId(t, minecraftId)
    ensures r.0 == 2 <==> !HasMinecraftId(t, minecraftId) && HasDiscordId(t, discordId)
    ensures r.0 != 0 ==> r.1 == t
    ensures r.0 == 0 ==> r.1 == t + [PlayerRow(minecraftId, discordId, Some(username), priority, elo)]
    ensures r.0 <= 2
  {
    if FetchPlayerId(t, minecraftId).Some? then (1, t)
    else if FetchDiscordId(t, discordId).Some? then (2, t)
    else (0, t + [PlayerRow(minecraftId, discordId, Some(username), priority, elo)])
  }

  /** The legacy codes agree with `player_check` of the newer table module, and a code 0
      insert is exactly the newer `add_player` insert. */
  lemma AddPlayerCodeAgrees(t: Table, minecraftId: MinecraftId, discordId: DiscordId, username: string)
    ensures AddPlayerCode(t, minecraftId, discordId, username, DefaultPriority, DefaultElo).0
         == PlayerCheck(t, minecraftId, discordId)
    ensures AddPlayerCode(t, minecraftId, discordId, username, DefaultPriority, DefaultElo).1
         == PlayersTable.AddPlayer(t, minecraftId, discordId, username, DefaultPriority, DefaultElo).1
  {
  }
}

=== FILE: map_search.dfy ===
/** The search behind the `maps` command of commands/CTFCommands.py: a JSON
    object of map names to map ids is searched with comma-separated terms,
    and the matches are listed as links. */
module MapSearch {
  import opened Wrappers
  import opened Text
  import opened Collections

  datatype MapEntry = MapEntry(name: string, id: int)

  /** A JSON object of map names to ids, in file order. */
  type Pool = seq<MapEntry>

  /** A JSON object has each key once. */
  predicate UniqueNames(p: Pool) {
    forall i, j :: 0 <= i < j < |p| ==> p[i].name != p[j].name
  }

  predicate HasName(p: Pool, name: string) {
    exists i :: 0 <= i < |p| && p[i].name == name
  }

  /** `p[name]`: the id stored under a name. */
  function Lookup(p: Pool, name: string): (r: Option<int>)
    ensures r.None? <==> !HasName(p, name)
    ensures r.Some? ==> MapEntry(name, r.value) in p
  {
    if |p| == 0 then None
    else if p[0].name == name then Some(p[0].id)
    else
      assert HasName(p, name) ==> HasName(p[1..], name) by {
        if HasName(p, name) {
          var i :| 0 <= i < |p| && p[i].name == name;
          assert p[1..][i - 1].name == name;
        }
      }
      Lookup(p[1..], name)
  }

  lemma {:induction false} LookupAppend(a: Pool, b: Pool, name: string)
    ensures Lookup(a + b, name) == if HasName(a, name) then Lookup(a, name) else Lookup(b, name)
    decreases |a|
  {
    if |a| == 0 {
      assert a + b == b;
    } else {
      assert (a + b)[1..] == a[1..] + b;
      LookupAppend(a[1..], b, name);
      if a[0].name != name {
        assert HasName(a, name) <==> HasName(a[1..], name) by {
          if HasName(a, name) {
            var i :| 0 <= i < |a| && a[i].name == name;
            assert a[1..][i - 1].name == name;
          }
          if HasName(a[1..], name) {
            var i :| 0 <= i < |a[1..]| && a[1..][i].name == name;
            assert a[i + 1].name == name;
          }
        }
      }
    }
  }

  /** The entries of `a`, each taking the id `b` stores under its name, if any. */
  function Override(a: Pool, b: Pool): (r: Pool)
    ensures |r| == |a|
    ensures forall i :: 0 <= i < |a| ==> r[i].name == a[i].name
    ensures forall name :: HasName(r, name) <==> HasName(a, name)
  {
    if |a| == 0 then []
    else
      var rest := Override(a[1..], b);
      var head := MapEntry(a[0].name, match Lookup(b, a[0].name) case Some(id) => id case None => a[0].id);
      var r := [head] + rest;
      assert forall i :: 0 <= i < |a| ==> r[i].name == a[i].name by {
        assert forall i :: 1 <= i < |a| ==> r[i] == rest[i - 1] && a[i] == a[1..][i - 1];
      }
      SameNames(r, a);
      r
  }

  /** Two pools with the same names position by position have the same names. */
  lemma SameNames(a: Pool, b: Pool)
    requires |a| == |b| && forall i :: 0 <= i < |a| ==> a[i].name == b[i].name
    ensures forall name :: HasName(a, name) <==> HasName(b, name)
  {
    forall name ensures HasName(a, name) <==> HasName(b, name) {
      if HasName(a, name) {
        var i :| 0 <= i < |a| && a[i].name == name;
        assert b[i].name == name;
      }
      if HasName(b, name) {
        var i :| 0 <= i < |b| && b[i].name == name;
        assert a[i].name == name;
      }
    }
  }

  lemma {:induction false} LookupOverride(a: Pool, b: Pool, name: string)
    requires HasName(a, name)
    ensures Lookup(Override(a, b), name) == if HasName(b, name) then Lookup(b, name) else Lookup(a, name)
    decreases |a|
  {
    if a[0].name != name {
      var i :| 0 <= i < |a| && a[i].name == name;
      assert a[1..][i - 1].name == name;
      LookupOverride(a[1..], b, name);
    }
  }

  /** Selecting by a test on the name keeps the lookup of names that pass it. */
  lemma {:induction false} LookupWhereName(b: Pool, a: Pool, name: string)
    requires !HasName(a, name)
    ensures Lookup(Where(b, (e: MapEntry) => !HasName(a, e.name)), name) == Lookup(b, name)
    decreases |b|
  {
    if |b| > 0 {
      LookupWhereName(b[1..], a, name);
    }
  }

  /** `{**maps, **all_maps}`: the rotation's names in their order with the full
      list's ids winning, then the names only the full list has. */
  function MergePools(a: Pool, b: Pool): (r: Pool)
    ensures forall name :: Lookup(r, name) == if HasName(b, name) then Lookup(b, name) else Lookup(a, name)
    ensures |r| >= |a| && forall i :: 0 <= i < |a| ==> r[i].name == a[i].name
    ensures forall e :: e in r[|a|..] <==> e in b && !HasName(a, e.name)
  {
    var r := Override(a, b) + Where(b, (e: MapEntry) => !HasName(a, e.name));
    assert forall name :: Lookup(r, name) == if HasName(b, name) then Lookup(b, name) else Lookup(a, name) by {
      forall name
        ensures Lookup(r, name) == if HasName(b, name) then Lookup(b, name) else Lookup(a, name)
      {
        LookupAppend(Override(a, b), Where(b, (e: MapEntry) => !HasName(a, e.name)), name);
        if HasName(a, name) {
          LookupOverride(a, b, name);
        } else {
          LookupWhereName(b, a, name);
        }
      }
    }
    assert r[|a|..] == Where(b, (e: MapEntry) => !HasName(a, e.name));
    r
  }

  /** The search terms: the lowercased text split at commas, empty pieces dropped,
      then each piece stripped. A piece of blanks survives the drop and becomes the
      empty term. */
  function Terms(searches: string): (terms: seq<string>)
    ensures forall k :: 0 <= k < |terms| ==> ',' !in terms[k]
    ensures forall k :: 0 <= k < |terms| ==> forall c :: c in terms[k] ==> !('A' <= c <= 'Z')
    ensures |terms| == |NonEmptyPieces(Lower(searches))|
    ensures forall k :: 0 <= k < |terms| ==> terms[k] == Strip(NonEmptyPieces(Lower(searches))[k])
  {
    var lowered := Lower(searches);
    var pieces := NonEmptyPieces(lowered);
    var terms := seq(|pieces|, i requires 0 <= i < |pieces| => Strip(pieces[i]));
    forall k, c | 0 <= k < |terms| && c in terms[k] ensures c != ',' && !('A' <= c <= 'Z') {
      assert c in pieces[k];
      assert c in lowered;
      var i :| 0 <= i < |lowered| && lowered[i] == c;
    }
    terms
  }

  /** `filter(None, text.split(","))`: the non-empty pieces between commas. */
  function NonEmptyPieces(text: string): (pieces: seq<string>)
    ensures forall k :: 0 <= k < |pieces| ==> pieces[k] != "" && ',' !in pieces[k]
    ensures forall k :: 0 <= k < |pieces| ==> forall c :: c in pieces[k] ==> c in text
    ensures pieces == Where(Split(text, ','), (p: string) => p != "")
  {
    var all := Split(text, ',');
    var pieces := Where(all, (p: string) => p != "");
    forall k | 0 <= k < |pieces|
      ensures pieces[k] != "" && ',' !in pieces[k] && forall c :: c in pieces[k] ==> c in text
    {
      var p := pieces[k];
      assert p in pieces;
      assert p in all;
      var j :| 0 <= j < |all| && all[j] == p;
      JoinContainsPieces(all, ',', j);
    }
    pieces
  }

  /** Terms that are lower case, comma free, not empty and not padded with blanks
      come back from their comma-joined text unchanged and in order. */
  lemma TermsOfJoin(terms: seq<string>)
    requires |terms| > 0
    requires forall k :: 0 <= k < |terms| ==> CleanTerm(terms[k])
    ensures Terms(Join(terms, ',')) == terms
  {
    var text := Join(terms, ',');
    var r := Terms(text);
    JoinLowerCase(terms);
    PiecesOfJoin(terms);
    forall k | 0 <= k < |terms| ensures r[k] == terms[k] {
      StripUnchanged(terms[k]);
    }
  }

  /** Clean terms are the non-empty pieces of their comma-joined text. */
  lemma PiecesOfJoin(terms: seq<string>)
    requires |terms| > 0
    requires forall k :: 0 <= k < |terms| ==> CleanTerm(terms[k])
    ensures NonEmptyPieces(Join(terms, ',')) == terms
  {
    SplitJoin(terms, ',');
    WhereAll(terms, (p: string) => p != "");
  }

  /** Joining clean terms gives text without capitals. */
  lemma JoinLowerCase(terms: seq<string>)
    requires |terms| > 0
    requires forall k :: 0 <= k < |terms| ==> CleanTerm(terms[k])
    ensures Lower(Join(terms, ',')) == Join(terms, ',')
  {
    var text := Join(terms, ',');
    forall c | c in text ensures !('A' <= c <= 'Z') {
      var i :| 0 <= i < |text| && text[i] == c;
      JoinCharFrom(terms, ',', i);
    }
    LowerUnchanged(text);
  }

  /** A search term as a user would type it between commas. */
  predicate CleanTerm(t: string) {
    && t != ""
    && ',' !in t
    && !IsSpace(t[0]) && !IsSpace(t[|t| - 1])
    && forall c :: c in t ==> !('A' <= c <= 'Z')
  }

  /** Each character of a joined text is the separator or a character of a piece. */
  lemma {:induction false} JoinCharFrom(pieces: seq<string>, sep: char, i: int)
    requires |pieces| > 0 && 0 <= i < |Join(pieces, sep)|
    ensures Join(pieces, sep)[i] == sep || exists k :: 0 <= k < |pieces| && Join(pieces, sep)[i] in pieces[k]
    decreases |pieces|
  {
    if |pieces| > 1 {
      var rest := Join(pieces[1..], sep);
      var j := Join(pieces, sep);
      assert j == pieces[0] + [sep] + rest;
      if i < |pieces[0]| {
        assert j[i] == pieces[0][i];
      } else if i > |pieces[0]| {
        var i' := i - |pieces[0]| - 1;
        assert j[i] == rest[i'];
        JoinCharFrom(pieces[1..], sep, i');
        if rest[i'] != sep {
          var k :| 0 <= k < |pieces[1..]| && rest[i'] in pieces[1..][k];
          assert pieces[1..][k] == pieces[k + 1];
        }
      }
    } else {
      assert Join(pieces, sep)[i] in pieces[0];
    }
  }

  /** Each piece's characters occur in the joined text. */
  lemma {:induction false} JoinContainsPieces(pieces: seq<string>, sep: char, k: nat)
    requires k < |pieces|
    ensures forall c :: c in pieces[k] ==> c in Join(pieces, sep)
    decreases |pieces|
  {
    if |pieces| > 1 {
      var j := Join(pieces, sep);
      assert j == pieces[0] + [sep] + Join(pieces[1..], sep);
      if k > 0 {
        JoinContainsPieces(pieces[1..], sep, k - 1);
      }
    }
  }

  /** `search in k.lower() or search in str(v)`. */
  predicate Matches(term: string, e: MapEntry) {
    IsSubstring(term, Lower(e.name)) || IsSubstring(term, IntToString(e.id))
  }

  /** The empty term matches every map. */
  lemma EmptyTermMatchesAll(e: MapEntry)
    ensures Matches("", e)
  {
  }

  predicate AnyMatch(terms: seq<string>, e: MapEntry) {
    exists k :: 0 <= k < |terms| && Matches(terms[k], e)
  }

  /** The inner loop as written: append each match of `term` not already listed. */
  function AddMatches(acc: Pool, maps: Pool, term: string): Pool
    decreases |maps|
  {
    if |maps| == 0 then acc
    else AddMatches(if Matches(term, maps[0]) && maps[0] !in acc then acc + [maps[0]] else acc, maps[1..], term)
  }

  /** The outer loop as written: the terms in order. */
  function SearchFrom(maps: Pool, terms: seq<string>, acc: Pool): Pool
    decreases |terms|
  {
    if |terms| == 0 then acc else SearchFrom(maps, terms[1..], AddMatches(acc, maps, terms[0]))
  }

  /** The inner loop only adds maps of the pool that the term matches. */
  lemma {:induction false} AddMatchesSound(acc: Pool, maps: Pool, term: string)
    ensures forall e :: e in AddMatches(acc, maps, term) ==> e in acc || (e in maps && Matches(term, e))
    decreases |maps|
  {
    if |maps| > 0 {
      var next := if Matches(term, maps[0]) && maps[0] !in acc then acc + [maps[0]] else acc;
      AddMatchesSound(next, maps[1..], term);
      assert forall e :: e in maps[1..] ==> e in maps;
    }
  }

  /** The outer loop only adds maps of the pool that some term matches. */
  lemma {:induction false} SearchFromSound(maps: Pool, terms: seq<string>, acc: Pool)
    ensures forall e :: e in SearchFrom(maps, terms, acc) ==> e in acc || (e in maps && AnyMatch(terms, e))
    decreases |terms|
  {
    if |terms| > 0 {
      var next := AddMatches(acc, maps, terms[0]);
      AddMatchesSound(acc, maps, terms[0]);
      SearchFromSound(maps, terms[1..], next);
      forall e | AnyMatch(terms[1..], e) ensures AnyMatch(terms, e) {
        var k :| 0 <= k < |terms[1..]| && Matches(terms[1..][k], e);
        assert terms[k + 1] == terms[1..][k];
      }
    }
  }

  /** Every map listed is one of the pool's, matched by some term. */
  function Search(maps: Pool, terms: seq<string>): (r: Pool)
    ensures forall e :: e in r ==> e in maps && AnyMatch(terms, e)
  {
    SearchFromSound(maps, terms, []);
    SearchFrom(maps, terms, [])
  }

  /** The maps `term` matches and no earlier term did, in map order. */
  function Block(maps: Pool, term: string, earlier: seq<string>): Pool {
    Where(maps, (e: MapEntry) => Matches(term, e) && !AnyMatch(earlier, e))
  }

  /** The reference result: one block per term, in term order. */
  function ByTerm(maps: Pool, terms: seq<string>): Pool
    decreases |terms|
  {
    if |terms| == 0 then []
    else ByTerm(maps, terms[..|terms| - 1]) + Block(maps, terms[|terms| - 1], terms[..|terms| - 1])
  }

  /** The reference result holds exactly the maps some term matches. */
  lemma {:induction false} ByTermMembers(maps: Pool, terms: seq<string>)
    ensures forall e :: e in ByTerm(maps, terms) <==> e in maps && AnyMatch(terms, e)
    decreases |terms|
  {
    if |terms| > 0 {
      var n := |terms| - 1;
      var pre := terms[..n];
      ByTermMembers(maps, pre);
      forall e ensures AnyMatch(terms, e) <==> AnyMatch(pre, e) || Matches(terms[n], e) {
        if AnyMatch(pre, e) {
          var k :| 0 <= k < |pre| && Matches(pre[k], e);
          assert terms[k] == pre[k];
        }
        if AnyMatch(terms, e) && !Matches(terms[n], e) {
          var k :| 0 <= k < |terms| && Matches(terms[k], e);
          assert pre[k] == terms[k];
        }
      }
    }
  }

  /** For maps listed once, the inner loop appends the matches not yet listed, in map order. */
  lemma {:induction false} AddMatchesAppends(acc: Pool, maps: Pool, term: string)
    requires Distinct(maps)
    ensures AddMatches(acc, maps, term) == acc + Where(maps, (e: MapEntry) => Matches(term, e) && e !in acc)
    decreases |maps|
  {
    if |maps| > 0 {
      var m := maps[0];
      var rest := maps[1..];
      DistinctTail(maps);
      if Matches(term, m) && m !in acc {
        AddMatchesAppends(acc + [m], rest, term);
        WhereCongruent(rest, (e: MapEntry) => Matches(term, e) && e !in acc + [m],
                             (e: MapEntry) => Matches(term, e) && e !in acc);
      } else {
        AddMatchesAppends(acc, rest, term);
      }
    }
  }

  lemma {:induction false} SearchFromByTerm(maps: Pool, terms: seq<string>, k: nat)
    requires Distinct(maps) && k <= |terms|
    ensures SearchFrom(maps, terms[k..], ByTerm(maps, terms[..k])) == ByTerm(maps, terms)
    decreases |terms| - k
  {
    if k == |terms| {
      assert terms[..k] == terms;
    } else {
      var pre := ByTerm(maps, terms[..k]);
      AddMatchesAppends(pre, maps, terms[k]);
      ByTermMembers(maps, terms[..k]);
      WhereCongruent(maps, (e: MapEntry) => Matches(terms[k], e) && e !in pre,
                           (e: MapEntry) => Matches(terms[k], e) && !AnyMatch(terms[..k], e));
      assert terms[..k + 1][..k] == terms[..k];
      assert ByTerm(maps, terms[..k + 1]) == pre + Block(maps, terms[k], terms[..k]);
      assert terms[k..][1..] == terms[k + 1..];
      SearchFromByTerm(maps, terms, k + 1);
    }
  }

  /** The search as written lists each matching map once, grouped by the first term
      that matches it, each group in map order. */
  lemma SearchIsByTerm(maps: Pool, terms: seq<string>)
    requires Distinct(maps)
    ensures Search(maps, terms) == ByTerm(maps, terms)
    ensures forall e :: e in Search(maps, terms) <==> e in maps && AnyMatch(terms, e)
    ensures Distinct(Search(maps, terms))
  {
    assert terms[0..] == terms && terms[..0] == [];
    SearchFromByTerm(maps, terms, 0);
    ByTermMembers(maps, terms);
    ByTermDistinct(maps, terms);
  }

  lemma {:induction false} ByTermDistinct(maps: Pool, terms: seq<string>)
    requires Distinct(maps)
    ensures Distinct(ByTerm(maps, terms))
    decreases |terms|
  {
    if |terms| > 0 {
      var n := |terms| - 1;
      ByTermDistinct(maps, terms[..n]);
      ByTermMembers(maps, terms[..n]);
      WhereDistinct(maps, (e: MapEntry) => Matches(terms[n], e) && !AnyMatch(terms[..n], e));
      DistinctConcat(ByTerm(maps, terms[..n]), Block(maps, terms[n], terms[..n]));
    }
  }

  /** A JSON object's entries are all different. */
  lemma UniqueNamesDistinct(p: Pool)
    requires UniqueNames(p)
    ensures Distinct(p)
  {
  }

  const MapUrl := "https://www.brawl.com/games/ctf/maps/"

  /** "[name](url/id) (id)". */
  function MapLine(e: MapEntry): string {
    "[" + e.name + "](" + MapUrl + IntToString(e.id) + ") (" + IntToString(e.id) + ")"
  }

  function MapLines(found: Pool): (lines: seq<string>)
    ensures |lines| == |found|
    ensures forall i :: 0 <= i < |found| ==> lines[i] == MapLine(found[i])
  {
    seq(|found|, i requires 0 <= i < |found| => MapLine(found[i]))
  }

  /** The ids for the match server, separated by blanks, in result order. */
  function IdLine(found: Pool): string
    requires |found| > 0
  {
    "\n*For match server:*\n`" + Join(seq(|found|, i requires 0 <= i < |found| => IntToString(found[i].id)), ' ') + "`"
  }

  /** The maps found: all of them for an empty search text, otherwise the search. */
  function Found(pool: Pool, searches: string): Pool {
    if searches == "" then pool else Search(pool, Terms(searches))
  }

  /** The pool searched: the rotation, or the rotation merged with the full list. */
  function PoolOf(rotation: Pool, all: Pool, rotationOnly: bool): Pool {
    if rotationOnly then rotation else MergePools(rotation, all)
  }

  datatype MapsReply = NoMapsFound | OneMap(line: string) | MapPages(count: nat, lines: seq<string>)

  /** `maps`: no match is an error, a single match gets a card of its own, and more
      are listed as lines — sorted when there are more than five, and followed by
      the id line when there are at most five. */
  function Maps(rotation: Pool, all: Pool, searches: string, rotationOnly: bool): (r: MapsReply)
    ensures var found := Found(PoolOf(rotation, all, rotationOnly), searches);
      && (r.NoMapsFound? <==> |found| == 0)
      && (r.OneMap? <==> |found| == 1)
      && (r.OneMap? ==> r.line == MapLine(found[0]))
      && (r.MapPages? ==> r.count == |found| >= 2)
      && (r.MapPages? && |found| > 5 ==>
            SortedStrings(r.lines) && multiset(r.lines) == multiset(MapLines(found)))
      && (r.MapPages? && |found| <= 5 ==> r.lines == MapLines(found) + [IdLine(found)])
  {
    var found := Found(PoolOf(rotation, all, rotationOnly), searches);
    if |found| == 0 then NoMapsFound
    else if |found| == 1 then OneMap(MapLine(found[0]))
    else if |found| > 5 then MapPages(|found|, SortStrings(MapLines(found)))
    else MapPages(|found|, MapLines(found) + [IdLine(found)])
  }

  /** With search text, every listed map is one some term matches, each listed once. */
  lemma MapsListsMatches(rotation: Pool, all: Pool, searches: string, rotationOnly: bool)
    requires Distinct(PoolOf(rotation, all, rotationOnly))
    requires searches != ""
    ensures var pool := PoolOf(rotation, all, rotationOnly);
      var found := Found(pool, searches);
      Distinct(found) && forall e :: e in found <==> e in pool && AnyMatch(Terms(searches), e)
  {
    SearchIsByTerm(PoolOf(rotation, all, rotationOnly), Terms(searches));
  }
}

=== FILE: nicknames.dfy ===
/** The nickname rewrite of `update_usernames` and `examine_members` in
    commands/RegistrationCommands.py: a member's server nickname becomes their
    current Minecraft username, keeping a leading team tag "[TAG] " and a
    trailing alias " (alias)". The two patterns are `^\[(\w{1,4})\]` and
    `\s\((.*)\)$`; `\w` is taken as the ASCII word characters. */
module Nicknames {
  import opened Wrappers
  import opened Text

  predicate IsWordChar(c: char) {
    ('a' <= c <= 'z') || ('A' <= c <= 'Z') || ('0' <= c <= '9') || c == '_'
  }

  predicate IsWord(s: string) {
    forall i :: 0 <= i < |s| ==> IsWordChar(s[i])
  }

  /** Minecraft account names: a non-empty run of word characters. */
  predicate IsMinecraftName(s: string) {
    |s| > 0 && IsWord(s)
  }

  /** The number of word characters in `s` from position `i` on, up to the first other one. */
  function WordRun(s: string, i: nat): (n: nat)
    requires i <= |s|
    ensures i + n <= |s|
    ensures IsWord(s[i..i + n])
    ensures i + n < |s| ==> !IsWordChar(s[i + n])
    decreases |s| - i
  {
    if i < |s| && IsWordChar(s[i]) then
      var n := 1 + WordRun(s, i + 1);
      assert s[i..i + n] == [s[i]] + s[i + 1..i + n];
      n
    else 0
  }

  /** `re.findall(r"^\[(\w{1,4})\]", s)`: the tag a nickname opens with. As no word
      character is "]", at most one length of tag can match. */
  function Tag(s: string): (r: Option<string>)
    ensures r.Some? ==> 1 <= |r.value| <= 4 && IsWord(r.value)
    ensures r.Some? ==> |s| >= |r.value| + 2 && s[..|r.value| + 2] == "[" + r.value + "]"
  {
    if |s| < 3 || s[0] != '[' then None
    else
      var n := WordRun(s, 1);
      if 1 <= n <= 4 && n + 1 < |s| && s[n + 1] == ']' then
        assert s[..n + 2] == "[" + s[1..n + 1] + "]";
        Some(s[1..n + 1])
      else None
  }

  /** A tag followed by anything is found again: the partner of `Tag`. */
  lemma TagOfPrefix(tag: string, rest: string)
    requires 1 <= |tag| <= 4 && IsWord(tag)
    ensures Tag("[" + tag + "]" + rest) == Some(tag)
  {
    var s := "[" + tag + "]" + rest;
    assert s[1..|tag| + 1] == tag;
    WordRunOf(s, 1, |tag|);
  }

  lemma {:induction false} WordRunOf(s: string, i: nat, n: nat)
    requires i + n < |s| && IsWord(s[i..i + n]) && !IsWordChar(s[i + n])
    ensures WordRun(s, i) == n
    decreases n
  {
    if n > 0 {
      assert s[i] == s[i..i + n][0];
      assert s[i + 1..i + n] == s[i..i + n][1..];
      WordRunOf(s, i + 1, n - 1);
    }
  }

  /** Where `$` may match: the end, or just before one final line break. */
  function LineEnd(s: string): (e: nat)
    ensures e <= |s|
  {
    if |s| > 0 && s[|s| - 1] == '\n' then |s| - 1 else |s|
  }

  /** `\s\((.*)\)$` matches at position `i`: a blank, "(", a group without line
      breaks, and ")" where `$` matches. `.*` is greedy, so the group runs to that ")". */
  predicate AliasAt(s: string, i: int) {
    0 <= i && i + 3 <= LineEnd(s) && IsSpace(s[i]) && s[i + 1] == '(' && s[LineEnd(s) - 1] == ')'
    && '\n' !in s[i + 2..LineEnd(s) - 1]
  }

  /** The leftmost position from `from` on where the alias pattern matches. */
  function FirstAliasAt(s: string, from: nat): (r: Option<nat>)
    ensures r.Some? ==> from <= r.value && AliasAt(s, r.value)
    ensures forall j :: from <= j && (r.None? || j < r.value) ==> !AliasAt(s, j)
    decreases |s| - from
  {
    if from + 3 > LineEnd(s) then None
    else if AliasAt(s, from) then Some(from)
    else FirstAliasAt(s, from + 1)
  }

  /** `re.findall(r"\s\((.*)\)$", s)[0]`: the alias of the leftmost match. */
  function Alias(s: string): (r: Option<string>)
    ensures r.Some? ==> '\n' !in r.value
    ensures r.None? <==> forall j :: !AliasAt(s, j)
  {
    match FirstAliasAt(s, 0)
    case None => None
    case Some(i) => Some(s[i + 2..LineEnd(s) - 1])
  }

  /** The base the rewrite starts from: the nickname, or the account name when the
      member has none (`if not member.nick`, so an empty nickname also falls back).
      `examine_members` reads `member.nick` without that fallback; the two agree
      because Discord never stores an empty nickname. */
  function Base(nick: Option<string>, name: string): string {
    if nick.Some? && nick.value != "" then nick.value else name
  }

  /** The new nickname: the tag, the username, the alias. The username fills the
      nickname between the tag part and the alias part read from the base. */
  function Rewrite(nick: Option<string>, name: string, username: string): (r: string)
    ensures IsMinecraftName(username) ==> |r| > 0
    ensures var base := Base(nick, name);
      var front := |TagPart(Tag(base))|;
      && |r| == front + |username| + |AliasPart(Alias(base))|
      && r[front..front + |username|] == username
  {
    var base := Base(nick, name);
    TagPart(Tag(base)) + username + AliasPart(Alias(base))
  }

  /** The text the rewrite puts before the username. */
  function TagPart(tag: Option<string>): string {
    if tag.Some? then "[" + tag.value + "] " else ""
  }

  /** The text the rewrite puts after the username. */
  function AliasPart(alias: Option<string>): string {
    if alias.Some? then " (" + alias.value + ")" else ""
  }

  /** The rewrite keeps the tag: reading it from the new nickname gives what was
      read from the old one. */
  lemma RewriteKeepsTag(nick: Option<string>, name: string, username: string)
    requires IsMinecraftName(username)
    ensures Tag(Rewrite(nick, name, username)) == Tag(Base(nick, name))
  {
    var base := Base(nick, name);
    TagBeforeName(Tag(base), username, AliasPart(Alias(base)));
  }

  /** The tag part written before a Minecraft name reads back as the tag. */
  lemma TagBeforeName(tag: Option<string>, username: string, back: string)
    requires tag.Some? ==> 1 <= |tag.value| <= 4 && IsWord(tag.value)
    requires IsMinecraftName(username)
    ensures Tag(TagPart(tag) + username + back) == tag
  {
    if tag.Some? {
      TaggedName(tag.value, username, back);
    } else {
      NoTagBeforeName(username, back);
    }
  }

  lemma TaggedName(tag: string, username: string, back: string)
    requires 1 <= |tag| <= 4 && IsWord(tag)
    ensures Tag(TagPart(Some(tag)) + username + back) == Some(tag)
  {
    var rest := " " + username + back;
    assert TagPart(Some(tag)) + username + back == "[" + tag + "]" + rest;
    TagOfPrefix(tag, rest);
  }

  /** A nickname that opens with a Minecraft name has no tag. */
  lemma NoTagBeforeName(username: string, back: string)
    requires IsMinecraftName(username)
    ensures Tag(TagPart(None) + username + back) == None
  {
    assert (TagPart(None) + username + back)[0] == username[0];
  }

  /** The rewrite keeps the alias. */
  lemma RewriteKeepsAlias(nick: Option<string>, name: string, username: string)
    requires IsMinecraftName(username)
    ensures Alias(Rewrite(nick, name, username)) == Alias(Base(nick, name))
  {
    var base := Base(nick, name);
    AliasAfterName(TagPart(Tag(base)), username, Alias(base));
  }

  /** Before the username only a tag part can stand, and only its last character is a
      blank; so the alias pattern first matches where the alias part starts. */
  lemma AliasAfterName(front: string, username: string, alias: Option<string>)
    requires IsMinecraftName(username)
    requires forall j :: 0 <= j < |front| - 1 ==> !IsSpace(front[j])
    requires alias.Some? ==> '\n' !in alias.value
    ensures Alias(front + username + AliasPart(alias)) == alias
  {
    var p := front + username;
    var back := AliasPart(alias);
    var s := p + back;
    assert LineEnd(s) == |s| by {
      if |back| > 0 {
        assert s[|s| - 1] == ')';
      } else {
        assert s[|s| - 1] == username[|username| - 1];
      }
    }
    forall j | 0 <= j < |p| ensures !AliasAt(s, j) {
      if j + 1 < |front| {
        assert s[j] == front[j];
      } else if j + 1 == |front| {
        assert s[j + 1] == username[0];
      } else {
        assert s[j] == username[j - |front|];
      }
    }
    if alias.Some? {
      assert s[|p|] == ' ' && s[|p| + 1] == '(';
      assert s[|p| + 2..|s| - 1] == alias.value;
      assert AliasAt(s, |p|);
      assert FirstAliasAt(s, 0) == Some(|p|);
    } else {
      assert s == p;
    }
  }

  /** The name a nickname shows: what lies between the tag part and the alias part
      the two patterns read from it, when they do not overlap. */
  function NameOf(s: string): (r: Option<string>)
    ensures r.Some? ==> |TagPart(Tag(s))| + |r.value| + |AliasPart(Alias(s))| == |s|
  {
    var front := |TagPart(Tag(s))|;
    var back := |AliasPart(Alias(s))|;
    if front <= |s| - back then Some(s[front..|s| - back]) else None
  }

  /** The name shown by a rewritten nickname is the username it was rewritten to. */
  lemma RewriteShowsUsername(nick: Option<string>, name: string, username: string)
    requires IsMinecraftName(username)
    ensures NameOf(Rewrite(nick, name, username)) == Some(username)
  {
    RewriteKeepsTag(nick, name, username);
    RewriteKeepsAlias(nick, name, username);
  }

  /** Different usernames give different nicknames from the same base. */
  lemma RewriteInjective(nick: Option<string>, name: string, u: string, v: string)
    ensures Rewrite(nick, name, u) == Rewrite(nick, name, v) <==> u == v
  {
    var base := Base(nick, name);
    var front := |TagPart(Tag(base))|;
    if Rewrite(nick, name, u) == Rewrite(nick, name, v) {
      assert |u| == |v|;
      assert u == Rewrite(nick, name, u)[front..front + |u|];
    }
  }

  /** Rewriting an already rewritten nickname changes nothing. */
  lemma RewriteIdempotent(nick: Option<string>, name: string, username: string, otherName: string)
    requires IsMinecraftName(username)
    ensures var once := Rewrite(nick, name, username);
      Rewrite(Some(once), otherName, username) == once
  {
    RewriteKeepsTag(nick, name, username);
    RewriteKeepsAlias(nick, name, username);
  }
}

=== FILE: player.dfy ===
/** The `Player` object of database/Player.py: domain rules (ELO floor,
    non-negative priority, unique identities) layered over the players table.
    A player object is the row snapshot it holds; every operation returns
    the new snapshot together with the new table. The Mojang lookups are
    parameters: `uuidOf` maps a username to its account id, `usernameOf`
    an account id to its current username, `None` when the account is unknown.
    The code tests their results for truth, so an empty answer counts as none. */
module PlayerRules {
  import opened Wrappers
  import opened PlayersTable
  import StrikesTable

  /** `ELO_FLOOR` of utils/config.py. */
  const EloFloor := 975

  datatype PlayerError =
    | ValueError
    | PlayerDoesNotExist
    | UsernameDoesNotExist
    | UsernameAlreadyExists
    | DiscordAlreadyExists
    | MissingRow   // the reload in `update()` found no row (indexing `None` raises TypeError)

  datatype Change = Change(ok: bool, player: PlayerRow, table: Table)

  /** A lookup answer that is true in Python: present and non-empty. */
  predicate Found(answer: Option<string>) {
    answer.Some? && answer.value != ""
  }

  /** Every stored priority is non-negative. */
  ghost predicate PrioritiesNonNegative(t: Table) {
    forall i :: 0 <= i < |t| ==> t[i].priority >= 0
  }

  /** Every stored ELO is at least the floor. */
  ghost predicate EloAboveFloor(t: Table) {
    forall i :: 0 <= i < |t| ==> t[i].elo >= EloFloor
  }

  /** `set_priority`: a negative priority is refused and nothing changes; otherwise
      the object and the stored row both take the new value. */
  function SetPriority(p: PlayerRow, t: Table, priority: int): (r: Change)
    ensures r.ok <==> priority >= 0
    ensures !r.ok ==> r.player == p && r.table == t
    ensures r.ok ==> r.player == p.(priority := priority)
    ensures r.ok ==> |r.table| == |t| && forall i :: 0 <= i < |t| ==>
      r.table[i] == (if t[i].minecraftId == p.minecraftId then t[i].(priority := priority) else t[i])
  {
    if priority < 0 then Change(false, p, t)
    else Change(true, p.(priority := priority), UpdatePriority(t, priority, p.minecraftId))
  }

  /** `update()`: reload username, priority and ELO from the stored row. */
  function Reload(p: PlayerRow, t: Table): (r: Result<PlayerRow, PlayerError>)
    ensures r.Ok? <==> HasMinecraftId(t, p.minecraftId)
    ensures r.Ok? ==> r.value.minecraftId == p.minecraftId && r.value.discordId == p.discordId
    ensures r.Ok? ==> var row := FetchByMinecraftId(t, p.minecraftId).value;
      r.value.username == row.username && r.value.priority == row.priority && r.value.elo == row.elo
  {
    match FetchByMinecraftId(t, p.minecraftId)
    case None => Err(MissingRow)
    case Some(row) => Ok(p.(username := row.username, priority := row.priority, elo := row.elo))
  }

  /** `change_priority`: the stored priority becomes max(0, stored + amount). */
  function ChangePriority(p: PlayerRow, t: Table, amount: int): (r: Result<Change, PlayerError>)
    ensures r.Err? <==> !HasMinecraftId(t, p.minecraftId)
    ensures r.Ok? ==> r.value.ok
    ensures r.Ok? ==> var stored := FetchByMinecraftId(t, p.minecraftId).value.priority;
      r.value.player.priority == (if stored + amount >= 0 then stored + amount else 0)
      && r.value.player.priority >= 0
      && r.value.table == UpdatePriority(t, r.value.player.priority, p.minecraftId)
  {
    match Reload(p, t)
    case Err(e) => Err(e)
    case Ok(q) => Ok(SetPriority(q, t, if q.priority + amount >= 0 then q.priority + amount else 0))
  }

  /** `set_elo`: a value below the floor is refused and nothing changes; otherwise it is stored. */
  function SetElo(p: PlayerRow, t: Table, elo: int): (r: Change)
    ensures r.ok <==> elo >= EloFloor
    ensures !r.ok ==> r.player == p && r.table == t
    ensures r.ok ==> r.player == p.(elo := elo)
    ensures r.ok ==> |r.table| == |t| && forall i :: 0 <= i < |t| ==>
      r.table[i] == (if t[i].minecraftId == p.minecraftId then t[i].(elo := elo) else t[i])
  {
    if elo < EloFloor then Change(false, p, t)
    else Change(true, p.(elo := elo), UpdateElo(t, elo, p.minecraftId))
  }

  /** `change_elo`: the stored ELO becomes max(ELO_FLOOR, stored + amount). */
  function ChangeElo(p: PlayerRow, t: Table, amount: int): (r: Result<Change, PlayerError>)
    ensures r.Err? <==> !HasMinecraftId(t, p.minecraftId)
    ensures r.Ok? ==> r.value.ok
    ensures r.Ok? ==> var stored := FetchByMinecraftId(t, p.minecraftId).value.elo;
      r.value.player.elo == (if stored + amount >= EloFloor then stored + amount else EloFloor)
      && r.value.player.elo >= EloFloor
      && r.value.table == UpdateElo(t, r.value.player.elo, p.minecraftId)
  {
    match Reload(p, t)
    case Err(e) => Err(e)
    case Ok(q) => Ok(SetElo(q, t, if q.elo + amount >= EloFloor then q.elo + amount else EloFloor))
  }

  /** `change_priority` never stores a negative priority. */
  lemma ChangePriorityKeepsNonNegative(p: PlayerRow, t: Table, amount: int)
    requires PrioritiesNonNegative(t)
    ensures ChangePriority(p, t, amount).Ok? ==> PrioritiesNonNegative(ChangePriority(p, t, amount).value.table)
  {
    var r := ChangePriority(p, t, amount);
    if r.Ok? {
      var t' := r.value.table;
      forall i | 0 <= i < |t'| ensures t'[i].priority >= 0 {
        if t[i].minecraftId != p.minecraftId {
          assert t'[i] == t[i];
        }
      }
    }
  }

  /** `change_elo` never stores an ELO below the floor. */
  lemma ChangeEloKeepsFloor(p: PlayerRow, t: Table, amount: int)
    requires EloAboveFloor(t)
    ensures ChangeElo(p, t, amount).Ok? ==> EloAboveFloor(ChangeElo(p, t, amount).value.table)
  {
    var r := ChangeElo(p, t, amount);
    if r.Ok? {
      var t' := r.value.table;
      forall i | 0 <= i < |t'| ensures t'[i].elo >= EloFloor {
        if t[i].minecraftId != p.minecraftId {
          assert t'[i] == t[i];
        }
      }
    }
  }

  /** `update_minecraft_username`: the object and the keyed rows take whatever name the
      lookup gives for the account, `None` included, and that answer is returned. */
  function RefreshUsername(p: PlayerRow, t: Table, usernameOf: MinecraftId -> Option<string>)
    : (r: (Option<string>, PlayerRow, Table))
    ensures r.0 == usernameOf(p.minecraftId)
    ensures r.1 == p.(username := usernameOf(p.minecraftId))
    ensures |r.2| == |t|
    ensures forall i :: 0 <= i < |t| && t[i].minecraftId == p.minecraftId ==>
      r.2[i] == t[i].(username := usernameOf(p.minecraftId))
    ensures forall i :: 0 <= i < |t| && t[i].minecraftId != p.minecraftId ==> r.2[i] == t[i]
  {
    var name := usernameOf(p.minecraftId);
    (name, p.(username := name), UpdateUsername(t, name, p.minecraftId))
  }

  /** `change_discord_id`: refused when the Discord id is taken; otherwise only that column changes. */
  function ChangeDiscordId(p: PlayerRow, t: Table, discordId: DiscordId): (r: Result<Change, PlayerError>)
    ensures r.Err? <==> HasDiscordId(t, discordId)
    ensures r.Err? ==> r.error == DiscordAlreadyExists
    ensures r.Ok? ==> r.value.ok && r.value.player == p.(discordId := discordId)
    ensures r.Ok? ==> r.value.table == UpdateDiscordId(t, discordId, p.minecraftId)
  {
    if FetchByDiscordId(t, discordId).Some? then Err(DiscordAlreadyExists)
    else Ok(Change(true, p.(discordId := discordId), UpdateDiscordId(t, discordId, p.minecraftId)))
  }

  /** `change_minecraft_username`: the name must resolve to an account id that is not
      registered yet; then the keyed row takes both the new id and the new name. */
  function ChangeMinecraftUsername(p: PlayerRow, t: Table, username: string,
                                   uuidOf: string -> Option<MinecraftId>): (r: Result<Change, PlayerError>)
    ensures !Found(uuidOf(username)) ==> r == Err(UsernameDoesNotExist)
    ensures Found(uuidOf(username)) && HasMinecraftId(t, uuidOf(username).value) ==> r == Err(UsernameAlreadyExists)
    ensures r.Ok? <==> Found(uuidOf(username)) && !HasMinecraftId(t, uuidOf(username).value)
    ensures r.Ok? ==> var id := uuidOf(username).value;
      r.value.player == p.(minecraftId := id, username := Some(username))
      && r.value.table == UpdateMinecraftId(t, id, username, p.minecraftId)
  {
    if !Found(uuidOf(username)) then Err(UsernameDoesNotExist)
    else
      var id := uuidOf(username).value;
      if FetchByMinecraftId(t, id).Some? then Err(UsernameAlreadyExists)
      else Ok(Change(true, p.(minecraftId := id, username := Some(username)), UpdateMinecraftId(t, id, username, p.minecraftId)))
  }

  /** `Player.add_player`: unknown account first, then a taken Minecraft id, then a taken
      Discord id; otherwise the row is inserted and becomes the new player object. */
  function AddPlayer(t: Table, minecraftId: MinecraftId, discordId: DiscordId, priority: int, elo: int,
                     usernameOf: MinecraftId -> Option<string>): (r: Result<(PlayerRow, Table), PlayerError>)
    ensures !Found(usernameOf(minecraftId)) ==> r == Err(UsernameDoesNotExist)
    ensures Found(usernameOf(minecraftId)) && HasMinecraftId(t, minecraftId) ==> r == Err(UsernameAlreadyExists)
    ensures Found(usernameOf(minecraftId)) && !HasMinecraftId(t, minecraftId) && HasDiscordId(t, discordId)
      ==> r == Err(DiscordAlreadyExists)
    ensures r.Ok? <==> Found(usernameOf(minecraftId)) && !HasMinecraftId(t, minecraftId) && !HasDiscordId(t, discordId)
    ensures r.Ok? ==> var row := PlayerRow(minecraftId, discordId, usernameOf(minecraftId), priority, elo);
      r.value == (row, t + [row])
  {
    if !Found(usernameOf(minecraftId)) then Err(UsernameDoesNotExist)
    else
      var name := usernameOf(minecraftId).value;
      if HasMinecraftId(t, minecraftId) then Err(UsernameAlreadyExists)
      else if HasDiscordId(t, discordId) then Err(DiscordAlreadyExists)
      else
        var (_, t') := PlayersTable.AddPlayer(t, minecraftId, discordId, name, priority, elo);
        Ok((PlayerRow(minecraftId, discordId, Some(name), priority, elo), t'))
  }

  /** `from_minecraft_id` / `from_discord_id`: the stored row, or `PlayerDoesNotExist`. */
  function FromMinecraftId(t: Table, minecraftId: MinecraftId): (r: Result<PlayerRow, PlayerError>)
    ensures r.Err? <==> !HasMinecraftId(t, minecraftId)
    ensures r.Err? ==> r.error == PlayerDoesNotExist
    ensures r.Ok? ==> r.value in t && r.value.minecraftId == minecraftId
  {
    match FetchByMinecraftId(t, minecraftId)
    case None => Err(PlayerDoesNotExist)
    case Some(row) => Ok(row)
  }

  function FromDiscordId(t: Table, discordId: DiscordId): (r: Result<PlayerRow, PlayerError>)
    ensures r.Err? <==> !HasDiscordId(t, discordId)
    ensures r.Err? ==> r.error == PlayerDoesNotExist
    ensures r.Ok? ==> r.value in t && r.value.discordId == discordId
  {
    match FetchByDiscordId(t, discordId)
    case None => Err(PlayerDoesNotExist)
    case Some(row) => Ok(row)
  }

  /** `is_striked`: the player's Discord account has an active strike. */
  predicate IsStriked(p: PlayerRow, strikes: StrikesTable.Table) {
    |StrikesTable.GetActiveStrikes(strikes, p.discordId)| > 0
  }

  lemma IsStrikedMeansActiveStrike(p: PlayerRow, strikes: StrikesTable.Table)
    ensures IsStriked(p, strikes) <==>
      exists s :: s in strikes.rows && s.userId == p.discordId && s.isActive
  {
    var active := StrikesTable.GetActiveStrikes(strikes, p.discordId);
    if IsStriked(p, strikes) {
      assert active[0] in active;
    }
  }

  // ---------------------------------------------------------------------
  // The registry invariant under the identity-changing operations

  /** Registering through the player object keeps both identity columns unique. */
  lemma AddPlayerKeepsUnique(t: Table, minecraftId: MinecraftId, discordId: DiscordId, priority: int, elo: int,
                             usernameOf: MinecraftId -> Option<string>)
    requires Unique(t)
    requires AddPlayer(t, minecraftId, discordId, priority, elo, usernameOf).Ok?
    ensures Unique(AddPlayer(t, minecraftId, discordId, priority, elo, usernameOf).value.1)
  {
    PlayersTable.AddPlayerKeepsUnique(t, minecraftId, discordId, usernameOf(minecraftId).value, priority, elo);
  }

  /** A Discord id change that succeeds keeps both identity columns unique. */
  lemma ChangeDiscordIdKeepsUnique(p: PlayerRow, t: Table, discordId: DiscordId)
    requires Unique(t)
    requires ChangeDiscordId(p, t, discordId).Ok?
    ensures Unique(ChangeDiscordId(p, t, discordId).value.table)
  {
    var t' := ChangeDiscordId(p, t, discordId).value.table;
    forall i, j | 0 <= i < j < |t'|
      ensures t'[i].minecraftId != t'[j].minecraftId && t'[i].discordId != t'[j].discordId
    {
      assert forall k :: 0 <= k < |t| ==> t[k].discordId != discordId;
      if t[i].minecraftId == p.minecraftId {
        assert t'[j] == t[j];
      } else if t[j].minecraftId == p.minecraftId {
        assert t'[i] == t[i];
      }
    }
  }

  /** A username change that succeeds keeps both identity columns unique. */
  lemma ChangeMinecraftUsernameKeepsUnique(p: PlayerRow, t: Table, username: string,
                                           uuidOf: string -> Option<MinecraftId>)
    requires Unique(t)
    requires ChangeMinecraftUsername(p, t, username, uuidOf).Ok?
    ensures Unique(ChangeMinecraftUsername(p, t, username, uuidOf).value.table)
  {
    var id := uuidOf(username).value;
    var t' := ChangeMinecraftUsername(p, t, username, uuidOf).value.table;
    forall i, j | 0 <= i < j < |t'|
      ensures t'[i].minecraftId != t'[j].minecraftId && t'[i].discordId != t'[j].discordId
    {
      assert forall k :: 0 <= k < |t| ==> t[k].minecraftId != id;
      if t[i].minecraftId == p.minecraftId {
        assert t'[j] == t[j];
      } else if t[j].minecraftId == p.minecraftId {
        assert t'[i] == t[i];
      }
    }
  }
}

=== FILE: players_table.dfy ===
/** The `players` and `register_requests` tables of database/database.py.
    A table is its rows in insertion order; `fetchone` returns the first
    matching row, and UPDATE/DELETE act on every matching row. */
module PlayersTable {
  import opened Wrappers

  type MinecraftId = string
  type DiscordId = int

  datatype PlayerRow = PlayerRow(
    minecraftId: MinecraftId,
    discordId: DiscordId,
    username: Option<string>,   // NULL once a refresh found no name for the account
    priority: int,
    elo: int)

  type Table = seq<PlayerRow>

  /** Default priority and ELO of a freshly inserted player. */
  const DefaultPriority := 0
  const DefaultElo := 1000

  /** The registry invariant: no two rows share a Minecraft id or a Discord id. */
  ghost predicate Unique(t: Table) {
    forall i, j :: 0 <= i < j < |t| ==> t[i].minecraftId != t[j].minecraftId && t[i].discordId != t[j].discordId
  }

  /** `check_players_minecraft_id`. */
  predicate HasMinecraftId(t: Table, id: MinecraftId) {
    exists i :: 0 <= i < |t| && t[i].minecraftId == id
  }

  /** `check_players_discord_id`. */
  predicate HasDiscordId(t: Table, id: DiscordId) {
    exists i :: 0 <= i < |t| && t[i].discordId == id
  }

  /** `fetch_players_minecraft_id`: the first row with that Minecraft id. */
  function FetchByMinecraftId(t: Table, id: MinecraftId): (r: Option<PlayerRow>)
    ensures r.None? <==> !HasMinecraftId(t, id)
    ensures r.Some? ==>
              exists i :: 0 <= i < |t| && t[i] == r.value && r.value.minecraftId == id
                          && forall j :: 0 <= j < i ==> t[j].minecraftId != id
  {
    if |t| == 0 then None
    else if t[0].minecraftId == id then
      assert 0 <= 0 < |t| && t[0].minecraftId == id;
      Some(t[0])
    else
      var r := FetchByMinecraftId(t[1..], id);
      assert HasMinecraftId(t, id) ==> HasMinecraftId(t[1..], id) by {
        if HasMinecraftId(t, id) {
          var i :| 0 <= i < |t| && t[i].minecraftId == id;
          assert t[1..][i - 1].minecraftId == id;
        }
      }
      if r.Some? then
        var i :| 0 <= i < |t[1..]| && t[1..][i] == r.value
          && r.value.minecraftId == id && forall j :: 0 <= j < i ==> t[1..][j].minecraftId != id;
        assert t[i + 1] == r.value && forall j :: 0 <= j < i + 1 ==> t[j].minecraftId != id by {
          forall j | 0 <= j < i + 1 ensures t[j].minecraftId != id {
            if j > 0 { assert t[j] == t[1..][j - 1]; }
          }
        }
        r
      else
        r
  }

  /** `fetch_players_discord_id`: the first row with that Discord id. */
  function FetchByDiscordId(t: Table, id: DiscordId): (r: Option<PlayerRow>)
    ensures r.None? <==> !HasDiscordId(t, id)
    ensures r.Some? ==> r.value in t && r.value.discordId == id
    ensures r.Some? ==>
              exists i :: 0 <= i < |t| && t[i] == r.value && forall j :: 0 <= j < i ==> t[j].discordId != id
  {
    if |t| == 0 then None
    else if t[0].discordId == id then
      assert 0 <= 0 < |t| && t[0] == t[0];
      Some(t[0])
    else
      var r := FetchByDiscordId(t[1..], id);
      assert HasDiscordId(t, id) ==> HasDiscordId(t[1..], id) by {
        if HasDiscordId(t, id) {
          var i :| 0 <= i < |t| && t[i].discordId == id;
          assert t[1..][i - 1].discordId == id;
        }
      }
      if r.Some? then
        var i :| 0 <= i < |t[1..]| && t[1..][i] == r.value && forall j :: 0 <= j < i ==> t[1..][j].discordId != id;
        assert t[i + 1] == r.value && forall j :: 0 <= j < i + 1 ==> t[j].discordId != id by {
          forall j | 0 <= j < i + 1 ensures t[j].discordId != id {
            if j > 0 { assert t[j] == t[1..][j - 1]; }
          }
        }
        r
      else
        r
  }

  /** `add_player`: inserts only when neither id is registered. */
  function AddPlayer(t: Table, minecraftId: MinecraftId, discordId: DiscordId, username: string,
                     priority: int, elo: int): (r: (bool, Table))
    ensures r.0 <==> !HasMinecraftId(t, minecraftId) && !HasDiscordId(t, discordId)
    ensures r.0 ==> r.1 == t + [PlayerRow(minecraftId, discordId, Some(username), priority, elo)]
    ensures !r.0 ==> r.1 == t
  {
    if HasMinecraftId(t, minecraftId) then (false, t)
    else if HasDiscordId(t, discordId) then (false, t)
    else (true, t + [PlayerRow(minecraftId, discordId, Some(username), priority, elo)])
  }

  /** `add_player` keeps both identity columns unique. */
  lemma AddPlayerKeepsUnique(t: Table, minecraftId: MinecraftId, discordId: DiscordId, username: string,
                             priority: int, elo: int)
    requires Unique(t)
    ensures Unique(AddPlayer(t, minecraftId, discordId, username, priority, elo).1)
  {
    var r := AddPlayer(t, minecraftId, discordId, username, priority, elo);
    if r.0 {
      var t' := r.1;
      forall i, j | 0 <= i < j < |t'|
        ensures t'[i].minecraftId != t'[j].minecraftId && t'[i].discordId != t'[j].discordId
      {
        if j == |t| {
          assert t'[i] == t[i];
        }
      }
    }
  }

  /** Every row except those whose Minecraft id is `id`. */
  function Without(t: Table, id: MinecraftId): (r: Table)
    ensures |r| <= |t|
    ensures !HasMinecraftId(r, id)
    ensures forall row :: row in r <==> row in t && row.minecraftId != id
  {
    if |t| == 0 then []
    else if t[0].minecraftId == id then Without(t[1..], id)
    else [t[0]] + Without(t[1..], id)
  }

  /** `delete_player`: true and the row gone exactly when the id was registered. */
  function DeletePlayer(t: Table, minecraftId: MinecraftId): (r: (bool, Table))
    ensures r.0 <==> HasMinecraftId(t, minecraftId)
    ensures !HasMinecraftId(r.1, minecraftId)
    ensures forall row :: row in r.1 <==> row in t && row.minecraftId != minecraftId
    ensures !r.0 ==> r.1 == t
  {
    if HasMinecraftId(t, minecraftId) then (true, Without(t, minecraftId)) else (false, t)
  }

  /** After `delete_player` the id is no longer found, and every other id is found
      as before. */
  lemma {:induction false} DeleteThenFetch(t: Table, minecraftId: MinecraftId, other: MinecraftId)
    ensures FetchByMinecraftId(DeletePlayer(t, minecraftId).1, minecraftId).None?
    ensures other != minecraftId ==>
      FetchByMinecraftId(DeletePlayer(t, minecraftId).1, other) == FetchByMinecraftId(t, other)
  {
    if other != minecraftId {
      WithoutKeepsFetch(t, minecraftId, other);
    }
  }

  lemma {:induction false} WithoutKeepsFetch(t: Table, id: MinecraftId, other: MinecraftId)
    requires other != id
    ensures FetchByMinecraftId(Without(t, id), other) == FetchByMinecraftId(t, other)
    decreases |t|
  {
    if |t| > 0 {
      WithoutKeepsFetch(t[1..], id, other);
    }
  }

  /** Applies `f` to every row keyed by `minecraftId` (an SQL UPDATE ... WHERE minecraft_id = ?). */
  function UpdateWhere(t: Table, minecraftId: MinecraftId, f: PlayerRow -> PlayerRow): (r: Table)
    ensures |r| == |t|
    ensures forall i :: 0 <= i < |t| ==> r[i] == (if t[i].minecraftId == minecraftId then f(t[i]) else t[i])
  {
    if |t| == 0 then []
    else [if t[0].minecraftId == minecraftId then f(t[0]) else t[0]] + UpdateWhere(t[1..], minecraftId, f)
  }

  /** `update_players_minecraft_id`: rewrites id and username of the row keyed by the old id. */
  function UpdateMinecraftId(t: Table, newId: MinecraftId, username: string, oldId: MinecraftId): (r: Table)
    ensures |r| == |t|
    ensures forall i :: 0 <= i < |t| && t[i].minecraftId == oldId ==>
      r[i] == PlayerRow(newId, t[i].discordId, Some(username), t[i].priority, t[i].elo)
    ensures forall i :: 0 <= i < |t| && t[i].minecraftId != oldId ==> r[i] == t[i]
  {
    UpdateWhere(t, oldId, (row: PlayerRow) => row.(minecraftId := newId, username := Some(username)))
  }

  /** `update_players_discord_id`: only the Discord id of the keyed row changes. */
  function UpdateDiscordId(t: Table, discordId: DiscordId, minecraftId: MinecraftId): (r: Table)
    ensures |r| == |t|
    ensures forall i :: 0 <= i < |t| && t[i].minecraftId == minecraftId ==>
      r[i] == PlayerRow(t[i].minecraftId, discordId, t[i].username, t[i].priority, t[i].elo)
    ensures forall i :: 0 <= i < |t| && t[i].minecraftId != minecraftId ==> r[i] == t[i]
  {
    UpdateWhere(t, minecraftId, (row: PlayerRow) => row.(discordId := discordId))
  }

  /** `update_players_minecraft_username`: only the username of the keyed row changes;
      `None` stores NULL. */
  function UpdateUsername(t: Table, username: Option<string>, minecraftId: MinecraftId): (r: Table)
    ensures |r| == |t|
    ensures forall i :: 0 <= i < |t| && t[i].minecraftId == minecraftId ==>
      r[i] == PlayerRow(t[i].minecraftId, t[i].discordId, username, t[i].priority, t[i].elo)
    ensures forall i :: 0 <= i < |t| && t[i].minecraftId != minecraftId ==> r[i] == t[i]
  {
    UpdateWhere(t, minecraftId, (row: PlayerRow) => row.(username := username))
  }

  /** `update_players_elo`: only the ELO of the keyed row changes. */
  function UpdateElo(t: Table, elo: int, minecraftId: MinecraftId): (r: Table)
    ensures |r| == |t|
    ensures forall i :: 0 <= i < |t| && t[i].minecraftId == minecraftId ==>
      r[i] == PlayerRow(t[i].minecraftId, t[i].discordId, t[i].username, t[i].priority, elo)
    ensures forall i :: 0 <= i < |t| && t[i].minecraftId != minecraftId ==> r[i] == t[i]
  {
    UpdateWhere(t, minecraftId, (row: PlayerRow) => row.(elo := elo))
  }

  /** `update_players_priority`: only the priority of the keyed row changes. */
  function UpdatePriority(t: Table, priority: int, minecraftId: MinecraftId): (r: Table)
    ensures |r| == |t|
    ensures forall i :: 0 <= i < |t| && t[i].minecraftId == minecraftId ==>
      r[i] == PlayerRow(t[i].minecraftId, t[i].discordId, t[i].username, priority, t[i].elo)
    ensures forall i :: 0 <= i < |t| && t[i].minecraftId != minecraftId ==> r[i] == t[i]
  {
    UpdateWhere(t, minecraftId, (row: PlayerRow) => row.(priority := priority))
  }

  /** Column updates leave the Minecraft ids in place, so membership checks are unaffected. */
  lemma UpdateKeepsMinecraftIds(t: Table, r: Table, minecraftId: MinecraftId)
    requires |r| == |t|
    requires forall i :: 0 <= i < |t| ==> r[i].minecraftId == t[i].minecraftId
    ensures HasMinecraftId(r, minecraftId) <==> HasMinecraftId(t, minecraftId)
  {
    if HasMinecraftId(t, minecraftId) {
      var i :| 0 <= i < |t| && t[i].minecraftId == minecraftId;
      assert r[i].minecraftId == minecraftId;
    }
    if HasMinecraftId(r, minecraftId) {
      var i :| 0 <= i < |r| && r[i].minecraftId == minecraftId;
      assert t[i].minecraftId == minecraftId;
    }
  }

  /** `player_check`: 1 for a known Minecraft id (checked first), 2 for a known Discord id, else 0. */
  function PlayerCheck(t: Table, minecraftId: MinecraftId, discordId: DiscordId): (code: nat)
    ensures code == 1 <==> HasMinecraftId(t, minecraftId)
    ensures code == 2 <==> !HasMinecraftId(t, minecraftId) && HasDiscordId(t, discordId)
    ensures code == 0 <==> AddPlayer(t, minecraftId, discordId, "", DefaultPriority, DefaultElo).0
  {
    if HasMinecraftId(t, minecraftId) then 1
    else if HasDiscordId(t, discordId) then 2
    else 0
  }

  // ---------------------------------------------------------------------
  // Register requests

  datatype RegisterRequest = RegisterRequest(
    minecraftId: MinecraftId,
    discordId: DiscordId,
    username: string,
    approvalEmbedId: int)

  type Requests = seq<RegisterRequest>

  /** `add_register_request`: always appends and reports success. */
  function AddRegisterRequest(rs: Requests, req: RegisterRequest): (r: (bool, Requests))
    ensures r.0
    ensures |r.1| == |rs| + 1 && r.1[..|rs|] == rs && r.1[|rs|] == req
  {
    (true, rs + [req])
  }

  /** `remove_register_request`: drops every request with that approval message. */
  function RemoveRegisterRequest(rs: Requests, embedId: int): (r: (bool, Requests))
    ensures r.0
    ensures forall q :: q in r.1 <==> q in rs && q.approvalEmbedId != embedId
    ensures GetRegisterRequest(r.1, embedId).None?
  {
    (true, RemoveRequests(rs, embedId))
  }

  function RemoveRequests(rs: Requests, embedId: int): (r: Requests)
    ensures forall q :: q in r <==> q in rs && q.approvalEmbedId != embedId
  {
    if |rs| == 0 then []
    else if rs[0].approvalEmbedId == embedId then RemoveRequests(rs[1..], embedId)
    else [rs[0]] + RemoveRequests(rs[1..], embedId)
  }

  /** `check_user_requests`: some pending request comes from that Discord user. */
  predicate CheckUserRequests(rs: Requests, discordId: DiscordId) {
    exists q :: q in rs && q.discordId == discordId
  }

  /** `get_register_request`: the first request with that approval message. */
  function GetRegisterRequest(rs: Requests, embedId: int): (r: Option<RegisterRequest>)
    ensures r.None? <==> forall q :: q in rs ==> q.approvalEmbedId != embedId
    ensures r.Some? ==> r.value in rs && r.value.approvalEmbedId == embedId
    ensures r.Some? ==>
              exists i :: 0 <= i < |rs| && rs[i] == r.value && forall j :: 0 <= j < i ==> rs[j].approvalEmbedId != embedId
  {
    if |rs| == 0 then None
    else if rs[0].approvalEmbedId == embedId then
      assert 0 <= 0 < |rs| && rs[0] == rs[0];
      Some(rs[0])
    else
      var r := GetRegisterRequest(rs[1..], embedId);
      if r.Some? then
        var i :| 0 <= i < |rs[1..]| && rs[1..][i] == r.value
          && forall j :: 0 <= j < i ==> rs[1..][j].approvalEmbedId != embedId;
        assert rs[i + 1] == r.value && forall j :: 0 <= j < i + 1 ==> rs[j].approvalEmbedId != embedId by {
          forall j | 0 <= j < i + 1 ensures rs[j].approvalEmbedId != embedId {
            if j > 0 { assert rs[j] == rs[1..][j - 1]; }
          }
        }
        r
      else
        r
  }

  /** After adding a request for a fresh approval message, it can be fetched and its user has a pending request. */
  lemma {:induction false} AddThenGetRegisterRequest(rs: Requests, req: RegisterRequest)
    requires GetRegisterRequest(rs, req.approvalEmbedId).None?
    ensures GetRegisterRequest(AddRegisterRequest(rs, req).1, req.approvalEmbedId) == Some(req)
    ensures CheckUserRequests(AddRegisterRequest(rs, req).1, req.discordId)
    decreases |rs|
  {
    var rs' := AddRegisterRequest(rs, req).1;
    assert req in rs';
    if |rs| > 0 {
      assert rs'[1..] == AddRegisterRequest(rs[1..], req).1;
      AddThenGetRegisterRequest(rs[1..], req);
    }
  }
}

=== FILE: referrals.dfy ===
/** Invite tracking of commands/ReferralCommands.py: the bot caches each guild's
    invite list, and when a member joins it compares the cached uses with the
    fresh list to find the invite that was used. The fresh invite lists are
    parameters. */
module Referrals {
  import opened Wrappers
  import opened Collections

  type GuildId = int

  datatype Invite = Invite(code: string, uses: int, inviter: int)

  type Cache = map<GuildId, seq<Invite>>

  /** `invites[k]` is the first invite with that code. */
  predicate FirstWithCode(invites: seq<Invite>, k: int, code: string) {
    0 <= k < |invites| && invites[k].code == code && forall j :: 0 <= j < k ==> invites[j].code != code
  }

  /** `find_invite_by_code`: the first invite with that code, or `None`. */
  function FindInviteByCode(invites: seq<Invite>, code: string): (r: Option<Invite>)
    ensures r.None? <==> forall i :: 0 <= i < |invites| ==> invites[i].code != code
    ensures r.Some? ==> exists k :: FirstWithCode(invites, k, code) && invites[k] == r.value
  {
    if |invites| == 0 then None
    else if invites[0].code == code then Some(invites[0])
    else
      assert forall i :: 1 <= i < |invites| ==> invites[i] == invites[1..][i - 1];
      FindInviteByCode(invites[1..], code)
  }

  /** The invite's code is in the fresh list and its uses went up there. */
  predicate Used(invite: Invite, after: seq<Invite>) {
    var now := FindInviteByCode(after, invite.code);
    now.Some? && invite.uses < now.value.uses
  }

  predicate Missing(invite: Invite, after: seq<Invite>) {
    FindInviteByCode(after, invite.code).None?
  }

  datatype JoinError = KeyError | AttributeError

  /** Position `k` holds the first cached invite whose code is missing afterwards. */
  predicate FirstMissing(before: seq<Invite>, after: seq<Invite>, k: int) {
    && 0 <= k < |before|
    && Missing(before[k], after)
    && forall j :: 0 <= j < k ==> !Missing(before[j], after)
  }

  /** The walk over the cached invites: each one whose uses went up is announced;
      a cached code missing from the fresh list stops the walk with
      `AttributeError` (reading `.uses` of `None`). */
  function Announce(before: seq<Invite>, after: seq<Invite>): (r: (seq<Invite>, Option<JoinError>))
    ensures r.1.Some? <==> exists i :: 0 <= i < |before| && Missing(before[i], after)
    ensures r.1.Some? ==> r.1.value == AttributeError
    ensures forall x :: x in r.0 ==> x in before && Used(x, after)
    ensures r.1.None? ==> r.0 == Where(before, (x: Invite) => Used(x, after))
    ensures r.1.Some? ==>
      exists k :: FirstMissing(before, after, k) && r.0 == Where(before[..k], (x: Invite) => Used(x, after))
  {
    if |before| == 0 then ([], None)
    else
      var head := before[0];
      assert head in before;
      assert forall i :: 1 <= i < |before| ==> before[i] == before[1..][i - 1];
      if Missing(head, after) then
        assert FirstMissing(before, after, 0);
        ([], Some(AttributeError))
      else
        var (rest, err) := Announce(before[1..], after);
        if err.Some? then
          var k :| FirstMissing(before[1..], after, k)
                   && rest == Where(before[1..][..k], (x: Invite) => Used(x, after));
          assert before[..k + 1][1..] == before[1..][..k];
          assert FirstMissing(before, after, k + 1);
          if Used(head, after) then ([head] + rest, err) else (rest, err)
        else
          if Used(head, after) then ([head] + rest, err) else (rest, err)
  }

  /** The effect of one member joining: the invites announced, the new cache, and the
      error that cut the handler short, if any. The cache is replaced as soon as one
      announced invite is found, so it stays replaced when an error follows. */
  datatype Joined = Joined(announced: seq<Invite>, cache: Cache, error: Option<JoinError>)

  /** `on_member_join` for guild `guild` whose invite list is now `after`. */
  function OnMemberJoin(cache: Cache, guild: GuildId, after: seq<Invite>): (r: Joined)
    ensures guild !in cache <==> r.error == Some(KeyError)
    ensures guild !in cache ==> r.announced == [] && r.cache == cache
    ensures guild in cache ==>
      (r.error.Some? <==> exists i :: 0 <= i < |cache[guild]| && Missing(cache[guild][i], after))
    ensures guild in cache && r.error.None? ==>
      r.announced == Where(cache[guild], (x: Invite) => Used(x, after))
    ensures guild in cache && r.error.Some? ==>
      exists k :: FirstMissing(cache[guild], after, k)
        && r.announced == Where(cache[guild][..k], (x: Invite) => Used(x, after))
    ensures r.cache == (if |r.announced| > 0 then cache[guild := after] else cache)
  {
    if guild !in cache then Joined([], cache, Some(KeyError))
    else
      var (announced, err) := Announce(cache[guild], after);
      Joined(announced, if |announced| > 0 then cache[guild := after] else cache, err)
  }

  /** `on_member_remove`: the guild's cache becomes its current invite list. */
  function OnMemberRemove(cache: Cache, guild: GuildId, current: seq<Invite>): (r: Cache)
    ensures guild in r && r[guild] == current
    ensures forall g :: g in cache && g != guild ==> g in r && r[g] == cache[g]
    ensures r.Keys == cache.Keys + {guild}
  {
    cache[guild := current]
  }

  /** No two invites of a list share a code. */
  predicate UniqueCodes(invites: seq<Invite>) {
    forall i, j :: 0 <= i < j < |invites| ==> invites[i].code != invites[j].code
  }

  /** With codes unique, each invite is the one `find_invite_by_code` returns. */
  lemma FindOwnCode(invites: seq<Invite>, k: int)
    requires UniqueCodes(invites) && 0 <= k < |invites|
    ensures FindInviteByCode(invites, invites[k].code) == Some(invites[k])
  {
    var r := FindInviteByCode(invites, invites[k].code);
    var m :| FirstWithCode(invites, m, invites[k].code) && invites[m] == r.value;
    assert m == k;
  }

  /** A join that used no invite announces nothing and keeps the cache. */
  lemma JoinWithoutUse(cache: Cache, guild: GuildId)
    requires guild in cache && UniqueCodes(cache[guild])
    ensures OnMemberJoin(cache, guild, cache[guild]) == Joined([], cache, None)
  {
    var invites := cache[guild];
    forall i | 0 <= i < |invites| ensures !Missing(invites[i], invites) && !Used(invites[i], invites) {
      FindOwnCode(invites, i);
    }
    WhereNone(invites, (x: Invite) => Used(x, invites));
  }

  /** Once a departure has refreshed the cache, a join that used no invite finds
      nothing to announce and leaves the refreshed cache as it is. */
  lemma RemoveThenQuietJoin(cache: Cache, guild: GuildId, current: seq<Invite>)
    requires UniqueCodes(current)
    ensures var refreshed := OnMemberRemove(cache, guild, current);
      OnMemberJoin(refreshed, guild, current) == Joined([], refreshed, None)
  {
    JoinWithoutUse(OnMemberRemove(cache, guild, current), guild);
  }

  /** A join through the `k`-th cached invite, whose use count went up by one, is
      announced as exactly that invite, and the cache takes the fresh list. */
  lemma JoinThroughOneInvite(cache: Cache, guild: GuildId, k: int)
    requires guild in cache && UniqueCodes(cache[guild]) && 0 <= k < |cache[guild]|
    ensures var before := cache[guild];
      var after := Bump(before, k);
      OnMemberJoin(cache, guild, after) == Joined([before[k]], cache[guild := after], None)
  {
    var before := cache[guild];
    var after := Bump(before, k);
    BumpOnlyUsed(before, k);
    WhereOnly(before, k, (x: Invite) => Used(x, after));
  }

  /** The fresh list after one more use of the `k`-th invite. */
  function Bump(invites: seq<Invite>, k: int): (r: seq<Invite>)
    requires 0 <= k < |invites|
    ensures |r| == |invites| && r[k].uses == invites[k].uses + 1
    ensures forall i :: 0 <= i < |r| ==> r[i].code == invites[i].code
    ensures forall i :: 0 <= i < |r| && i != k ==> r[i] == invites[i]
  {
    invites[k := invites[k].(uses := invites[k].uses + 1)]
  }

  /** After one more use of the `k`-th invite, no cached code is missing and only
      that invite counts as used. */
  lemma BumpOnlyUsed(before: seq<Invite>, k: int)
    requires UniqueCodes(before) && 0 <= k < |before|
    ensures forall i :: 0 <= i < |before| ==> !Missing(before[i], Bump(before, k))
    ensures forall i :: 0 <= i < |before| ==> (Used(before[i], Bump(before, k)) <==> i == k)
  {
    var after := Bump(before, k);
    forall i | 0 <= i < |before| ensures !Missing(before[i], after) && (Used(before[i], after) <==> i == k) {
      FindOwnCode(after, i);
    }
  }

  /** Selecting from a list where only the `k`-th element passes. */
  lemma {:induction false} WhereOnly(xs: seq<Invite>, k: int, f: Invite -> bool)
    requires 0 <= k < |xs|
    requires forall i :: 0 <= i < |xs| ==> (f(xs[i]) <==> i == k)
    ensures Where(xs, f) == [xs[k]]
    decreases |xs|
  {
    if k == 0 {
      assert forall x :: x in xs[1..] ==> !f(x) by {
        forall x | x in xs[1..] ensures !f(x) {
          var i :| 0 <= i < |xs[1..]| && xs[1..][i] == x;
          assert xs[i + 1] == x;
        }
      }
      WhereNone(xs[1..], f);
    } else {
      assert forall i :: 0 <= i < |xs[1..]| ==> xs[1..][i] == xs[i + 1];
      WhereOnly(xs[1..], k - 1, f);
    }
  }
}

=== FILE: registration.dfy ===
/** The decisions of commands/RegistrationCommands.py: the `register` command,
    the approval reactions on register requests, `user set`, the leaderboard rank
    in `profile`, and the username-change record of `update_usernames`. The
    Mojang lookups and the Discord user lookup are parameters. */
module Registration {
  import opened Wrappers
  import opened Text
  import opened PlayersTable
  import PlayerRules

  /** The players table together with the pending register requests. */
  datatype Registry = Registry(players: Table, requests: Requests)

  /** A username resolves when the lookup gives a non-empty account id. */
  predicate Resolves(uuidOf: string -> Option<MinecraftId>, username: string) {
    PlayerRules.Found(uuidOf(username))
  }

  datatype RegisterOutcome =
    | MissingArgument
    | UnknownUsername
    | UsernameRegistered
    | UserRegistered
    | AlreadyRequested
    | Pending(requests: Requests)

  /** `register`: checks in order that a name was given, that it resolves, that its
      account is not registered, that the author is not registered, and that the
      author has no pending request; then a request keyed by the approval message
      `messageId` is stored. */
  function Register(t: Table, rs: Requests, author: DiscordId, username: string, messageId: int,
                    uuidOf: string -> Option<MinecraftId>): (r: RegisterOutcome)
    ensures r == MissingArgument <==> username == ""
    ensures r == UnknownUsername <==> username != "" && !Resolves(uuidOf, username)
    ensures r == UsernameRegistered <==>
      username != "" && Resolves(uuidOf, username) && HasMinecraftId(t, uuidOf(username).value)
    ensures r == UserRegistered <==>
      username != "" && Resolves(uuidOf, username) && !HasMinecraftId(t, uuidOf(username).value)
      && HasDiscordId(t, author)
    ensures r == AlreadyRequested <==>
      username != "" && Resolves(uuidOf, username)
      && PlayerCheck(t, uuidOf(username).value, author) == 0 && CheckUserRequests(rs, author)
    ensures r.Pending? ==> Resolves(uuidOf, username) && !HasDiscordId(t, author)
    ensures r.Pending? ==>
      r.requests == rs + [RegisterRequest(uuidOf(username).value, author, username, messageId)]
      && CheckUserRequests(r.requests, author)
  {
    if username == "" then MissingArgument
    else if !Resolves(uuidOf, username) then UnknownUsername
    else
      var uuid := uuidOf(username).value;
      var condition := PlayerCheck(t, uuid, author);
      if condition == 0 then
        if CheckUserRequests(rs, author) then AlreadyRequested
        else
          var req := RegisterRequest(uuid, author, username, messageId);
          var rs' := AddRegisterRequest(rs, req).1;
          assert req in rs';
          Pending(rs')
      else if condition == 1 then UsernameRegistered
      else UserRegistered
  }

  /** A user never has two requests pending: once `register` stored one, any
      further `register` by the same user, for any name, is turned away. */
  lemma RegisterOnce(t: Table, rs: Requests, author: DiscordId, username: string, messageId: int,
                     username2: string, messageId2: int, uuidOf: string -> Option<MinecraftId>)
    requires Register(t, rs, author, username, messageId, uuidOf).Pending?
    ensures !Register(t, Register(t, rs, author, username, messageId, uuidOf).requests,
                      author, username2, messageId2, uuidOf).Pending?
  {
  }

  const Accept := "✅"
  const Reject := "❌"

  /** `on_raw_reaction_add` for a reaction on message `messageId`: it acts only in the
      register-requests channel, on a stored request, for a reactor other than the
      bot whose top role is at least the moderator role. A check mark registers the
      requester with priority 0 and ELO 1000 and drops the request; a cross drops
      the request. A failed registration raises before the request is dropped. */
  function OnReaction(s: Registry, inRequestsChannel: bool, messageId: int, reactor: DiscordId,
                      bot: DiscordId, emoji: string, modRolePosition: int, topRolePosition: int,
                      usernameOf: MinecraftId -> Option<string>): (r: Result<Registry, PlayerRules.PlayerError>)
    ensures (!ModeratorActs(s, inRequestsChannel, messageId, reactor, bot, modRolePosition, topRolePosition)
             || (emoji != Accept && emoji != Reject)) ==> r == Ok(s)
    ensures (ModeratorActs(s, inRequestsChannel, messageId, reactor, bot, modRolePosition, topRolePosition)
             && emoji == Accept) ==>
      var req := GetRegisterRequest(s.requests, messageId).value;
      r == match PlayerRules.AddPlayer(s.players, req.minecraftId, req.discordId, DefaultPriority, DefaultElo, usernameOf)
           case Err(e) => Err(e)
           case Ok((_, players)) => Ok(Registry(players, RemoveRegisterRequest(s.requests, messageId).1))
    ensures (ModeratorActs(s, inRequestsChannel, messageId, reactor, bot, modRolePosition, topRolePosition)
             && emoji == Reject) ==>
      r == Ok(s.(requests := RemoveRegisterRequest(s.requests, messageId).1))
    ensures r.Ok? && r.value != s ==> GetRegisterRequest(r.value.requests, messageId).None?
    ensures r.Ok? && r.value.players != s.players ==>
      emoji == Accept && var req := GetRegisterRequest(s.requests, messageId).value;
      HasMinecraftId(r.value.players, req.minecraftId) && HasDiscordId(r.value.players, req.discordId)
    ensures r.Err? ==> emoji == Accept && GetRegisterRequest(s.requests, messageId).Some?
    ensures r.Err? ==> var req := GetRegisterRequest(s.requests, messageId).value;
      PlayerRules.AddPlayer(s.players, req.minecraftId, req.discordId, DefaultPriority, DefaultElo, usernameOf).Err?
    ensures emoji == Reject && r != Ok(s) ==> r.Ok? && r.value.players == s.players
  {
    var request := GetRegisterRequest(s.requests, messageId);
    if !(inRequestsChannel && request.Some? && reactor != bot) then Ok(s)
    else if emoji == Accept && modRolePosition <= topRolePosition then
      var req := request.value;
      match PlayerRules.AddPlayer(s.players, req.minecraftId, req.discordId, DefaultPriority, DefaultElo, usernameOf)
      case Err(e) => Err(e)
      case Ok((_, players)) =>
        var row := PlayerRow(req.minecraftId, req.discordId, usernameOf(req.minecraftId), DefaultPriority, DefaultElo);
        assert players[|players| - 1] == row;
        Ok(Registry(players, RemoveRegisterRequest(s.requests, messageId).1))
    else if emoji == Reject && modRolePosition <= topRolePosition then
      Ok(Registry(s.players, RemoveRegisterRequest(s.requests, messageId).1))
    else Ok(s)
  }

  /** The handler acts: the reaction is on a stored request in the requests channel,
      by someone other than the bot whose top role reaches the moderator role. */
  predicate ModeratorActs(s: Registry, inRequestsChannel: bool, messageId: int, reactor: DiscordId,
                          bot: DiscordId, modRolePosition: int, topRolePosition: int) {
    inRequestsChannel && GetRegisterRequest(s.requests, messageId).Some? && reactor != bot
    && modRolePosition <= topRolePosition
  }

  /** Approving keeps the registry invariant. */
  lemma OnReactionKeepsUnique(s: Registry, inRequestsChannel: bool, messageId: int, reactor: DiscordId,
                              bot: DiscordId, emoji: string, modRolePosition: int, topRolePosition: int,
                              usernameOf: MinecraftId -> Option<string>)
    requires Unique(s.players)
    ensures var r := OnReaction(s, inRequestsChannel, messageId, reactor, bot, emoji, modRolePosition,
                                topRolePosition, usernameOf);
      r.Ok? ==> Unique(r.value.players)
  {
    var request := GetRegisterRequest(s.requests, messageId);
    if inRequestsChannel && request.Some? && reactor != bot && emoji == Accept && modRolePosition <= topRolePosition {
      var req := request.value;
      if PlayerRules.AddPlayer(s.players, req.minecraftId, req.discordId, DefaultPriority, DefaultElo, usernameOf).Ok? {
        PlayerRules.AddPlayerKeepsUnique(s.players, req.minecraftId, req.discordId, DefaultPriority, DefaultElo, usernameOf);
      }
    }
  }

  /** Once a request is approved, its user cannot register again. */
  lemma ApprovedUserIsRegistered(s: Registry, messageId: int, reactor: DiscordId, bot: DiscordId,
                                 modRolePosition: int, topRolePosition: int,
                                 usernameOf: MinecraftId -> Option<string>,
                                 username: string, messageId2: int, uuidOf: string -> Option<MinecraftId>)
    requires OnReaction(s, true, messageId, reactor, bot, Accept, modRolePosition, topRolePosition, usernameOf).Ok?
    requires OnReaction(s, true, messageId, reactor, bot, Accept, modRolePosition, topRolePosition, usernameOf).value.players != s.players
    ensures var s' := OnReaction(s, true, messageId, reactor, bot, Accept, modRolePosition, topRolePosition, usernameOf).value;
      var author := GetRegisterRequest(s.requests, messageId).value.discordId;
      !Register(s'.players, s'.requests, author, username, messageId2, uuidOf).Pending?
  {
  }

  // ---------------------------------------------------------------------
  // `user set`

  datatype UserSetError =
    | NotPermitted
    | PlayerMissing
    | NoVariableName
    | NoValue
    | UsernameTaken
    | UsernameUnknown
    | NotAUser
    | DiscordTaken
    | NotAnInt
    | BelowEloFloor
    | NegativePriority

  /** Python's `s[3:-1]`: the text between the first three characters and the last. */
  function DropMentionMarks(s: string): (r: string)
    ensures |s| >= 4 ==> |r| == |s| - 4
    ensures |s| <= 4 ==> r == ""
  {
    if |s| <= 4 then "" else s[3..|s| - 1]
  }

  /** The Discord id the `discord` branch reads from a mention, as written: the
      digits left after dropping three leading characters and one trailing one. */
  function MentionIdAsWritten(s: string): (r: Option<int>)
    ensures r.Some? <==> IsDigitString(DropMentionMarks(s))
  {
    var v := DropMentionMarks(s);
    if IsDigitString(v) then Some(ParseDigits(v)) else None
  }

  /** As written, a mention of the plain form "<@id>" loses the first digit of the
      id: "<@123>" reads as 23. The form "<@!id>" reads correctly. */
  lemma MentionIdAsWrittenDropsDigit()
    ensures MentionIdAsWritten("<@123>") == Some(23)
    ensures MentionIdAsWritten("<@!123>") == Some(123)
  {
    assert DropMentionMarks("<@123>") == "23";
    assert DropMentionMarks("<@!123>") == "123";
    assert ParseDigits("23") == 10 * ParseDigits("2") + 3;
    assert ParseDigits("123") == 10 * ParseDigits("12") + 3;
    assert ParseDigits("12") == 10 * ParseDigits("1") + 2;
  }

  /** The intended reading: the "<@!id>" form as written, and the plain "<@id>" form
      with only its two leading characters dropped. */
  function MentionId(s: string): (r: Option<int>)
    ensures |s| >= 3 && s[..2] == "<@" && s[2] != '!' ==>
      (r.Some? <==> s[|s| - 1] == '>' && IsDigitString(s[2..|s| - 1]))
    ensures !(|s| >= 3 && s[..2] == "<@" && s[2] != '!') ==> r == MentionIdAsWritten(s)
  {
    if |s| >= 3 && s[..2] == "<@" && s[2] != '!' then
      if s[|s| - 1] == '>' && IsDigitString(s[2..|s| - 1]) then Some(ParseDigits(s[2..|s| - 1])) else None
    else MentionIdAsWritten(s)
  }

  /** Both mention forms of any id read back as that id. */
  lemma MentionIdRoundTrip(id: nat)
    ensures MentionId("<@" + NatToString(id) + ">") == Some(id)
    ensures MentionId("<@!" + NatToString(id) + ">") == Some(id)
  {
    ParseNatToString(id);
    var plain := "<@" + NatToString(id) + ">";
    assert plain[..2] == "<@" && plain[2] == NatToString(id)[0];
    assert plain[2..|plain| - 1] == NatToString(id);
    var bang := "<@!" + NatToString(id) + ">";
    assert bang[..2] == "<@" && bang[2] == '!';
    assert DropMentionMarks(bang) == NatToString(id);
  }

  /** What `user set` leaves behind: the error it reported, if any, and the table. */
  datatype UserSetOutcome = UserSetOutcome(error: Option<UserSetError>, table: Table)

  /** `user @target set <variable> <value>` for a moderator. A username change first
      refreshes the stored name from the account (`update_minecraft_username`, kept
      even when the change then fails) and goes through `change_minecraft_username`;
      "discord" reads a mention and needs a known Discord user; "elo" and every other
      name (the priority) need a digit string, and the setter's own check decides. */
  function UserSet(isMod: bool, t: Table, target: DiscordId, variable: string, value: string,
                   uuidOf: string -> Option<MinecraftId>, usernameOf: MinecraftId -> Option<string>,
                   knownUser: int -> bool): (r: UserSetOutcome)
    ensures !isMod ==> r == UserSetOutcome(Some(NotPermitted), t)
    ensures isMod && !HasDiscordId(t, target) ==> r == UserSetOutcome(Some(PlayerMissing), t)
    ensures r.error.None? ==> isMod && HasDiscordId(t, target) && variable != "" && value != ""
    ensures r.error != Some(NegativePriority)
    ensures r.error.Some? && variable != "username" ==> r.table == t
    ensures r.error.None? && variable == "elo" ==>
      IsDigitString(value) && ParseDigits(value) >= PlayerRules.EloFloor
      && var p := FetchByDiscordId(t, target).value; r.table == UpdateElo(t, ParseDigits(value), p.minecraftId)
    ensures isMod && HasDiscordId(t, target) && variable == "elo" && value != "" ==>
      (r.error.None? <==> IsDigitString(value) && ParseDigits(value) >= PlayerRules.EloFloor)
    ensures isMod && HasDiscordId(t, target) && variable !in {"", "username", "discord", "elo"} && value != "" ==>
      (r.error.None? <==> IsDigitString(value))
    ensures r.error.None? && variable !in {"username", "discord", "elo"} ==>
      var p := FetchByDiscordId(t, target).value; r.table == UpdatePriority(t, ParseDigits(value), p.minecraftId)
    ensures isMod && HasDiscordId(t, target) && variable == "discord" && value != "" ==>
      (r.error.None? <==> MentionId(value).Some? && knownUser(MentionId(value).value) && !HasDiscordId(t, MentionId(value).value))
    ensures r.error.None? && variable == "discord" ==>
      var p := FetchByDiscordId(t, target).value; r.table == UpdateDiscordId(t, MentionId(value).value, p.minecraftId)
    ensures isMod && HasDiscordId(t, target) && variable == "username" && value != "" ==>
      var p := FetchByDiscordId(t, target).value;
      && (r.error.None? <==> Resolves(uuidOf, value) && !HasMinecraftId(t, uuidOf(value).value))
      && (r.error.Some? ==> r.table == UpdateUsername(t, usernameOf(p.minecraftId), p.minecraftId))
      && (r.error.None? ==> r.table == UpdateMinecraftId(t, uuidOf(value).value, value, p.minecraftId))
    ensures isMod && HasDiscordId(t, target) && variable == "" ==> r.error == Some(NoVariableName)
    ensures isMod && HasDiscordId(t, target) && variable != "" && value == "" ==> r.error == Some(NoValue)
    ensures isMod && HasDiscordId(t, target) && variable == "username" && value != "" ==>
      && (r.error == Some(UsernameUnknown) <==> !Resolves(uuidOf, value))
      && (r.error == Some(UsernameTaken) <==> Resolves(uuidOf, value) && HasMinecraftId(t, uuidOf(value).value))
    ensures isMod && HasDiscordId(t, target) && variable == "discord" && value != "" ==>
      && (r.error == Some(NotAUser) <==> !(MentionId(value).Some? && knownUser(MentionId(value).value)))
      && (r.error == Some(DiscordTaken) <==>
            MentionId(value).Some? && knownUser(MentionId(value).value) && HasDiscordId(t, MentionId(value).value))
    ensures isMod && HasDiscordId(t, target) && variable == "elo" && value != "" ==>
      && (r.error == Some(NotAnInt) <==> !IsDigitString(value))
      && (r.error == Some(BelowEloFloor) <==> IsDigitString(value) && ParseDigits(value) < PlayerRules.EloFloor)
    ensures isMod && HasDiscordId(t, target) && variable !in {"", "username", "discord", "elo"} && value != "" ==>
      (r.error == Some(NotAnInt) <==> !IsDigitString(value))
  {
    if !isMod then UserSetOutcome(Some(NotPermitted), t)
    else
      match PlayerRules.FromDiscordId(t, target)
      case Err(_) => UserSetOutcome(Some(PlayerMissing), t)
      case Ok(p) =>
        if variable == "" then UserSetOutcome(Some(NoVariableName), t)
        else if value == "" then UserSetOutcome(Some(NoValue), t)
        else if variable == "username" then
          var (_, q, refreshed) := PlayerRules.RefreshUsername(p, t, usernameOf);
          RefreshThenRename(t, p.minecraftId, usernameOf(p.minecraftId), uuidOf(value), value);
          match PlayerRules.ChangeMinecraftUsername(q, refreshed, value, uuidOf)
          case Ok(c) => UserSetOutcome(None, c.table)
          case Err(e) =>
            UserSetOutcome(Some(if e == PlayerRules.UsernameAlreadyExists then UsernameTaken else UsernameUnknown), refreshed)
        else if variable == "discord" then
          match MentionId(value)
          case None => UserSetOutcome(Some(NotAUser), t)
          case Some(id) =>
            if !knownUser(id) then UserSetOutcome(Some(NotAUser), t)
            else
              match PlayerRules.ChangeDiscordId(p, t, id)
              case Ok(c) => UserSetOutcome(None, c.table)
              case Err(_) => UserSetOutcome(Some(DiscordTaken), t)
        else if variable == "elo" then
          if !IsDigitString(value) then UserSetOutcome(Some(NotAnInt), t)
          else
            var c := PlayerRules.SetElo(p, t, ParseDigits(value));
            if c.ok then UserSetOutcome(None, c.table) else UserSetOutcome(Some(BelowEloFloor), t)
        else
          if !IsDigitString(value) then UserSetOutcome(Some(NotAnInt), t)
          else
            var c := PlayerRules.SetPriority(p, t, ParseDigits(value));
            if c.ok then UserSetOutcome(None, c.table) else UserSetOutcome(Some(NegativePriority), t)
  }

  /** The refresh before a username change leaves the ids in place, and a rename that
      follows it overwrites the refreshed name: the refresh shows only when the rename
      fails. */
  lemma RefreshThenRename(t: Table, key: MinecraftId, refreshedName: Option<string>,
                          newId: Option<MinecraftId>, username: string)
    ensures forall id :: HasMinecraftId(UpdateUsername(t, refreshedName, key), id) <==> HasMinecraftId(t, id)
    ensures newId.Some? ==>
      UpdateMinecraftId(UpdateUsername(t, refreshedName, key), newId.value, username, key)
      == UpdateMinecraftId(t, newId.value, username, key)
  {
    var refreshed := UpdateUsername(t, refreshedName, key);
    forall id ensures HasMinecraftId(refreshed, id) <==> HasMinecraftId(t, id) {
      UpdateKeepsMinecraftIds(t, refreshed, id);
    }
    if newId.Some? {
      var a := UpdateMinecraftId(refreshed, newId.value, username, key);
      var b := UpdateMinecraftId(t, newId.value, username, key);
      assert |a| == |b|;
      forall i | 0 <= i < |a| ensures a[i] == b[i] {
        assert refreshed[i].minecraftId == t[i].minecraftId;
      }
    }
  }

  /** `user set` keeps the registry invariant. */
  lemma UserSetKeepsUnique(isMod: bool, t: Table, target: DiscordId, variable: string, value: string,
                           uuidOf: string -> Option<MinecraftId>, usernameOf: MinecraftId -> Option<string>,
                           knownUser: int -> bool)
    requires Unique(t)
    ensures Unique(UserSet(isMod, t, target, variable, value, uuidOf, usernameOf, knownUser).table)
  {
    var r := UserSet(isMod, t, target, variable, value, uuidOf, usernameOf, knownUser);
    if isMod && HasDiscordId(t, target) && variable != "" && value != "" {
      var p := PlayerRules.FromDiscordId(t, target).value;
      var t' := r.table;
      if variable == "username" {
        if r.error.None? {
          PlayerRules.ChangeMinecraftUsernameKeepsUnique(p, t, value, uuidOf);
        } else {
          assert forall i :: 0 <= i < |t| ==> t'[i].minecraftId == t[i].minecraftId && t'[i].discordId == t[i].discordId;
        }
      } else if r.error.Some? {
      } else if variable == "discord" {
        PlayerRules.ChangeDiscordIdKeepsUnique(p, t, MentionId(value).value);
      } else {
        assert forall i :: 0 <= i < |t| ==> t'[i].minecraftId == t[i].minecraftId && t'[i].discordId == t[i].discordId;
      }
    }
  }

  // ---------------------------------------------------------------------
  // `profile` and `update_usernames`

  /** The rank shown by `profile`: the 1-based position of the first leaderboard
      entry with the player's username. Either side may be a missing name, and two
      missing names compare equal, as `None == None` does. With no such entry
      `profile` reads `rank` before any assignment, an error here. */
  function RankOf(leaderboard: seq<Option<string>>, username: Option<string>): (r: Option<nat>)
    ensures r.None? <==> username !in leaderboard
    ensures r.Some? ==> 1 <= r.value <= |leaderboard| && leaderboard[r.value - 1] == username
    ensures r.Some? ==> username !in leaderboard[..r.value - 1]
  {
    if |leaderboard| == 0 then None
    else if leaderboard[0] == username then
      Some(1)
    else
      match RankOf(leaderboard[1..], username)
      case None => None
      case Some(k) =>
        assert leaderboard[..k] == [leaderboard[0]] + leaderboard[1..][..k - 1];
        Some(k + 1)
  }

  /** Players above the rank do not move it: the rank is decided by the first `k`
      entries alone. */
  lemma RankOfPrefix(leaderboard: seq<Option<string>>, username: Option<string>, n: nat)
    requires RankOf(leaderboard, username).Some?
    requires RankOf(leaderboard, username).value <= n <= |leaderboard|
    ensures RankOf(leaderboard[..n], username) == RankOf(leaderboard, username)
  {
    var k := RankOf(leaderboard, username).value;
    var front := leaderboard[..n];
    assert front[k - 1] == username;
    var j := RankOf(front, username).value;
    assert front[..k - 1] == leaderboard[..k - 1];
    FirstPositionUnique(front, username, j - 1, k - 1);
  }

  /** A name has one first position in a list. */
  lemma FirstPositionUnique(xs: seq<Option<string>>, x: Option<string>, a: nat, b: nat)
    requires a < |xs| && xs[a] == x && x !in xs[..a]
    requires b < |xs| && xs[b] == x && x !in xs[..b]
    ensures a == b
  {
  }

  /** One entry of the change list: the refreshed player and the name it had. */
  datatype UsernameChange = UsernameChange(player: PlayerRow, oldUsername: Option<string>)

  /** The lookup knows a name for `p` other than the stored one, and `c` records the change. */
  predicate Renamed(p: PlayerRow, usernameOf: MinecraftId -> Option<string>, c: UsernameChange) {
    usernameOf(p.minecraftId).Some? && usernameOf(p.minecraftId) != p.username
    && c == UsernameChange(p.(username := usernameOf(p.minecraftId)), p.username)
  }

  /** The change list of `update_usernames`: every player whose looked-up name is
      known and differs from the stored one, in player order. */
  function UsernameChanges(players: seq<PlayerRow>, usernameOf: MinecraftId -> Option<string>)
    : (r: seq<UsernameChange>)
    ensures |r| <= |players|
    ensures forall c :: c in r <==> exists p :: p in players && Renamed(p, usernameOf, c)
  {
    if |players| == 0 then []
    else
      var p := players[0];
      assert p in players;
      assert forall q :: q in players <==> q == p || q in players[1..];
      var latest := usernameOf(p.minecraftId);
      var rest := UsernameChanges(players[1..], usernameOf);
      if latest.Some? && latest != p.username then
        [UsernameChange(p.(username := latest), p.username)] + rest
      else rest
  }

  /** The change list keeps the order of the players: the list for two runs of players
      is the list for the first run followed by the list for the second. */
  lemma {:induction false} UsernameChangesAppend(a: seq<PlayerRow>, b: seq<PlayerRow>,
                                                 usernameOf: MinecraftId -> Option<string>)
    ensures UsernameChanges(a + b, usernameOf) == UsernameChanges(a, usernameOf) + UsernameChanges(b, usernameOf)
    decreases |a|
  {
    if |a| == 0 {
      assert a + b == b;
    } else {
      assert (a + b)[0] == a[0] && (a + b)[1..] == a[1..] + b;
      UsernameChangesAppend(a[1..], b, usernameOf);
    }
  }

  /** Some player in `players` has Minecraft id `id`. */
  predicate Listed(players: seq<PlayerRow>, id: MinecraftId) {
    exists j :: 0 <= j < |players| && players[j].minecraftId == id
  }

  /** The table writes of `update_usernames`: for each listed player in turn,
      `update_minecraft_username` stores the looked-up name, `None` included. Every row
      of a listed account ends up with that account's looked-up name. */
  function RefreshAll(t: Table, players: seq<PlayerRow>, usernameOf: MinecraftId -> Option<string>): (r: Table)
    ensures |r| == |t|
    ensures forall i :: 0 <= i < |t| ==>
      r[i] == (if Listed(players, t[i].minecraftId) then t[i].(username := usernameOf(t[i].minecraftId)) else t[i])
    decreases |players|
  {
    if |players| == 0 then t
    else
      var id := players[0].minecraftId;
      var t' := UpdateUsername(t, usernameOf(id), id);
      ListedCons(players);
      RefreshAll(t', players[1..], usernameOf)
  }

  lemma ListedCons(players: seq<PlayerRow>)
    requires |players| > 0
    ensures forall id :: Listed(players, id) <==> id == players[0].minecraftId || Listed(players[1..], id)
  {
    forall id | Listed(players[1..], id) ensures Listed(players, id) {
      var j :| 0 <= j < |players[1..]| && players[1..][j].minecraftId == id;
      assert players[j + 1].minecraftId == id;
    }
  }

  /** `update_usernames`: the change list in player order, and the table in which every
      player holds the name the lookup now gives, `None` included. */
  function UpdateUsernames(t: Table, usernameOf: MinecraftId -> Option<string>): (r: (seq<UsernameChange>, Table))
    ensures r.0 == UsernameChanges(t, usernameOf)
    ensures |r.1| == |t|
    ensures forall i :: 0 <= i < |t| ==> r.1[i] == t[i].(username := usernameOf(t[i].minecraftId))
  {
    var r := RefreshAll(t, t, usernameOf);
    assert forall i :: 0 <= i < |t| ==> Listed(t, t[i].minecraftId);
    (UsernameChanges(t, usernameOf), r)
  }
}

=== FILE: rosters.dfy ===
/** `rosters_comparison` of commands/CTFCommands.py: compare two readings of the
    team forum threads and describe the roster moves between them. A listing maps
    each team name to its thread's link and its members text ("5/10", or "NaN"
    when the thread gives no size); names are unique in a listing, as dictionary
    keys are. */
module Rosters {
  import opened Wrappers
  import opened Text
  import opened Collections

  datatype Thread = Thread(team: string, link: string, members: string)

  datatype RosterError = ValueError

  const Red := '\U{1F534}'
  const Green := '\U{1F7E2}'

  predicate UniqueTeams(ts: seq<Thread>) {
    forall i, j :: 0 <= i < j < |ts| ==> ts[i].team != ts[j].team
  }

  /** No later thread of the listing has the same link as `ts[i]`. */
  predicate LastWithLink(ts: seq<Thread>, i: int)
    requires 0 <= i < |ts|
  {
    forall j :: i < j < |ts| ==> ts[j].link != ts[i].link
  }

  /** The link-to-team map built from a listing in order: when two teams share a
      link, the later one is kept. */
  function Links(ts: seq<Thread>): map<string, string> {
    if |ts| == 0 then map[]
    else Links(ts[..|ts| - 1])[ts[|ts| - 1].link := ts[|ts| - 1].team]
  }

  /** The map has a key for every link of the listing and no other. */
  lemma {:induction false} LinksKeys(ts: seq<Thread>)
    ensures forall l :: l in Links(ts) <==> exists i :: 0 <= i < |ts| && ts[i].link == l
  {
    if |ts| > 0 {
      var init := ts[..|ts| - 1];
      LinksKeys(init);
      forall l ensures l in Links(ts) <==> exists i :: 0 <= i < |ts| && ts[i].link == l {
        if l in Links(init) {
          var i :| 0 <= i < |init| && init[i].link == l;
          assert ts[i] == init[i];
        }
        if exists i :: 0 <= i < |ts| && ts[i].link == l {
          var i :| 0 <= i < |ts| && ts[i].link == l;
          if i < |init| {
            assert init[i] == ts[i];
          }
        }
      }
    }
  }

  /** The team a link maps to is the last team listed with that link. */
  lemma {:induction false} LinksLast(ts: seq<Thread>, i: int)
    requires 0 <= i < |ts| && LastWithLink(ts, i)
    ensures ts[i].link in Links(ts) && Links(ts)[ts[i].link] == ts[i].team
  {
    if i < |ts| - 1 {
      var init := ts[..|ts| - 1];
      assert init[i] == ts[i];
      assert LastWithLink(init, i) by {
        forall j | i < j < |init| ensures init[j].link != init[i].link {
          assert init[j] == ts[j];
        }
      }
      LinksLast(init, i);
    }
  }

  /** The links that appear in exactly one of the two listings. */
  function ChangedLinks(before: seq<Thread>, after: seq<Thread>): set<string> {
    var a := Links(before).Keys;
    var b := Links(after).Keys;
    (a - b) + (b - a)
  }

  /** The teams whose link is gone, and the teams whose link is new. */
  function Disbanded(before: seq<Thread>, after: seq<Thread>): set<string> {
    var a := Links(before);
    var b := Links(after);
    set l | l in a && l !in b :: a[l]
  }

  function Official(before: seq<Thread>, after: seq<Thread>): set<string> {
    var a := Links(before);
    var b := Links(after);
    set l | l in b && l !in a :: b[l]
  }

  /** The line for a link in one listing only: red "has disbanded" for a link that
      is gone, green "is now official" for a new one. */
  function LinkLine(before: seq<Thread>, after: seq<Thread>, link: string): (r: string)
    requires link in ChangedLinks(before, after)
    ensures |r| > 0 && (r[0] == Red || r[0] == Green)
    ensures r[0] == Red <==> link in Links(before)
    ensures link in Links(before) ==> r == [Red] + " **" + Links(before)[link] + "** has disbanded.\n\n"
    ensures link !in Links(before) ==> r == [Green] + " **" + Links(after)[link] + "** is now official.\n\n"
    ensures r[0] == Red ==> Links(before)[link] in Disbanded(before, after)
    ensures r[0] == Green ==> Links(after)[link] in Official(before, after)
  {
    if link in Links(before) then "\U{1F534} **" + Links(before)[link] + "** has disbanded.\n\n"
    else "\U{1F7E2} **" + Links(after)[link] + "** is now official.\n\n"
  }

  /** Swapping the listings turns every disbanded team into an official one and
      back, under the same name. */
  lemma LinkLineSwap(before: seq<Thread>, after: seq<Thread>, link: string)
    requires link in ChangedLinks(before, after)
    ensures link in ChangedLinks(after, before)
    ensures LinkLine(before, after, link)[0] == Red <==> LinkLine(after, before, link)[0] == Green
    ensures Disbanded(before, after) == Official(after, before)
  {
  }

  /** The lines for the changed links, in the order the set of links is walked. */
  function LinkLines(before: seq<Thread>, after: seq<Thread>, order: seq<string>): (r: seq<string>)
    requires forall l :: l in order ==> l in ChangedLinks(before, after)
    ensures |r| == |order|
    ensures forall k :: 0 <= k < |r| ==> |r[k]| > 0
    ensures forall k :: 0 <= k < |r| ==> (r[k][0] == Red <==> order[k] in Links(before))
    ensures forall k :: 0 <= k < |r| ==> r[k] == LinkLine(before, after, order[k])
  {
    if |order| == 0 then []
    else
      var head := order[0];
      assert head in order;
      [LinkLine(before, after, head)] + LinkLines(before, after, order[1..])
  }

  /** The size a thread's members text announces: `int` of the text before the first "/". */
  function TeamSize(t: Thread): (r: Option<int>)
    ensures '/' !in t.members ==> r == ParseInt(t.members)
  {
    if '/' !in t.members then
      SplitWithout(t.members, '/');
      ParseInt(Split(t.members, '/')[0])
    else
      ParseInt(Split(t.members, '/')[0])
  }

  /** A members text "n/total" reads as a size of n, whatever the total. */
  lemma TeamSizeReads(team: string, link: string, n: int, total: string)
    ensures TeamSize(Thread(team, link, IntToString(n) + "/" + total)) == Some(n)
  {
    var digits := IntToString(n);
    assert '/' !in digits;
    SplitCons(digits, '/', total);
    ParseIntToString(n);
  }

  /** The same team in both listings with a different members text. */
  predicate Moved(o: Thread, n: Thread) {
    o.team == n.team && o.members != n.members
  }

  /** A move whose sizes `int` cannot read: the comparison raises `ValueError`. */
  predicate Unreadable(o: Thread, n: Thread) {
    Moved(o, n) && (TeamSize(o).None? || TeamSize(n).None?)
  }

  /** A team's old and new thread, with the sizes read from both. */
  datatype Move = Move(from: Thread, to: Thread, oldSize: int, newSize: int)

  /** `m` is the move of thread `o` to thread `n`, with both sizes read. */
  predicate MoveOf(m: Move, o: Thread, n: Thread) {
    m.from == o && m.to == n && Moved(o, n) && TeamSize(o) == Some(m.oldSize) && TeamSize(n) == Some(m.newSize)
  }

  /** The signed difference as the line shows it: a "+" before a growth, `str` of the
      difference otherwise. `int` reads it back as the difference. */
  function SignedDelta(d: int): (r: string)
    ensures |r| > 0 && (r[0] == '+' <==> d > 0)
    ensures ParseInt(r) == Some(d)
  {
    if d > 0 then
      ParseNatToString(d);
      ParseSigned('+', NatToString(d));
      "+" + IntToString(d)
    else
      ParseIntToString(d);
      IntToString(d)
  }

  /** The text of a size line in the given colour, naming the given team; the
      difference is written by `SignedDelta`, which is the "+" of the growth branch
      and the plain `str` of the other. */
  function SizeText(colour: char, team: string, m: Move): string {
    [colour] + " **" + team + ":** " + m.from.members + " -> " + m.to.members
      + " (**" + SignedDelta(m.newSize - m.oldSize) + "**)\n\n"
  }

  /** The line for a size change: green when the team grew, red otherwise (an equal
      size is red with a 0); then the team (the old name on a green line, the new
      name on a red one), both members texts, and the signed difference of the
      sizes. */
  function SizeLine(m: Move): (r: string)
    ensures |r| > 0 && (r[0] == Red || r[0] == Green)
    ensures r[0] == Green <==> m.newSize > m.oldSize
    ensures m.newSize > m.oldSize ==> r == SizeText(Green, m.from.team, m)
    ensures m.newSize <= m.oldSize ==> r == SizeText(Red, m.to.team, m)
  {
    if m.newSize - m.oldSize > 0 then SizeText(Green, m.from.team, m)
    else SizeText(Red, m.to.team, m)
  }

  /** A move read in the other direction changes colour, unless the size stayed. */
  lemma SizeLineSwap(m: Move)
    requires m.oldSize != m.newSize
    ensures SizeLine(m)[0] == Green <==> SizeLine(Move(m.to, m.from, m.newSize, m.oldSize))[0] == Red
  {
  }

  /** Some move of `o` into `after` cannot be read. */
  predicate Blocks(o: Thread, after: seq<Thread>) {
    exists n :: n in after && Unreadable(o, n)
  }

  predicate Stays(o: Thread, after: seq<Thread>) {
    forall n :: n in after ==> !Moved(o, n)
  }

  /** The inner loop: one old thread against every new thread, in order; the moves
      it finds, or `ValueError` at a size it cannot read. */
  function PairMoves(o: Thread, after: seq<Thread>): (r: Result<seq<Move>, RosterError>)
    ensures r.Err? <==> Blocks(o, after)
    ensures r.Ok? ==> forall m :: m in r.value ==> m.to in after && MoveOf(m, o, m.to)
    ensures r.Ok? ==> forall n :: n in after && Moved(o, n) ==> exists m :: m in r.value && m.to == n
    ensures r.Ok? ==> (r.value == [] <==> Stays(o, after))
  {
    if |after| == 0 then Ok([])
    else
      var n := after[0];
      assert n in after;
      assert forall m :: m in after <==> m == n || m in after[1..];
      var rest := PairMoves(o, after[1..]);
      if !Moved(o, n) then rest
      else
        match (TeamSize(o), TeamSize(n))
        case (Some(a), Some(b)) =>
          (match rest
           case Err(e) => Err(e)
           case Ok(moves) =>
             var m := Move(o, n, a, b);
             assert m in [m] + moves;
             Ok([m] + moves))
        case _ => Err(ValueError)
  }

  /** Some move between the listings cannot be read. */
  predicate Blocked(before: seq<Thread>, after: seq<Thread>) {
    exists o :: o in before && Blocks(o, after)
  }

  /** No team changed its members text. */
  predicate NoMoves(before: seq<Thread>, after: seq<Thread>) {
    forall o :: o in before ==> Stays(o, after)
  }

  /** The outer loop over the old threads: every move, in old order. */
  function SizeMoves(before: seq<Thread>, after: seq<Thread>): (r: Result<seq<Move>, RosterError>)
    ensures r.Err? <==> Blocked(before, after)
    ensures r.Ok? ==> forall m :: m in r.value ==> m.from in before && m.to in after && MoveOf(m, m.from, m.to)
    ensures r.Ok? ==> forall o, n :: o in before && n in after && Moved(o, n) ==>
      exists m :: m in r.value && m.from == o && m.to == n
    ensures r.Ok? ==> (r.value == [] <==> NoMoves(before, after))
  {
    if |before| == 0 then Ok([])
    else
      var o := before[0];
      assert o in before;
      assert forall m :: m in before <==> m == o || m in before[1..];
      match PairMoves(o, after)
      case Err(e) => Err(e)
      case Ok(first) =>
        match SizeMoves(before[1..], after)
        case Err(e) => Err(e)
        case Ok(rest) => Ok(first + rest)
  }

  /** The size-change lines of a run of moves. */
  function SizeLines(moves: seq<Move>): (r: seq<string>)
    ensures |r| == |moves|
    ensures forall k :: 0 <= k < |moves| ==> |r[k]| > 0
    ensures forall k :: 0 <= k < |moves| ==> (r[k][0] == Green <==> moves[k].newSize > moves[k].oldSize)
    ensures forall k :: 0 <= k < |moves| ==> r[k] == SizeLine(moves[k])
  {
    seq(|moves|, k requires 0 <= k < |moves| => SizeLine(moves[k]))
  }

  /** The lines joined into one message text. */
  function Concat(lines: seq<string>): (r: string)
    ensures r == "" <==> forall k :: 0 <= k < |lines| ==> lines[k] == ""
  {
    if |lines| == 0 then "" else lines[0] + Concat(lines[1..])
  }

  /** `rosters_comparison`: the lines for the changed links, walked in `order` (the
      iteration order of the set of changed links), then the size changes. A size
      that cannot be read raises `ValueError`; no change at all sends no message. */
  function RostersComparison(before: seq<Thread>, after: seq<Thread>, order: seq<string>)
    : (r: Result<Option<string>, RosterError>)
    requires Distinct(order) && forall l :: l in order <==> l in ChangedLinks(before, after)
    ensures r.Err? <==> Blocked(before, after)
    ensures r == Ok(None) <==> ChangedLinks(before, after) == {} && NoMoves(before, after)
    ensures r.Ok? && r.value.Some? ==> |r.value.value| > 0
  {
    match SizeMoves(before, after)
    case Err(e) => Err(e)
    case Ok(moves) =>
      var links := LinkLines(before, after, order);
      var lines := links + SizeLines(moves);
      if |lines| == 0 then
        assert moves == [] && order == [];
        assert forall l :: l !in ChangedLinks(before, after);
        Ok(None)
      else
        assert |order| > 0 ==> order[0] in ChangedLinks(before, after);
        assert |order| == 0 ==> moves != [] && !NoMoves(before, after);
        assert lines[0] == if |links| > 0 then links[0] else SizeLines(moves)[0];
        Ok(Some(Concat(lines)))
  }

  /** Comparing a listing with itself finds no roster move. */
  lemma RostersUnchanged(ts: seq<Thread>)
    requires UniqueTeams(ts)
    ensures ChangedLinks(ts, ts) == {}
    ensures RostersComparison(ts, ts, []) == Ok(None)
  {
    forall o, n | o in ts && n in ts ensures !Moved(o, n) {
      var i :| 0 <= i < |ts| && ts[i] == o;
      var j :| 0 <= j < |ts| && ts[j] == n;
      assert i == j || ts[i].team != ts[j].team;
    }
  }
}

=== FILE: schedule.dfy ===
/** The schedule helpers of commands/CTFCommands.py: the order `Match.__lt__` puts
    on matches, the stable sort `matches.sort()` performs with it, and the
    spreadsheet column names `excel_col_name` writes (bijective base 26: A..Z,
    AA..AZ, ...). */
module Schedule {
  import opened Collections
  import opened Calendar

  /** A scheduled match: its title, start and end. */
  datatype Match = Match(name: string, start: DateTime, end: DateTime)

  /** `Match.__lt__`: a match sorts before another when it starts earlier. */
  predicate Lt(a: Match, b: Match) {
    Before(a.start, b.start)
  }

  /** `Lt` is a strict weak order: irreflexive, transitive, and two matches are
      incomparable exactly when they start at the same instant. */
  lemma LtStrictWeakOrder(a: Match, b: Match, c: Match)
    ensures !Lt(a, a)
    ensures Lt(a, b) && Lt(b, c) ==> Lt(a, c)
    ensures !Lt(a, b) && !Lt(b, a) <==> a.start == b.start
  {
    BeforeTotal(a.start, b.start);
  }

  /** No match starts before one listed ahead of it. */
  predicate SortedByStart(ms: seq<Match>) {
    forall i, j :: 0 <= i < j < |ms| ==> !Lt(ms[j], ms[i])
  }

  /** Puts `m` after every match that does not start later, so that equal starts
      keep their order. */
  function Insert(m: Match, ms: seq<Match>): (r: seq<Match>)
    requires SortedByStart(ms)
    ensures SortedByStart(r)
    ensures multiset(r) == multiset(ms) + multiset{m}
    ensures |r| == |ms| + 1
  {
    if |ms| == 0 then [m]
    else if Lt(m, ms[0]) then
      LtStrictWeakOrder(m, ms[0], ms[0]);
      assert forall j :: 0 < j < |ms| ==> !Lt(ms[j], ms[0]);
      SortedCons(m, ms);
      [m] + ms
    else
      var rest := Insert(m, ms[1..]);
      InsertBehindHead(m, ms, rest);
      [ms[0]] + rest
  }

  /** The step of `Insert` that keeps the head: `rest` holds the tail and `m`, sorted. */
  lemma InsertBehindHead(m: Match, ms: seq<Match>, rest: seq<Match>)
    requires SortedByStart(ms) && |ms| > 0 && !Lt(m, ms[0])
    requires SortedByStart(rest) && multiset(rest) == multiset(ms[1..]) + multiset{m}
    ensures SortedByStart([ms[0]] + rest)
    ensures multiset([ms[0]] + rest) == multiset(ms) + multiset{m}
  {
    assert ms == [ms[0]] + ms[1..];
    assert forall x :: x in rest ==> x == m || x in ms[1..] by {
      forall x | x in rest ensures x == m || x in ms[1..] {
        assert x in multiset(rest);
      }
    }
    HeadFirst(ms[0], m, ms[1..], rest);
  }

  /** A match that starts before the first of a sorted run can lead it. */
  lemma SortedCons(m: Match, ms: seq<Match>)
    requires SortedByStart(ms) && |ms| > 0 && Lt(m, ms[0])
    ensures SortedByStart([m] + ms)
  {
    var r := [m] + ms;
    forall i, j | 0 <= i < j < |r| ensures !Lt(r[j], r[i]) {
      if i == 0 {
        LtStrictWeakOrder(r[j], m, ms[0]);
        if j > 1 {
          LtStrictWeakOrder(ms[0], r[j], m);
          BeforeTotal(ms[0].start, r[j].start);
        }
      } else {
        assert r[i] == ms[i - 1] && r[j] == ms[j - 1];
      }
    }
  }

  lemma HeadFirst(h: Match, m: Match, tail: seq<Match>, rest: seq<Match>)
    requires SortedByStart([h] + tail) && !Lt(m, h)
    requires SortedByStart(rest)
    requires forall x :: x in rest ==> x == m || x in tail
    ensures SortedByStart([h] + rest)
  {
    var r := [h] + rest;
    forall i, j | 0 <= i < j < |r| ensures !Lt(r[j], r[i]) {
      if i == 0 {
        var x := r[j];
        assert r[0] == h && ([h] + tail)[0] == h;
        assert x == rest[j - 1];
        assert x in rest;
        if x != m {
          assert x in tail;
          var k :| 0 <= k < |tail| && tail[k] == x;
          assert ([h] + tail)[k + 1] == x;
        }
      } else {
        assert r[i] == rest[i - 1] && r[j] == rest[j - 1];
      }
    }
  }

  /** `matches.sort()`: a stable sort by start. */
  function SortMatches(ms: seq<Match>): (r: seq<Match>)
    ensures SortedByStart(r)
    ensures multiset(r) == multiset(ms)
  {
    if |ms| == 0 then []
    else
      assert ms == ms[..|ms| - 1] + [ms[|ms| - 1]];
      Insert(ms[|ms| - 1], SortMatches(ms[..|ms| - 1]))
  }

  /** The matches of a run that start at `t`, in order. */
  function StartingAt(ms: seq<Match>, t: DateTime): seq<Match> {
    Where(ms, StartsAt(t))
  }

  /** The test "starts at `t`" as a value `Where` can take. */
  function StartsAt(t: DateTime): Match -> bool {
    (m: Match) => m.start == t
  }

  /** Inserting `m` adds it after every match with the same start. */
  lemma {:induction false} InsertStable(m: Match, ms: seq<Match>, t: DateTime)
    requires SortedByStart(ms)
    ensures StartingAt(Insert(m, ms), t) == StartingAt(ms, t) + (if m.start == t then [m] else [])
    decreases |ms|
  {
    var f := StartsAt(t);
    if |ms| == 0 {
    } else if Lt(m, ms[0]) {
      assert ([m] + ms)[1..] == ms;
      if m.start == t {
        forall x | x in ms ensures x.start != t {
          var k :| 0 <= k < |ms| && ms[k] == x;
          if k > 0 {
            assert !Lt(ms[k], ms[0]);
            BeforeTotal(ms[0].start, x.start);
          }
          BeforeTotal(m.start, x.start);
          LtStrictWeakOrder(m, ms[0], x);
        }
        WhereNone(ms, f);
      }
    } else {
      var rest := Insert(m, ms[1..]);
      InsertStable(m, ms[1..], t);
      assert ([ms[0]] + rest)[1..] == rest;
    }
  }

  /** `SortMatches` is stable: matches that start together keep their order. */
  lemma {:induction false} SortStable(ms: seq<Match>, t: DateTime)
    ensures StartingAt(SortMatches(ms), t) == StartingAt(ms, t)
    decreases |ms|
  {
    if |ms| > 0 {
      var init := ms[..|ms| - 1];
      var last := ms[|ms| - 1];
      var sorted := SortMatches(init);
      var tail := if last.start == t then [last] else [];
      assert ms == init + [last];
      assert SortMatches(ms) == Insert(last, sorted);
      calc {
        StartingAt(SortMatches(ms), t);
        StartingAt(Insert(last, sorted), t);
        { InsertStable(last, sorted, t); }
        StartingAt(sorted, t) + tail;
        { SortStable(init, t); }
        StartingAt(init, t) + tail;
        { WhereSnoc(init, last, StartsAt(t)); }
        StartingAt(ms, t);
      }
    }
  }

  /** `excel_col_name`: the spreadsheet name of column `n` (1 is A); nothing for
      `n <= 0`. */
  function ColumnName(n: int): (s: string)
    ensures s == "" <==> n <= 0
    ensures forall i :: 0 <= i < |s| ==> 'A' <= s[i] <= 'Z'
    decreases n
  {
    if n <= 0 then "" else ColumnName((n - 1) / 26) + [((n - 1) % 26 + 'A' as int) as char]
  }

  /** Reads a column name back as its number. */
  function ColumnIndex(s: string): int {
    if |s| == 0 then 0
    else ColumnIndex(s[..|s| - 1]) * 26 + (s[|s| - 1] as int - 'A' as int + 1)
  }

  /** Every positive column number has a name that reads back as that number. */
  lemma {:induction false} ColumnIndexOfName(n: int)
    requires n >= 0
    ensures ColumnIndex(ColumnName(n)) == n
    decreases n
  {
    if n > 0 {
      var s := ColumnName(n);
      ColumnIndexOfName((n - 1) / 26);
      assert s[..|s| - 1] == ColumnName((n - 1) / 26);
    }
  }

  /** Every name made of capital letters is the name of its number: together with
      `ColumnIndexOfName`, names and positive numbers are in one-to-one
      correspondence. */
  lemma {:induction false} ColumnNameOfIndex(s: string)
    requires forall i :: 0 <= i < |s| ==> 'A' <= s[i] <= 'Z'
    ensures ColumnIndex(s) >= 0
    ensures |s| > 0 ==> ColumnIndex(s) > 0
    ensures ColumnName(ColumnIndex(s)) == s
    decreases |s|
  {
    if |s| > 0 {
      var init := s[..|s| - 1];
      var d := s[|s| - 1] as int - 'A' as int;
      ColumnNameOfIndex(init);
      var q := ColumnIndex(init);
      var n := ColumnIndex(s);
      assert n - 1 == q * 26 + d;
      DivMod26(q, d);
      var last := ((n - 1) % 26 + 'A' as int) as char;
      assert last == s[|s| - 1];
      assert ColumnName(n) == ColumnName(q) + [last];
      assert s == init + [s[|s| - 1]];
    }
  }

  lemma DivMod26(q: int, d: int)
    requires q >= 0 && 0 <= d < 26
    ensures (q * 26 + d) / 26 == q && (q * 26 + d) % 26 == d
  {
  }

  /** The names the schedule sheet starts from. */
  lemma ColumnNameExamples()
    ensures ColumnName(1) == "A" && ColumnName(4) == "D"
    ensures ColumnName(26) == "Z" && ColumnName(27) == "AA"
  {
    assert ColumnName(0) == "";
    assert ColumnName(1) == "A";
  }

  /** The last column written for `days` new days: day columns start at D, so with
      no dated cell at all the range ends at C. */
  function LastDayColumn(days: int): (s: string)
    ensures days + 3 > 0 ==> ColumnIndex(s) == days + 3
    ensures days + 3 > 0 ==> |s| > 0
    ensures days == 0 ==> s == "C"
  {
    ColumnIndexOfName(if days + 3 > 0 then days + 3 else 0);
    ColumnName(days + 3)
  }
}

=== FILE: signup_record.dfy ===
/** The `Signup` object of database/Signup.py over the signups table: one
    row per (user, event) with the play, muted and sub flags. */
module SignupRecords {
  import opened Wrappers

  datatype Signup = Signup(userId: int, eventId: int, canPlay: bool, isMuted: bool, canSub: bool)

  type Table = seq<Signup>

  datatype SignupError = ValueError | SignupAlreadyExists | SignupDoesNotExist

  /** `__eq__`: two signups are equal when they belong to the same user and event. */
  predicate SameSignup(a: Signup, b: Signup) {
    a.userId == b.userId && a.eventId == b.eventId
  }

  /** `__eq__` ignores the flags: it is an equivalence that holds between any two flag settings. */
  lemma SameSignupIgnoresFlags(a: Signup, b: Signup)
    ensures SameSignup(a, b) <==> SameSignup(a.(canPlay := b.canPlay, isMuted := b.isMuted, canSub := b.canSub), b)
    ensures SameSignup(a, a)
    ensures SameSignup(a, b) ==> SameSignup(b, a)
  {
  }

  /** `is_unsigned`: neither playing nor subbing; the muted flag plays no part. */
  predicate IsUnsigned(s: Signup) {
    !s.canPlay && !s.canSub
  }

  /** `check_signups_user_event`. */
  predicate HasSignup(t: Table, user: int, event: int) {
    exists i :: 0 <= i < |t| && t[i].userId == user && t[i].eventId == event
  }

  /** Overwrites the three flags of every row with the signup's key. */
  function Overwrite(t: Table, s: Signup): (r: Table)
    ensures |r| == |t|
    ensures forall i :: 0 <= i < |t| ==> r[i] == (if SameSignup(t[i], s) then s else t[i])
  {
    if |t| == 0 then []
    else [if SameSignup(t[0], s) then s else t[0]] + Overwrite(t[1..], s)
  }

  /** `update_db`: an upsert keyed by (user, event). */
  function UpdateDb(t: Table, s: Signup): (r: Table)
    ensures HasSignup(t, s.userId, s.eventId) ==>
      |r| == |t| && forall i :: 0 <= i < |t| ==> r[i] == (if SameSignup(t[i], s) then s else t[i])
    ensures !HasSignup(t, s.userId, s.eventId) ==> r == t + [s]
    ensures s in r
  {
    if HasSignup(t, s.userId, s.eventId) then
      var i :| 0 <= i < |t| && t[i].userId == s.userId && t[i].eventId == s.eventId;
      assert Overwrite(t, s)[i] == s;
      Overwrite(t, s)
    else t + [s]
  }

  /** Upserting twice with the same signup is the same as upserting once. */
  lemma UpdateDbIdempotent(t: Table, s: Signup)
    ensures UpdateDb(UpdateDb(t, s), s) == UpdateDb(t, s)
  {
    var once := UpdateDb(t, s);
    assert HasSignup(once, s.userId, s.eventId) by {
      var i :| 0 <= i < |once| && once[i] == s;
    }
  }

  /** `create_signup`: a record with the given flags, each false by default; the table is not touched. */
  function CreateSignup(user: int, event: int, canPlay: bool := false, isMuted: bool := false,
                        canSub: bool := false): (r: Signup)
    ensures r.userId == user && r.eventId == event
    ensures r.canPlay == canPlay && r.isMuted == isMuted && r.canSub == canSub
    ensures IsUnsigned(r) <==> !canPlay && !canSub
  {
    Signup(user, event, canPlay, isMuted, canSub)
  }

  /** With the flags left at their defaults the new signup is unsigned and not muted. */
  lemma CreateSignupDefaults(user: int, event: int)
    ensures var r := CreateSignup(user, event);
      IsUnsigned(r) && !r.isMuted
  {
  }

  /** `add_signup`: refused for a known (user, event); otherwise one row is appended. */
  function AddSignup(t: Table, user: int, event: int, canPlay: bool, isMuted: bool, canSub: bool)
    : (r: Result<(Signup, Table), SignupError>)
    ensures r.Err? <==> HasSignup(t, user, event)
    ensures r.Err? ==> r.error == SignupAlreadyExists
    ensures r.Ok? ==> r.value.0 == Signup(user, event, canPlay, isMuted, canSub) && r.value.1 == t + [r.value.0]
  {
    if HasSignup(t, user, event) then Err(SignupAlreadyExists)
    else
      var s := Signup(user, event, canPlay, isMuted, canSub);
      Ok((s, t + [s]))
  }

  /** `from_user_event`: the first row with that key, or `SignupDoesNotExist`. */
  function FromUserEvent(t: Table, user: int, event: int): (r: Result<Signup, SignupError>)
    ensures r.Err? <==> !HasSignup(t, user, event)
    ensures r.Err? ==> r.error == SignupDoesNotExist
    ensures r.Ok? ==> r.value in t && r.value.userId == user && r.value.eventId == event
    ensures r.Ok? ==>
      exists i :: 0 <= i < |t| && t[i] == r.value
        && forall j :: 0 <= j < i ==> !(t[j].userId == user && t[j].eventId == event)
  {
    if |t| == 0 then Err(SignupDoesNotExist)
    else if t[0].userId == user && t[0].eventId == event then
      assert 0 <= 0 < |t| && t[0] == t[0];
      Ok(t[0])
    else
      assert HasSignup(t, user, event) ==> HasSignup(t[1..], user, event) by {
        if HasSignup(t, user, event) {
          var i :| 0 <= i < |t| && t[i].userId == user && t[i].eventId == event;
          assert t[1..][i - 1] == t[i];
        }
      }
      var r := FromUserEvent(t[1..], user, event);
      if r.Ok? then
        var i :| 0 <= i < |t[1..]| && t[1..][i] == r.value
          && forall j :: 0 <= j < i ==> !(t[1..][j].userId == user && t[1..][j].eventId == event);
        assert t[i + 1] == r.value && forall j :: 0 <= j < i + 1 ==> !(t[j].userId == user && t[j].eventId == event) by {
          forall j | 0 <= j < i + 1 ensures !(t[j].userId == user && t[j].eventId == event) {
            if j > 0 { assert t[j] == t[1..][j - 1]; }
          }
        }
        r
      else
        r
  }

  /** A signup added under a fresh key is found again by its key. */
  lemma {:induction false} AddThenFind(t: Table, user: int, event: int, canPlay: bool, isMuted: bool, canSub: bool)
    requires !HasSignup(t, user, event)
    ensures var r := AddSignup(t, user, event, canPlay, isMuted, canSub);
      r.Ok? && FromUserEvent(r.value.1, user, event) == Ok(r.value.0)
    decreases |t|
  {
    var r := AddSignup(t, user, event, canPlay, isMuted, canSub);
    if |t| > 0 {
      assert r.value.1[1..] == t[1..] + [r.value.0];
      AddThenFind(t[1..], user, event, canPlay, isMuted, canSub);
    }
  }
}

=== FILE: signup_tracker.dfy ===
/** The reconciliation step of `check_signups` in commands/EventCommands.py:
    each reaction's current users are merged into the list the event kept
    from the previous check, and the signup summary is redrawn when any list
    changed. Users are identified by their ids. */
module SignupTracker {
  import opened Wrappers
  import opened Text
  import opened Collections

  type UserId = int

  /** The entries of `xs` whose membership in `ys` is `inside`, in the order of `xs`. */
  function Filter(xs: seq<UserId>, ys: seq<UserId>, inside: bool): (r: seq<UserId>)
    ensures forall x :: x in r <==> x in xs && (x in ys <==> inside)
    ensures |r| <= |xs|
  {
    if |xs| == 0 then []
    else if (xs[0] in ys) == inside then [xs[0]] + Filter(xs[1..], ys, inside)
    else Filter(xs[1..], ys, inside)
  }

  /** `[u for u in xs if u in ys]`. */
  function Keep(xs: seq<UserId>, ys: seq<UserId>): seq<UserId> {
    Filter(xs, ys, true)
  }

  /** `[u for u in xs if u not in ys]`. */
  function Drop(xs: seq<UserId>, ys: seq<UserId>): seq<UserId> {
    Filter(xs, ys, false)
  }

  /** `a` can be obtained from `b` by deleting entries. */
  predicate IsSubseq(a: seq<UserId>, b: seq<UserId>)
    decreases |b|
  {
    |a| == 0 || (|b| > 0 && ((a[0] == b[0] && IsSubseq(a[1..], b[1..])) || IsSubseq(a, b[1..])))
  }

  /** The set of users in a list. */
  function Elems(xs: seq<UserId>): (s: set<UserId>)
    ensures forall x :: x in s <==> x in xs
  {
    if |xs| == 0 then {} else Elems(xs[1..]) + {xs[0]}
  }

  /** The outcome of merging one reaction: whether the list changed, and the new list. */
  datatype Merge = Merge(changed: bool, list: seq<UserId>)

  /** The merge rule: keep the previous entries still reacting, in their old order,
      then append the reactors not yet kept, in reaction order. A change is flagged
      when the kept part is shorter than either the reactors or the previous list. */
  function MergeSignups(prev: seq<UserId>, reactors: seq<UserId>): (r: Merge)
    ensures !r.changed ==> r.list == prev
    ensures r.changed ==> r.list == Keep(prev, reactors) + Drop(reactors, prev)
    ensures forall x :: x in r.list ==> x in reactors
    ensures r.changed ==> forall x :: x in reactors ==> x in r.list
  {
    var kept := Keep(prev, reactors);
    if |kept| != |reactors| || |kept| != |prev| then
      FilterCongruent(reactors, kept, prev, false);
      Merge(true, kept + Drop(reactors, kept))
    else
      KeepLength(prev, reactors);
      Merge(false, kept)
  }

  /** Filtering depends only on membership, so two lists agreeing on the entries of
      `xs` filter `xs` alike. */
  lemma {:induction false} FilterCongruent(xs: seq<UserId>, ys: seq<UserId>, zs: seq<UserId>, inside: bool)
    requires forall x :: x in xs ==> (x in ys <==> x in zs)
    ensures Filter(xs, ys, inside) == Filter(xs, zs, inside)
    decreases |xs|
  {
    if |xs| > 0 {
      var head := xs[0];
      assert head in xs;
      assert forall x :: x in xs[1..] ==> x in xs;
      FilterCongruent(xs[1..], ys, zs, inside);
    }
  }

  /** `Keep` drops nothing exactly when every entry is in `ys`, and then it is the identity. */
  lemma {:induction false} KeepLength(xs: seq<UserId>, ys: seq<UserId>)
    ensures |Keep(xs, ys)| == |xs| <==> forall x :: x in xs ==> x in ys
    ensures |Keep(xs, ys)| == |xs| ==> Keep(xs, ys) == xs
    decreases |xs|
  {
    if |xs| > 0 {
      KeepLength(xs[1..], ys);
      assert forall x :: x in xs <==> x == xs[0] || x in xs[1..];
      if xs[0] in ys {
        assert Keep(xs, ys) == [xs[0]] + Keep(xs[1..], ys);
        assert xs == [xs[0]] + xs[1..];
      }
    }
  }

  /** A filtered list is a subsequence of the original: relative order is kept. */
  lemma {:induction false} FilterIsSubseq(xs: seq<UserId>, ys: seq<UserId>, inside: bool)
    ensures IsSubseq(Filter(xs, ys, inside), xs)
    decreases |xs|
  {
    if |xs| > 0 {
      FilterIsSubseq(xs[1..], ys, inside);
      var r := Filter(xs, ys, inside);
      if (xs[0] in ys) == inside {
        assert r[1..] == Filter(xs[1..], ys, inside);
      }
    }
  }

  /** The merged list is the old survivors, in their old order, followed by the
      newcomers, in reaction order. */
  lemma MergeOrder(prev: seq<UserId>, reactors: seq<UserId>)
    ensures var r := MergeSignups(prev, reactors);
      r.changed ==> exists k :: SplitsAt(r.list, k, prev, reactors)
  {
    var r := MergeSignups(prev, reactors);
    if r.changed {
      var kept := Keep(prev, reactors);
      FilterIsSubseq(prev, reactors, true);
      FilterIsSubseq(reactors, prev, false);
      assert r.list[..|kept|] == kept && r.list[|kept|..] == Drop(reactors, prev);
      assert SplitsAt(r.list, |kept|, prev, reactors);
    }
  }

  /** `list[..k]` is the previous entries still reacting, in their old order, and
      `list[k..]` the reactors who were not in the previous list, in reaction order. */
  ghost predicate SplitsAt(list: seq<UserId>, k: int, prev: seq<UserId>, reactors: seq<UserId>) {
    && 0 <= k <= |list|
    && IsSubseq(list[..k], prev)
    && IsSubseq(list[k..], reactors)
    && (forall x :: x in list[..k] <==> x in prev && x in reactors)
    && (forall x :: x in list[k..] <==> x in reactors && x !in prev)
  }

  lemma {:induction false} FilterDistinct(xs: seq<UserId>, ys: seq<UserId>, inside: bool)
    requires Distinct(xs)
    ensures Distinct(Filter(xs, ys, inside))
    decreases |xs|
  {
    if |xs| > 0 {
      DistinctTail(xs);
      FilterDistinct(xs[1..], ys, inside);
      if (xs[0] in ys) == inside {
        DistinctCons(xs[0], Filter(xs[1..], ys, inside));
      }
    }
  }

  /** Merging distinct lists gives a list without repeats. */
  lemma MergeKeepsDistinct(prev: seq<UserId>, reactors: seq<UserId>)
    requires Distinct(prev) && Distinct(reactors)
    ensures Distinct(MergeSignups(prev, reactors).list)
  {
    FilterDistinct(prev, reactors, true);
    FilterDistinct(reactors, prev, false);
    DistinctConcat(Keep(prev, reactors), Drop(reactors, prev));
  }

  /** A list without repeats has as many users as entries. */
  lemma {:induction false} DistinctCard(xs: seq<UserId>)
    requires Distinct(xs)
    ensures |Elems(xs)| == |xs|
    decreases |xs|
  {
    if |xs| > 0 {
      DistinctTail(xs);
      DistinctCard(xs[1..]);
      assert Elems(xs[1..]) !! {xs[0]};
    }
  }

  /** A subset is no larger, and a subset of the same size is the whole set. */
  lemma SubsetCard(a: set<UserId>, b: set<UserId>)
    requires a <= b
    ensures |a| <= |b|
    ensures |a| == |b| ==> a == b
  {
    assert b == a + (b - a);
    if |a| == |b| {
      assert |b - a| == 0;
      assert b - a == {};
    }
  }

  /** For lists without repeats, the kept entries are as many as the reactors exactly
      when every reactor was already signed up. */
  lemma KeptCoversIff(prev: seq<UserId>, reactors: seq<UserId>)
    requires Distinct(prev) && Distinct(reactors)
    ensures |Keep(prev, reactors)| == |reactors| <==> forall x :: x in reactors ==> x in prev
  {
    var kept := Keep(prev, reactors);
    FilterDistinct(prev, reactors, true);
    DistinctCard(kept);
    DistinctCard(reactors);
    SubsetCard(Elems(kept), Elems(reactors));
    if forall x :: x in reactors ==> x in prev {
      assert Elems(kept) == Elems(reactors);
    }
  }

  /** The length comparison flags a change exactly when the set of reactors differs
      from the set of previous signups (both lists being free of repeats). */
  lemma ChangedIff(prev: seq<UserId>, reactors: seq<UserId>)
    requires Distinct(prev) && Distinct(reactors)
    ensures MergeSignups(prev, reactors).changed <==> !(forall x :: x in prev <==> x in reactors)
  {
    KeepLength(prev, reactors);
    KeptCoversIff(prev, reactors);
  }

  /** Running the merge again on the same reactors flags nothing and keeps the list. */
  lemma MergeIdempotent(prev: seq<UserId>, reactors: seq<UserId>)
    requires Distinct(prev) && Distinct(reactors)
    ensures var once := MergeSignups(prev, reactors);
      var twice := MergeSignups(once.list, reactors);
      !twice.changed && twice.list == once.list
  {
    var once := MergeSignups(prev, reactors);
    MergeKeepsDistinct(prev, reactors);
    ChangedIff(prev, reactors);
    ChangedIff(once.list, reactors);
  }

  /** The users of each of the three reactions; `None` when the reaction is not on the
      announcement at all. */
  datatype Reactions = Reactions(play: Option<seq<UserId>>, muted: Option<seq<UserId>>, sub: Option<seq<UserId>>)

  /** The three lists an event keeps between checks. */
  datatype Signups = Signups(canPlay: seq<UserId>, isMuted: seq<UserId>, canSub: seq<UserId>)

  /** One reaction's branch: whether it changed, the list the event keeps, and the local
      list the summary is drawn from (empty when the reaction is missing). */
  datatype Tracked = Tracked(changed: bool, stored: seq<UserId>, local: seq<UserId>)

  /** The bot's own reaction is removed before merging. */
  function TrackReaction(prev: seq<UserId>, users: Option<seq<UserId>>, bot: UserId): (r: Tracked)
    ensures users.None? ==> !r.changed && r.stored == prev && r.local == []
    ensures users.Some? ==> r.local == r.stored && bot !in r.stored
    ensures users.Some? ==> forall x :: x in r.stored && x != bot ==> x in users.value
    ensures users.Some? && r.changed ==> forall x :: x in users.value && x != bot ==> x in r.stored
    ensures !r.changed ==> r.stored == prev
  {
    match users
    case None => Tracked(false, prev, [])
    case Some(us) =>
      var m := MergeSignups(prev, Drop(us, [bot]));
      Tracked(m.changed, m.list, m.list)
  }

  /** A field of the signup summary. */
  datatype Field = Field(name: string, value: string)

  const NoOne := "No one :("
  const PlayersLabel := "\U{2705} Players: "
  const SubsLabel := "\U{1F6D7} Subs: "
  const MuteMarker := "\U{1F507}"

  /** Player lines numbered from `from + 1`, with the mute marker for muted users. */
  function PlayerLines(play: seq<UserId>, muted: seq<UserId>, mention: UserId -> string, from: nat): (lines: seq<string>)
    ensures |lines| == |play|
    ensures forall i :: 0 <= i < |play| ==>
      lines[i] == NatToString(from + i + 1) + ": " + mention(play[i]) + " " + (if play[i] in muted then MuteMarker else "")
    decreases |play|
  {
    if |play| == 0 then []
    else
      [NatToString(from + 1) + ": " + mention(play[0]) + " " + (if play[0] in muted then MuteMarker else "")]
        + PlayerLines(play[1..], muted, mention, from + 1)
  }

  /** Sub lines numbered from `from + 1`. */
  function SubLines(subs: seq<UserId>, mention: UserId -> string, from: nat): (lines: seq<string>)
    ensures |lines| == |subs|
    ensures forall i :: 0 <= i < |subs| ==> lines[i] == NatToString(from + i + 1) + ": " + mention(subs[i])
    decreases |subs|
  {
    if |subs| == 0 then []
    else [NatToString(from + 1) + ": " + mention(subs[0])] + SubLines(subs[1..], mention, from + 1)
  }

  /** The players field: the count in the name, one numbered line per player, or
      "No one :(" for nobody. */
  function PlayersField(play: seq<UserId>, muted: seq<UserId>, mention: UserId -> string): (f: Field)
    ensures f.name == PlayersLabel + NatToString(|play|)
    ensures |play| == 0 ==> f.value == NoOne
    ensures |play| > 0 ==> f.value == Join(PlayerLines(play, muted, mention, 0), '\n')
  {
    if |play| > 0 then Field(PlayersLabel + NatToString(|play|), Join(PlayerLines(play, muted, mention, 0), '\n'))
    else Field(PlayersLabel + "0", NoOne)
  }

  /** The subs field, drawn the same way without mute markers. */
  function SubsField(subs: seq<UserId>, mention: UserId -> string): (f: Field)
    ensures f.name == SubsLabel + NatToString(|subs|)
    ensures |subs| == 0 ==> f.value == NoOne
    ensures |subs| > 0 ==> f.value == Join(SubLines(subs, mention, 0), '\n')
  {
    if |subs| > 0 then Field(SubsLabel + NatToString(|subs|), Join(SubLines(subs, mention, 0), '\n'))
    else Field(SubsLabel + "0", NoOne)
  }

  /** The result of checking one event. */
  datatype Check =
    | Skipped
    | NoChange(signups: Signups)
    | Changed(signups: Signups, players: Field, subs: Field)

  /** One pass of `check_signups` over one event: nothing happens once the deadline has
      passed; otherwise the three reactions are merged and, if any list changed, the
      summary is redrawn from this pass's lists. */
  function CheckEvent(s: Signups, deadline: int, now: int, reactions: Reactions, bot: UserId,
                      mention: UserId -> string): (r: Check)
    ensures r.Skipped? <==> now >= deadline
    ensures r.NoChange? ==> r.signups == s
    ensures !r.Skipped? ==> r.signups == Signups(TrackReaction(s.canPlay, reactions.play, bot).stored,
                                                 TrackReaction(s.isMuted, reactions.muted, bot).stored,
                                                 TrackReaction(s.canSub, reactions.sub, bot).stored)
    ensures r.Changed? <==>
      (now < deadline
       && (TrackReaction(s.canPlay, reactions.play, bot).changed || TrackReaction(s.isMuted, reactions.muted, bot).changed
           || TrackReaction(s.canSub, reactions.sub, bot).changed))
    ensures !r.Skipped? && reactions.play.Some? ==> bot !in r.signups.canPlay
    ensures !r.Skipped? && reactions.sub.Some? ==> bot !in r.signups.canSub
    ensures r.Changed? ==> r.players == PlayersField(TrackReaction(s.canPlay, reactions.play, bot).local,
                                                     TrackReaction(s.isMuted, reactions.muted, bot).local, mention)
    ensures r.Changed? ==> r.subs == SubsField(TrackReaction(s.canSub, reactions.sub, bot).local, mention)
  {
    if now >= deadline then Skipped
    else
      var play := TrackReaction(s.canPlay, reactions.play, bot);
      var muted := TrackReaction(s.isMuted, reactions.muted, bot);
      var sub := TrackReaction(s.canSub, reactions.sub, bot);
      var next := Signups(play.stored, muted.stored, sub.stored);
      if !play.changed && !muted.changed && !sub.changed then NoChange(next)
      else Changed(next, PlayersField(play.local, muted.local, mention), SubsField(sub.local, mention))
  }

  /** The lists an event holds after a check. */
  function After(s: Signups, r: Check): Signups {
    if r.Skipped? then s else r.signups
  }

  predicate DistinctReactions(reactions: Reactions) {
    && (reactions.play.Some? ==> Distinct(reactions.play.value))
    && (reactions.muted.Some? ==> Distinct(reactions.muted.value))
    && (reactions.sub.Some? ==> Distinct(reactions.sub.value))
  }

  predicate DistinctSignups(s: Signups) {
    Distinct(s.canPlay) && Distinct(s.isMuted) && Distinct(s.canSub)
  }

  /** One reaction's branch is idempotent and keeps its list free of repeats. */
  lemma TrackIdempotent(prev: seq<UserId>, users: Option<seq<UserId>>, bot: UserId)
    requires Distinct(prev)
    requires users.Some? ==> Distinct(users.value)
    ensures var once := TrackReaction(prev, users, bot);
      Distinct(once.stored) && !TrackReaction(once.stored, users, bot).changed
      && TrackReaction(once.stored, users, bot).stored == once.stored
  {
    if users.Some? {
      FilterDistinct(users.value, [bot], false);
      MergeKeepsDistinct(prev, Drop(users.value, [bot]));
      MergeIdempotent(prev, Drop(users.value, [bot]));
    }
  }

  /** A second check with the same reactions changes nothing and redraws nothing. */
  lemma CheckEventIdempotent(s: Signups, deadline: int, now: int, reactions: Reactions, bot: UserId,
                             mention: UserId -> string)
    requires DistinctSignups(s) && DistinctReactions(reactions)
    ensures var s' := After(s, CheckEvent(s, deadline, now, reactions, bot, mention));
      DistinctSignups(s') && !CheckEvent(s', deadline, now, reactions, bot, mention).Changed?
      && After(s', CheckEvent(s', deadline, now, reactions, bot, mention)) == s'
  {
    TrackIdempotent(s.canPlay, reactions.play, bot);
    TrackIdempotent(s.isMuted, reactions.muted, bot);
    TrackIdempotent(s.canSub, reactions.sub, bot);
  }

  /** With no reaction changing, the check reports no change exactly when every
      reaction's reactors (less the bot) are the previous list as a set. */
  lemma NoChangeIff(s: Signups, deadline: int, now: int, reactions: Reactions, bot: UserId,
                    mention: UserId -> string)
    requires DistinctSignups(s) && DistinctReactions(reactions)
    requires now < deadline
    ensures CheckEvent(s, deadline, now, reactions, bot, mention).NoChange? <==>
      && SameSet(s.canPlay, reactions.play, bot)
      && SameSet(s.isMuted, reactions.muted, bot)
      && SameSet(s.canSub, reactions.sub, bot)
  {
    SameSetIff(s.canPlay, reactions.play, bot);
    SameSetIff(s.isMuted, reactions.muted, bot);
    SameSetIff(s.canSub, reactions.sub, bot);
  }

  /** A missing reaction leaves its list alone; a present one matches the previous list
      as a set once the bot is set aside. */
  ghost predicate SameSet(prev: seq<UserId>, users: Option<seq<UserId>>, bot: UserId) {
    users.Some? ==> forall x :: x in prev <==> x in users.value && x != bot
  }

  lemma SameSetIff(prev: seq<UserId>, users: Option<seq<UserId>>, bot: UserId)
    requires Distinct(prev)
    requires users.Some? ==> Distinct(users.value)
    ensures !TrackReaction(prev, users, bot).changed <==> SameSet(prev, users, bot)
  {
    if users.Some? {
      FilterDistinct(users.value, [bot], false);
      ChangedIff(prev, Drop(users.value, [bot]));
    }
  }
}

=== FILE: strike_commands.dfy ===
/** The decision logic of commands/StrikeCommands.py: how long a new strike
    lasts, when it expires, what the struck user is told, and when a
    moderator's removal request takes effect. Instants are minutes. */
module StrikeCommands {
  import opened Text
  import opened StrikesTable

  const DefaultStrikeDays := 1
  const MinutesPerDay := 1440

  /** `calculate_new_strike_duration` for a user with `n` strikes on record. */
  function DurationFor(n: nat): (days: nat)
    ensures days >= 1
    ensures n == 0 ==> days == DefaultStrikeDays
    ensures n >= 1 ==> days == DefaultStrikeDays + DefaultStrikeDays * (n * n)
  {
    if n == 0 then DefaultStrikeDays else DefaultStrikeDays + DefaultStrikeDays * (n * n)
  }

  /** The duration counts every strike of the user, active or not: one day for a
      user with none, otherwise one day plus the square of the count. */
  function NewStrikeDuration(t: Table, user: int): (days: nat)
    ensures days >= 1
    ensures |GetAllStrikes(t, user)| == 0 ==> days == DefaultStrikeDays
    ensures var n := |GetActiveStrikes(t, user)| + |GetInactiveStrikes(t, user)|;
      n >= 1 ==> days == DefaultStrikeDays + DefaultStrikeDays * (n * n)
  {
    DurationFor(|GetAllStrikes(t, user)|)
  }

  /** Each further strike lasts strictly longer than the one before. */
  lemma DurationIncreasing(a: nat, b: nat)
    requires a < b
    ensures DurationFor(a) < DurationFor(b)
  {
    if a > 0 {
      assert a * a < b * b by {
        assert a * a <= a * b;
        assert a * b < b * b;
      }
    }
  }

  /** Appending a row adds it to its user's strikes and to nobody else's. */
  lemma {:induction false} AllOfAppend(rows: seq<Strike>, s: Strike, user: int)
    ensures AllOf(rows + [s], user) == AllOf(rows, user) + (if s.userId == user then [s] else [])
    decreases |rows|
  {
    if |rows| > 0 {
      assert (rows + [s])[1..] == rows[1..] + [s];
      AllOfAppend(rows[1..], s, user);
    }
  }

  /** A strike on record lengthens the next one whether or not it is still active:
      an inactive strike counts exactly as an active one would. */
  lemma InactiveStrikeCounts(t: Table, s: Strike)
    requires !s.isActive
    ensures NewStrikeDuration(t.(rows := t.rows + [s]), s.userId) > NewStrikeDuration(t, s.userId)
    ensures NewStrikeDuration(t.(rows := t.rows + [s]), s.userId)
         == NewStrikeDuration(t.(rows := t.rows + [s.(isActive := true)]), s.userId)
  {
    AllOfAppend(t.rows, s, s.userId);
    AllOfAppend(t.rows, s.(isActive := true), s.userId);
    var n := |GetAllStrikes(t, s.userId)|;
    DurationIncreasing(n, n + 1);
  }

  /** The `time{'s' if total_strikes else ''}` suffix as written: it gives "s" for
      any non-zero count, so one earlier strike reads "1 times". */
  function PluralSuffixAsWritten(n: nat): (r: string)
    ensures r == "" <==> n == 0
  {
    if n != 0 then "s" else ""
  }

  /** The as-written suffix is wrong for one strike and for none. */
  lemma PluralSuffixAsWrittenWrong()
    ensures PluralSuffixAsWritten(1) == "s"
    ensures PluralSuffixAsWritten(0) == ""
  {
  }

  /** The evidently intended suffix: singular exactly for a count of one. */
  function PluralSuffix(n: nat): (r: string)
    ensures r == "" <==> n == 1
    ensures r != "" ==> r == "s"
  {
    if n == 1 then "" else "s"
  }

  /** The line of the direct message telling the user how long the strike lasts,
      with a given plural suffix after "time". */
  function Notice(before: nat, days: nat, reason: string, suffix: string): string {
    "Since you were striked " + NatToString(before) + " time" + suffix
      + " before, this strike will last " + NatToString(days) + " days.\nReason: `" + reason + "`"
  }

  /** The notice with the intended plural. */
  function StrikeNotice(before: nat, days: nat, reason: string): string {
    Notice(before, days, reason, PluralSuffix(before))
  }

  /** The notice as written. */
  function StrikeNoticeAsWritten(before: nat, days: nat, reason: string): string {
    Notice(before, days, reason, PluralSuffixAsWritten(before))
  }

  /** The intended notice and the notice as written agree exactly when the user had
      at least two earlier strikes. */
  lemma StrikeNoticeAsWrittenDiffers(before: nat, days: nat, reason: string)
    ensures StrikeNoticeAsWritten(before, days, reason) == StrikeNotice(before, days, reason) <==> before >= 2
  {
    if before < 2 {
      assert |StrikeNoticeAsWritten(before, days, reason)| != |StrikeNotice(before, days, reason)|;
    }
  }

  /** The outcome of the `strike` command. */
  datatype Issued = Issued(days: nat, expiry: int, before: nat, notice: string, table: Table)

  /** `strike`: the duration and the count in the notice both use the strikes on
      record before the new one is inserted; the expiry is that many days after now. */
  function IssueStrike(t: Table, user: int, moderator: int, now: int, reason: string): (r: Issued)
    requires Valid(t)
    ensures r.before == |GetAllStrikes(t, user)|
    ensures r.days == DurationFor(r.before)
    ensures r.expiry == now + r.days * MinutesPerDay
    ensures r.table == AddStrike(t, user, moderator, now, r.expiry, reason).1
    ensures r.notice == StrikeNotice(r.before, r.days, reason)
  {
    var days := NewStrikeDuration(t, user);
    var expiry := now + days * MinutesPerDay;
    var before := |GetAllStrikes(t, user)|;
    Issued(days, expiry, before, StrikeNotice(before, days, reason), AddStrike(t, user, moderator, now, expiry, reason).1)
  }

  /** Striking a user again always gives a longer strike than the last one. */
  lemma IssueStrikeEscalates(t: Table, user: int, moderator: int, now: int, reason: string)
    requires Valid(t)
    ensures var r := IssueStrike(t, user, moderator, now, reason);
      Valid(r.table)
      && |GetAllStrikes(r.table, user)| == r.before + 1
      && NewStrikeDuration(r.table, user) > r.days
  {
    var r := IssueStrike(t, user, moderator, now, reason);
    var s := r.table.rows[|t.rows|];
    assert r.table.rows == t.rows + [s];
    AllOfAppend(t.rows, s, user);
    DurationIncreasing(r.before, r.before + 1);
  }

  /** The replies that confirm a removal, compared after lowercasing. */
  const ConfirmReplies: seq<string> := ["yes", "y", "confirm", "go", "continue"]

  predicate Confirms(reply: string) {
    Lower(reply) in ConfirmReplies
  }

  datatype RemoveOutcome = NotPermitted | UnknownStrike | Cancelled | Removed

  /** `strike_remove`: non-moderators are turned away, an unknown id is an error, and
      only a confirming reply deletes the strike. */
  function StrikeRemove(isMod: bool, t: Table, id: int, reply: string): (r: (RemoveOutcome, Table))
    ensures r.0 == NotPermitted <==> !isMod
    ensures r.0 == UnknownStrike <==> isMod && GetStrike(t, id).None?
    ensures r.0 == Removed <==> isMod && GetStrike(t, id).Some? && Confirms(reply)
    ensures r.0 != Removed ==> r.1 == t
    ensures r.0 == Removed ==> r.1 == RemoveStrike(t, id).1 && GetStrike(r.1, id).None?
  {
    if !isMod then (NotPermitted, t)
    else if GetStrike(t, id).None? then (UnknownStrike, t)
    else if !Confirms(reply) then (Cancelled, t)
    else (Removed, RemoveStrike(t, id).1)
  }

  /** Any capitalisation of a confirming word confirms. */
  lemma ConfirmIgnoresCase(reply: string)
    requires Lower(reply) == "yes"
    ensures Confirms(reply)
  {
  }

  /** Issuing a strike and then confirming its removal leaves the same rows as before. */
  lemma IssueThenRemove(t: Table, user: int, moderator: int, now: int, reason: string, reply: string)
    requires Valid(t)
    requires Confirms(reply)
    ensures var issued := IssueStrike(t, user, moderator, now, reason);
      var removed := StrikeRemove(true, issued.table, issued.table.rows[|t.rows|].id, reply);
      removed.0 == Removed && removed.1.rows == t.rows
  {
    var issued := IssueStrike(t, user, moderator, now, reason);
    var s := issued.table.rows[|t.rows|];
    assert issued.table.rows == t.rows + [s];
    assert GetStrike(issued.table, s.id).Some?;
    RemoveAppendedFresh(t.rows, s);
  }

  /** Removing the id of a fresh appended row removes just that row. */
  lemma {:induction false} RemoveAppendedFresh(rows: seq<Strike>, s: Strike)
    requires forall o :: o in rows ==> o.id != s.id
    ensures Remove(rows + [s], s.id) == rows
    decreases |rows|
  {
    if |rows| > 0 {
      assert (rows + [s])[1..] == rows[1..] + [s];
      assert rows[0] in rows;
      RemoveAppendedFresh(rows[1..], s);
      assert rows == [rows[0]] + rows[1..];
    }
  }
}

=== FILE: strikes_table.dfy ===
/** The `strikes` table of database/strikes.py. Ids come from an
    AUTOINCREMENT key: each insert takes one more than the largest id ever
    issued, which the table remembers even after rows are deleted. */
module StrikesTable {
  import opened Wrappers

  datatype Strike = Strike(
    id: nat,
    userId: int,
    strikedBy: int,
    strikedAt: int,     // minutes
    expiryDate: int,    // minutes
    reason: string,
    isActive: bool)

  /** The rows in id order and the largest id issued so far. */
  datatype Table = Table(rows: seq<Strike>, lastId: nat)

  /** Every stored id is positive, issued already, and used once. */
  ghost predicate Valid(t: Table) {
    && (forall i :: 0 <= i < |t.rows| ==> 1 <= t.rows[i].id <= t.lastId)
    && (forall i, j :: 0 <= i < j < |t.rows| ==> t.rows[i].id != t.rows[j].id)
  }

  /** The strikes of `user` whose active flag is `active`, in table order. */
  function WithFlag(rows: seq<Strike>, user: int, active: bool): (r: seq<Strike>)
    ensures forall s :: s in r <==> s in rows && s.userId == user && s.isActive == active
  {
    if |rows| == 0 then []
    else if rows[0].userId == user && rows[0].isActive == active then [rows[0]] + WithFlag(rows[1..], user, active)
    else WithFlag(rows[1..], user, active)
  }

  /** `get_all_strikes`: every strike of `user`, in table order. */
  function AllOf(rows: seq<Strike>, user: int): (r: seq<Strike>)
    ensures forall s :: s in r <==> s in rows && s.userId == user
    ensures |r| <= |rows|
  {
    if |rows| == 0 then []
    else if rows[0].userId == user then [rows[0]] + AllOf(rows[1..], user)
    else AllOf(rows[1..], user)
  }

  /** `get_active_strikes`: the user's strikes still in force. */
  function GetActiveStrikes(t: Table, user: int): (r: seq<Strike>)
    ensures forall s :: s in r <==> s in t.rows && s.userId == user && s.isActive
  {
    WithFlag(t.rows, user, true)
  }

  /** `get_inactive_strikes`: the user's strikes no longer in force. */
  function GetInactiveStrikes(t: Table, user: int): (r: seq<Strike>)
    ensures forall s :: s in r <==> s in t.rows && s.userId == user && !s.isActive
  {
    WithFlag(t.rows, user, false)
  }

  /** `get_all_strikes`: every strike of the user, as many as the active and the
      inactive ones together. */
  function GetAllStrikes(t: Table, user: int): (r: seq<Strike>)
    ensures forall s :: s in r <==> s in t.rows && s.userId == user
    ensures |r| == |GetActiveStrikes(t, user)| + |GetInactiveStrikes(t, user)|
  {
    ActiveInactivePartition(t.rows, user);
    AllOf(t.rows, user)
  }

  /** Active and inactive strikes partition a user's strikes: together they are
      exactly the strikes of `get_all_strikes`, counted with multiplicity. */
  lemma {:induction false} ActiveInactivePartition(rows: seq<Strike>, user: int)
    ensures multiset(WithFlag(rows, user, true)) + multiset(WithFlag(rows, user, false))
         == multiset(AllOf(rows, user))
    ensures |WithFlag(rows, user, true)| + |WithFlag(rows, user, false)| == |AllOf(rows, user)|
  {
    if |rows| > 0 {
      ActiveInactivePartition(rows[1..], user);
    }
  }

  /** `get_strike`: the row with that id, if any. */
  function GetStrike(t: Table, id: int): (r: Option<Strike>)
    ensures r.None? <==> forall s :: s in t.rows ==> s.id != id
    ensures r.Some? ==> r.value in t.rows && r.value.id == id
  {
    Find(t.rows, id)
  }

  function Find(rows: seq<Strike>, id: int): (r: Option<Strike>)
    ensures r.None? <==> forall s :: s in rows ==> s.id != id
    ensures r.Some? ==> r.value in rows && r.value.id == id
  {
    if |rows| == 0 then None
    else if rows[0].id == id then Some(rows[0])
    else Find(rows[1..], id)
  }

  /** `add_strike`: always inserts an active strike under a fresh id and reports success. */
  function AddStrike(t: Table, userId: int, strikedBy: int, strikedAt: int, expiryDate: int,
                     reason: string): (r: (bool, Table))
    requires Valid(t)
    ensures r.0
    ensures Valid(r.1)
    ensures |r.1.rows| == |t.rows| + 1 && r.1.rows[..|t.rows|] == t.rows
    ensures var s := r.1.rows[|t.rows|];
      s == Strike(s.id, userId, strikedBy, strikedAt, expiryDate, reason, true)
      && forall o :: o in t.rows ==> o.id != s.id
  {
    var s := Strike(t.lastId + 1, userId, strikedBy, strikedAt, expiryDate, reason, true);
    (true, Table(t.rows + [s], t.lastId + 1))
  }

  /** Every row except the one with that id. */
  function Remove(rows: seq<Strike>, id: int): (r: seq<Strike>)
    ensures forall s :: s in r <==> s in rows && s.id != id
    ensures |r| <= |rows|
    ensures (exists s :: s in rows && s.id == id) ==> |r| < |rows|
  {
    if |rows| == 0 then []
    else if rows[0].id == id then Remove(rows[1..], id)
    else [rows[0]] + Remove(rows[1..], id)
  }

  /** `remove_strike`: false and nothing changed for an unknown id; otherwise that strike is gone. */
  function RemoveStrike(t: Table, id: int): (r: (bool, Table))
    ensures r.0 <==> GetStrike(t, id).Some?
    ensures !r.0 ==> r.1 == t
    ensures r.0 ==> r.1.lastId == t.lastId && |r.1.rows| < |t.rows|
    ensures r.0 ==> forall s :: s in r.1.rows <==> s in t.rows && s.id != id
  {
    if GetStrike(t, id).Some? then (true, Table(Remove(t.rows, id), t.lastId)) else (false, t)
  }

  /** No two rows share an id. */
  ghost predicate DistinctIds(rows: seq<Strike>) {
    forall i, j :: 0 <= i < j < |rows| ==> rows[i].id != rows[j].id
  }

  /** Removing a strike keeps the table valid. */
  lemma RemoveKeepsValid(t: Table, id: int)
    requires Valid(t)
    ensures Valid(RemoveStrike(t, id).1)
  {
    RemoveKeepsDistinct(t.rows, id);
  }

  /** `Remove` keeps the surviving rows in order, so distinct ids stay distinct. */
  lemma {:induction false} RemoveKeepsDistinct(rows: seq<Strike>, id: int)
    requires DistinctIds(rows)
    ensures DistinctIds(Remove(rows, id))
    decreases |rows|
  {
    if |rows| > 0 {
      var tail := rows[1..];
      assert DistinctIds(tail) by {
        forall i, j | 0 <= i < j < |tail| ensures tail[i].id != tail[j].id {
          assert tail[i] == rows[i + 1] && tail[j] == rows[j + 1];
        }
      }
      RemoveKeepsDistinct(tail, id);
      if rows[0].id != id {
        forall s | s in Remove(tail, id) ensures s.id != rows[0].id {
          var k :| 0 <= k < |tail| && tail[k] == s;
          assert rows[k + 1] == s;
        }
        DistinctIdsCons(rows[0], Remove(tail, id));
      }
    }
  }

  /** A row whose id no other row has can lead a list of distinct ids. */
  lemma DistinctIdsCons(x: Strike, rows: seq<Strike>)
    requires DistinctIds(rows) && forall s :: s in rows ==> s.id != x.id
    ensures DistinctIds([x] + rows)
  {
    var r := [x] + rows;
    forall i, j | 0 <= i < j < |r| ensures r[i].id != r[j].id {
      assert r[j] == rows[j - 1];
      if i > 0 {
        assert r[i] == rows[i - 1];
      }
    }
  }
}

=== FILE: text.dfy ===
/** String helpers with the Python semantics the commands rely on:
    `str.isdigit`/`int`, `str(n)`, `lower`, `strip`, `split(",")`, `in`. */
module Text {
  import opened Wrappers

  predicate IsDigit(c: char) {
    '0' <= c <= '9'
  }

  predicate AllDigits(s: string) {
    forall i :: 0 <= i < |s| ==> IsDigit(s[i])
  }

  /** Python's `s.isdigit()` on ASCII text: non-empty and only digits. */
  predicate IsDigitString(s: string) {
    |s| > 0 && AllDigits(s)
  }

  function DigitValue(c: char): (d: nat)
    requires IsDigit(c)
    ensures d < 10
  {
    c as int - '0' as int
  }

  function DigitChar(d: nat): (c: char)
    requires d < 10
    ensures IsDigit(c) && DigitValue(c) == d
  {
    ('0' as int + d) as char
  }

  /** `int(s)` for a digit string (leading zeros allowed). */
  function ParseDigits(s: string): nat
    requires AllDigits(s)
    decreases |s|
  {
    if |s| == 0 then 0 else 10 * ParseDigits(s[..|s| - 1]) + DigitValue(s[|s| - 1])
  }

  /** `str(n)` for a non-negative integer. */
  function NatToString(n: nat): (s: string)
    ensures IsDigitString(s)
    ensures n > 0 ==> s[0] != '0'
    decreases n
  {
    if n < 10 then [DigitChar(n)] else NatToString(n / 10) + [DigitChar(n % 10)]
  }

  /** `str(i)` for any integer. */
  function IntToString(i: int): (s: string)
    ensures |s| > 0
    ensures i >= 0 <==> s[0] != '-'
  {
    if i < 0 then "-" + NatToString(-i) else NatToString(i)
  }

  /** Reading back what `str` wrote gives the number again. */
  lemma {:induction false} ParseNatToString(n: nat)
    ensures ParseDigits(NatToString(n)) == n
    decreases n
  {
    if n >= 10 {
      var s := NatToString(n);
      ParseNatToString(n / 10);
      assert s[..|s| - 1] == NatToString(n / 10);
    }
  }

  /** `str` is injective on naturals. */
  lemma NatToStringInjective(a: nat, b: nat)
    requires NatToString(a) == NatToString(b)
    ensures a == b
  {
    ParseNatToString(a);
    ParseNatToString(b);
  }

  /** A leading "0" does not change the value `int` reads. */
  lemma {:induction false} ParseLeadingZero(s: string)
    requires AllDigits(s)
    ensures AllDigits("0" + s) && ParseDigits("0" + s) == ParseDigits(s)
    decreases |s|
  {
    if |s| > 0 {
      var t := "0" + s;
      assert t[..|t| - 1] == "0" + s[..|s| - 1];
      ParseLeadingZero(s[..|s| - 1]);
    }
  }

  /** Python's `str.isspace` for one character. */
  predicate IsSpace(c: char) {
    c == ' ' || ('\t' <= c <= '\r') || ('\U{1C}' <= c <= '\U{1F}') || c == '\U{85}'
    || c == '\U{A0}' || c == '\U{1680}' || ('\U{2000}' <= c <= '\U{200A}')
    || c == '\U{2028}' || c == '\U{2029}' || c == '\U{202F}' || c == '\U{205F}' || c == '\U{3000}'
  }

  /** Python's `str.lower` on ASCII letters; other characters are unchanged. */
  function LowerChar(c: char): (d: char)
    ensures 'A' <= c <= 'Z' ==> 'a' <= d <= 'z' && d as int - c as int == 32
    ensures !('A' <= c <= 'Z') ==> d == c
  {
    if 'A' <= c <= 'Z' then (c as int + 32) as char else c
  }

  function Lower(s: string): (r: string)
    ensures |r| == |s|
    ensures forall i :: 0 <= i < |s| ==> r[i] == LowerChar(s[i])
  {
    if |s| == 0 then [] else [LowerChar(s[0])] + Lower(s[1..])
  }

  /** Text without capitals is its own lower case. */
  lemma LowerUnchanged(s: string)
    requires forall c :: c in s ==> !('A' <= c <= 'Z')
    ensures Lower(s) == s
  {
    assert forall i :: 0 <= i < |s| ==> s[i] in s;
  }

  function TrimLeft(s: string): (r: string)
    ensures |r| <= |s| && r == s[|s| - |r|..]
    ensures |r| > 0 ==> !IsSpace(r[0])
    ensures forall i :: 0 <= i < |s| - |r| ==> IsSpace(s[i])
  {
    if |s| > 0 && IsSpace(s[0]) then
      var r := TrimLeft(s[1..]);
      assert forall i :: 1 <= i < |s| ==> s[i] == s[1..][i - 1];
      r
    else s
  }

  function TrimRight(s: string): (r: string)
    ensures |r| <= |s| && r == s[..|r|]
    ensures |r| > 0 ==> !IsSpace(r[|r| - 1])
    ensures forall i :: |r| <= i < |s| ==> IsSpace(s[i])
  {
    if |s| > 0 && IsSpace(s[|s| - 1]) then
      var r := TrimRight(s[..|s| - 1]);
      assert forall i :: 0 <= i < |s| - 1 ==> s[i] == s[..|s| - 1][i];
      r
    else s
  }

  /** Python's `s.strip()`: the longest run with no whitespace at either end. It is
      one slice of `s`, cut after a leading blank run and before a trailing one. */
  function Strip(s: string): (r: string)
    ensures |r| > 0 ==> !IsSpace(r[0]) && !IsSpace(r[|r| - 1])
    ensures |r| == 0 <==> forall i :: 0 <= i < |s| ==> IsSpace(s[i])
    ensures forall c :: c in r ==> c in s
    ensures exists i :: StripCut(s, r, i)
  {
    TrimBoth(s);
    TrimCut(s);
    TrimRight(TrimLeft(s))
  }

  lemma TrimCut(s: string)
    ensures StripCut(s, TrimRight(TrimLeft(s)), |s| - |TrimLeft(s)|)
  {
    CutOfTrims(s, TrimLeft(s), TrimRight(TrimLeft(s)));
  }

  /** A blank prefix cut off, then a blank suffix cut off, leave one slice. */
  lemma CutOfTrims(s: string, l: string, r: string)
    requires |l| <= |s| && l == s[|s| - |l|..]
    requires forall k :: 0 <= k < |s| - |l| ==> IsSpace(s[k])
    requires |r| <= |l| && r == l[..|r|]
    requires forall k :: |r| <= k < |l| ==> IsSpace(l[k])
    ensures StripCut(s, r, |s| - |l|)
  {
    var i := |s| - |l|;
    assert r == s[i..i + |r|];
    forall k | i + |r| <= k < |s| ensures IsSpace(s[k]) {
      assert s[k] == l[k - i];
    }
  }

  /** `r` is `s[i..i + |r|]`, and everything of `s` outside that slice is blank. */
  predicate StripCut(s: string, r: string, i: int) {
    0 <= i <= |s| - |r| && r == s[i..i + |r|]
    && (forall k :: 0 <= k < i ==> IsSpace(s[k]))
    && (forall k :: i + |r| <= k < |s| ==> IsSpace(s[k]))
  }

  /** Stripping twice is stripping once. */
  lemma StripIdempotent(s: string)
    ensures Strip(Strip(s)) == Strip(s)
  {
    if |Strip(s)| > 0 {
      StripUnchanged(Strip(s));
    }
  }

  /** What trimming both ends keeps: characters of `s`, and nothing only when `s`
      is all blanks. */
  lemma TrimBoth(s: string)
    ensures forall c :: c in TrimRight(TrimLeft(s)) ==> c in s
    ensures |TrimRight(TrimLeft(s))| == 0 <==> forall i :: 0 <= i < |s| ==> IsSpace(s[i])
  {
    var l := TrimLeft(s);
    var r := TrimRight(l);
    var cut := |s| - |l|;
    forall c | c in r ensures c in s {
      var k :| 0 <= k < |r| && r[k] == c;
      assert l[k] == c && s[cut + k] == c;
    }
    if |r| == 0 {
      assert |l| == 0;
    } else {
      assert r[0] == l[0] == s[cut];
    }
  }

  /** Joins pieces with a separator: the inverse of `Split`. */
  function Join(pieces: seq<string>, sep: char): string
    requires |pieces| > 0
  {
    if |pieces| == 1 then pieces[0] else pieces[0] + [sep] + Join(pieces[1..], sep)
  }

  /** Python's `s.split(sep)` for a one-character separator. */
  function Split(s: string, sep: char): (pieces: seq<string>)
    ensures |pieces| > 0
    ensures forall k :: 0 <= k < |pieces| ==> sep !in pieces[k]
    ensures Join(pieces, sep) == s
  {
    if |s| == 0 then [""]
    else
      var rest := Split(s[1..], sep);
      if s[0] == sep then
        assert Join([""] + rest, sep) == [sep] + Join(rest, sep) by {
          assert ([""] + rest)[1..] == rest;
        }
        [""] + rest
      else
        var r := [[s[0]] + rest[0]] + rest[1..];
        assert Join(r, sep) == s by {
          if |rest| > 1 {
            assert r[1..] == rest[1..];
          }
        }
        r
  }

  /** Text without the separator splits into itself alone. */
  lemma {:induction false} SplitWithout(s: string, sep: char)
    requires sep !in s
    ensures Split(s, sep) == [s]
  {
    if |s| > 0 {
      assert sep !in s[1..];
      SplitWithout(s[1..], sep);
      assert [s[0]] + s[1..] == s;
    }
  }

  /** A first piece free of the separator splits off whole before the rest. */
  lemma {:induction false} SplitCons(a: string, sep: char, b: string)
    requires sep !in a
    ensures Split(a + [sep] + b, sep) == [a] + Split(b, sep)
  {
    var s := a + [sep] + b;
    if |a| > 0 {
      assert s[1..] == a[1..] + [sep] + b;
      assert sep !in a[1..];
      SplitCons(a[1..], sep, b);
      assert [a[0]] + a[1..] == a;
    } else {
      assert s[0] == sep && s[1..] == b;
    }
  }

  /** `Split` undoes `Join` when no piece holds the separator. */
  lemma {:induction false} SplitJoin(pieces: seq<string>, sep: char)
    requires |pieces| > 0
    requires forall k :: 0 <= k < |pieces| ==> sep !in pieces[k]
    ensures Split(Join(pieces, sep), sep) == pieces
    decreases |pieces|
  {
    if |pieces| == 1 {
      SplitWithout(pieces[0], sep);
    } else {
      SplitJoin(pieces[1..], sep);
      SplitCons(pieces[0], sep, Join(pieces[1..], sep));
    }
  }

  /** Python's `needle in haystack` for strings. */
  predicate IsSubstring(needle: string, haystack: string)
    decreases |haystack|
  {
    needle <= haystack || (|haystack| > 0 && IsSubstring(needle, haystack[1..]))
  }

  /** `needle` occurs in `haystack` starting at offset `k`. */
  predicate OccursAt(needle: string, haystack: string, k: int) {
    0 <= k && k + |needle| <= |haystack| && haystack[k..k + |needle|] == needle
  }

  /** `IsSubstring` holds exactly when the needle occurs at some offset. */
  lemma {:induction false} IsSubstringAt(needle: string, haystack: string)
    ensures IsSubstring(needle, haystack) <==> exists k :: OccursAt(needle, haystack, k)
    decreases |haystack|
  {
    if needle <= haystack {
      assert OccursAt(needle, haystack, 0);
    }
    if |haystack| > 0 {
      IsSubstringAt(needle, haystack[1..]);
      if IsSubstring(needle, haystack[1..]) {
        var k :| OccursAt(needle, haystack[1..], k);
        OccursShift(needle, haystack, k + 1);
      }
      if exists k :: OccursAt(needle, haystack, k) {
        var k :| OccursAt(needle, haystack, k);
        if k > 0 {
          OccursShift(needle, haystack, k);
        }
      }
    }
  }

  /** An occurrence past the first character is one in the rest of the text. */
  lemma OccursShift(needle: string, haystack: string, k: int)
    requires 0 < k && |haystack| > 0
    ensures OccursAt(needle, haystack, k) <==> OccursAt(needle, haystack[1..], k - 1)
  {
    if k + |needle| <= |haystack| {
      assert haystack[1..][k - 1..k - 1 + |needle|] == haystack[k..k + |needle|];
    }
  }

  /** Python's string ordering: code point by code point, a proper prefix first. */
  predicate LexLe(a: string, b: string)
    decreases |a|
  {
    |a| == 0 || (|b| > 0 && (a[0] < b[0] || (a[0] == b[0] && LexLe(a[1..], b[1..]))))
  }

  lemma {:induction false} LexLeReflexive(a: string)
    ensures LexLe(a, a)
    decreases |a|
  {
    if |a| > 0 {
      LexLeReflexive(a[1..]);
    }
  }

  lemma {:induction false} LexLeTotal(a: string, b: string)
    ensures LexLe(a, b) || LexLe(b, a)
    decreases |a|
  {
    if |a| > 0 && |b| > 0 && a[0] == b[0] {
      LexLeTotal(a[1..], b[1..]);
    }
  }

  lemma {:induction false} LexLeTransitive(a: string, b: string, c: string)
    requires LexLe(a, b) && LexLe(b, c)
    ensures LexLe(a, c)
    decreases |a|
  {
    if |a| > 0 && a[0] == b[0] && b[0] == c[0] {
      LexLeTransitive(a[1..], b[1..], c[1..]);
    }
  }

  lemma {:induction false} LexLeAntisymmetric(a: string, b: string)
    requires LexLe(a, b) && LexLe(b, a)
    ensures a == b
    decreases |a|
  {
    if |a| > 0 {
      LexLeAntisymmetric(a[1..], b[1..]);
      assert a == [a[0]] + a[1..] && b == [b[0]] + b[1..];
    }
  }

  /** Every string is at most each later one. */
  predicate SortedStrings(xs: seq<string>) {
    forall i, j :: 0 <= i < j < |xs| ==> LexLe(xs[i], xs[j])
  }

  /** Places `x` into a sorted list. */
  function InsertString(x: string, xs: seq<string>): (r: seq<string>)
    requires SortedStrings(xs)
    ensures SortedStrings(r)
    ensures multiset(r) == multiset(xs) + multiset{x}
    decreases |xs|
  {
    if |xs| == 0 then [x]
    else if LexLe(x, xs[0]) then
      InsertStringFront(x, xs);
      [x] + xs
    else
      LexLeTotal(x, xs[0]);
      var rest := InsertString(x, xs[1..]);
      InsertStringBehind(x, xs, rest);
      [xs[0]] + rest
  }

  /** A string at most the first of a sorted list can lead it. */
  lemma InsertStringFront(x: string, xs: seq<string>)
    requires SortedStrings(xs) && |xs| > 0 && LexLe(x, xs[0])
    ensures SortedStrings([x] + xs)
  {
    var r := [x] + xs;
    forall i, j | 0 <= i < j < |r| ensures LexLe(r[i], r[j]) {
      if i == 0 {
        assert r[j] == xs[j - 1];
        if j > 1 {
          LexLeTransitive(x, xs[0], xs[j - 1]);
        }
      } else {
        assert r[i] == xs[i - 1] && r[j] == xs[j - 1];
      }
    }
  }

  /** The step of `InsertString` that keeps the head: `rest` holds the tail and `x`, sorted. */
  lemma InsertStringBehind(x: string, xs: seq<string>, rest: seq<string>)
    requires SortedStrings(xs) && |xs| > 0 && LexLe(xs[0], x)
    requires SortedStrings(rest) && multiset(rest) == multiset(xs[1..]) + multiset{x}
    ensures SortedStrings([xs[0]] + rest)
    ensures multiset([xs[0]] + rest) == multiset(xs) + multiset{x}
  {
    assert xs == [xs[0]] + xs[1..];
    var r := [xs[0]] + rest;
    forall i, j | 0 <= i < j < |r| ensures LexLe(r[i], r[j]) {
      assert r[j] == rest[j - 1];
      if i == 0 {
        var y := rest[j - 1];
        assert y in multiset(rest);
        if y != x {
          assert y in multiset(xs[1..]);
          var k :| 0 <= k < |xs[1..]| && xs[1..][k] == y;
          assert xs[k + 1] == y;
        }
      } else {
        assert r[i] == rest[i - 1];
      }
    }
  }

  /** Python's `sorted` on strings. */
  function SortStrings(xs: seq<string>): (r: seq<string>)
    ensures SortedStrings(r)
    ensures multiset(r) == multiset(xs)
    decreases |xs|
  {
    if |xs| == 0 then []
    else
      assert xs == [xs[0]] + xs[1..];
      InsertString(xs[0], SortStrings(xs[1..]))
  }

  /** There is only one sorted arrangement of a multiset of strings, so `SortStrings`
      agrees with any other sort. */
  lemma {:induction false} SortedUnique(a: seq<string>, b: seq<string>)
    requires SortedStrings(a) && SortedStrings(b)
    requires multiset(a) == multiset(b)
    ensures a == b
    decreases |a|
  {
    if |a| > 0 {
      assert |b| == |multiset(b)| == |a|;
      SortedHeadLeast(a, b[0]);
      SortedHeadLeast(b, a[0]);
      LexLeAntisymmetric(a[0], b[0]);
      MultisetTail(a);
      MultisetTail(b);
      SortedTail(a);
      SortedTail(b);
      SortedUnique(a[1..], b[1..]);
      assert a == [a[0]] + a[1..] && b == [b[0]] + b[1..];
    }
  }

  /** The head of a sorted list is at most any element of it. */
  lemma SortedHeadLeast(a: seq<string>, x: string)
    requires SortedStrings(a) && x in multiset(a)
    ensures LexLe(a[0], x)
  {
    var k :| 0 <= k < |a| && a[k] == x;
    LexLeReflexive(a[0]);
  }

  lemma SortedTail(a: seq<string>)
    requires SortedStrings(a) && |a| > 0
    ensures SortedStrings(a[1..])
  {
    forall i, j | 0 <= i < j < |a[1..]| ensures LexLe(a[1..][i], a[1..][j]) {
      assert a[1..][i] == a[i + 1] && a[1..][j] == a[j + 1];
    }
  }

  /** The tail of a list holds its elements but the head. */
  lemma MultisetTail(a: seq<string>)
    requires |a| > 0
    ensures multiset(a[1..]) == multiset(a) - multiset{a[0]}
  {
    assert a == [a[0]] + a[1..];
  }

  /** A string without blanks at either end is left alone by `Strip`. */
  lemma StripUnchanged(s: string)
    requires |s| > 0 && !IsSpace(s[0]) && !IsSpace(s[|s| - 1])
    ensures Strip(s) == s
  {
  }

  /** Python's `int(s)` on ASCII text: blanks around, an optional sign, then digits. */
  function ParseInt(s: string): Option<int> {
    var t := Strip(s);
    if |t| > 0 && (t[0] == '+' || t[0] == '-') && IsDigitString(t[1..]) then
      var v: int := ParseDigits(t[1..]);
      Some(if t[0] == '-' then -v else v)
    else if IsDigitString(t) then Some(ParseDigits(t))
    else None
  }

  /** `int(str(i)) == i`. */
  lemma ParseIntToString(i: int)
    ensures ParseInt(IntToString(i)) == Some(i)
  {
    var n: nat := if i < 0 then -i else i;
    var digits := NatToString(n);
    ParseNatToString(n);
    assert IsDigit(digits[0]) && IsDigit(digits[|digits| - 1]);
    if i < 0 {
      ParseSigned('-', digits);
    } else {
      assert IntToString(i) == digits;
      StripUnchanged(digits);
    }
  }

  /** A sign before digits reads as the number, negated for a minus. */
  lemma ParseSigned(sign: char, digits: string)
    requires sign == '+' || sign == '-'
    requires IsDigitString(digits)
    ensures ParseInt([sign] + digits) == Some(if sign == '-' then -(ParseDigits(digits) as int) else ParseDigits(digits))
  {
    var s := [sign] + digits;
    assert s[1..] == digits && s[|s| - 1] == digits[|digits| - 1];
    StripUnchanged(s);
  }

}

=== FILE: wrappers.dfy ===
/** Failure-carrying datatypes shared by every table and command module. */
module Wrappers {

  /** A value that may be absent: Python's `None` versus a row or object. */
  datatype Option<+T> = None | Some(value: T)

  /** Either a result or the exception the Python code raises instead. */
  datatype Result<+T, +E> = Ok(value: T) | Err(error: E)

  /** What a record constructor is handed: a falsy value (`None`, `()`),
      a truthy value that is not a tuple, or a tuple holding a row. */
  datatype RawData<+T> = Falsy | NotATuple | Tuple(fields: T)

  /** The record constructors of `Player`, `Event` and `Signup`: the row inside a
      tuple, or the module's `ValueError` for falsy or non-tuple data. */
  function Construct<T, E>(d: RawData<T>, valueError: E): (r: Result<T, E>)
    ensures r.Ok? <==> d.Tuple?
    ensures r.Ok? ==> r.value == d.fields
    ensures r.Err? ==> r.error == valueError
  {
    match d
    case Tuple(f) => Ok(f)
    case _ => Err(valueError)
  }
}
